=== FILE: README.md ===
# Literature pipeline: a Dafny model of its bookkeeping and string logic

The repository is a literature-review pipeline:

- Step 1 searches DBLP and turns each hit into a spreadsheet row.
- Step 2 fetches abstracts into a directory of small JSON files.
- Step 3 asks a chat model to score every paper's relevance. It sends batches of rows, with checkpoint and resume, and then sorts the rows by score.
- Step 4 downloads the PDFs of the well-scored papers through a browser.

Two small utilities split a JSON list of papers into one `NN.json` file per index and merge chosen indices back together.

This Dafny project models the pure logic around those network calls:

- `Common`: strings, whitespace stripping, `str.replace`, and the decimal `int()`/`str()` round trip.
- `Fences`: removal of Markdown code fences from a model reply.
- `Retry`: the three-attempt retry and back-off loop of `_call_ai`, over a sequence of attempt outcomes.
- `Batching`: Python's slice chunking `[s[i:i+b] for i in range(0, len(s), b)]`.
- `Sorting`: descending sort by score.
- `Checkpoint`: the checkpoint's `str(k)`/`int(k)` key encoding.
- `Annotation`: abstract look-up for a row, and the prompt text of a batch.
- `Scoring`: `run_ai_scoring`. It merges prior results, computes the pending rows, cuts them into chunks, aligns each reply to row ids, checkpoints after every batch, then fills and sorts the table. Batch completion is an arbitrary order of the chunks.
- `ScoringProperties`: the properties of the run as a whole (partition, one result per row, resume, idempotent rerun).
- `SequentialScoring`: the five-at-a-time scorer of step 3.
- `Doi`: `extract_doi`, as a hand-written matcher for its regular expression.
- `Dblp`: the hit-to-row transformation, in both of its copies.
- `Slug`: `slugify`, in both of its copies.
- `PdfFetch`: the step 4 decisions: targets, DOI skip, IEEE routing, `arnumber` and download URL, target file name, already-downloaded skip.
- `PaperFiles`: `split_json_papers` and `merge_specific_jsons`, with each directory modelled as a map from file name to content.

Remote services, files and spreadsheets are parameters:

- A remote call is a value, or a sequence of attempt outcomes.
- `json.loads` is a function parameter `parse`.
- A directory is a `map`.
- A decoded JSON value is a datatype whose absent keys are explicit.

## Model

| member | source | states |
|---|---|---|
| Common.ContainsIffOccurs | paper_pipeline.py:254 | the substring test `p in s` holds exactly when `p` occurs at some offset of `s` |
| Common.ReplaceAbsent | paper_pipeline.py:251 | `str.replace` of a pattern that does not occur returns the text unchanged |
| Common.TrimLeft | paper_pipeline.py:250 | the result is a suffix of the input; everything dropped is whitespace, and the result does not start with whitespace |
| Common.TrimRight | paper_pipeline.py:250 | the result is a prefix of the input; everything dropped is whitespace, and the result does not end with whitespace |
| Common.StripUnchanged | paper_pipeline.py:250 | `strip()` leaves a text alone when it neither starts nor ends with whitespace |
| Common.StripKeepsAbsence | paper_pipeline.py:251 | stripping cannot create an occurrence of a pattern that was absent |
| Common.NatToString | paper_pipeline.py:288 | the decimal text of a natural number is non-empty and all digits, with no leading zero except for 0 itself |
| Common.DigitsValueOfNatToString | paper_pipeline.py:280 | reading the decimal digits of `n` back yields `n` |
| Common.ParseIntOfIntToString | paper_pipeline.py:280-288 | `int(str(n)) == n` for every integer, negative ones included |
| Common.ParseIntInvertsIntToString | paper_pipeline.py:280-288 | the same round trip, stated for all integers at once |
| Common.IntToStringInjective | paper_pipeline.py:288 | different integers have different decimal texts, so checkpoint keys never collide |
| Common.DigitRun | step4_fetch_pdfs_scihub.py:109 | the length of the maximal run of digits from a position: every character in it is a digit, and the next one is not |
| Fences.CleanReply | paper_pipeline.py:250-251 | after the fence cleaning, the reply contains neither "```json" nor "```" |
| Fences.NoFenceAfterRemoval | paper_pipeline.py:251 | replacing every "```" by "" leaves no "```", even where removal joins back-ticks |
| Fences.ReplacesNothing | paper_pipeline.py:251 | a reply without "```" passes through both replacements unchanged |
| Fences.CleanReplyKeepsPlainText | step3_ai_relevance_analysis.py:73-75 | a stripped reply without fences reaches `json.loads` exactly as received |
| Fences.KeepsFirstChar | paper_pipeline.py:251 | removing fences keeps the first character of a text that does not start with a back-tick |
| Fences.NoDoubleTickAfterRemoval | paper_pipeline.py:251 | removing fences from a text that does not start with "``" cannot make it start with "``" |
| Retry.CallFrom | paper_pipeline.py:241-260 | from attempt `k` on, the loop stops after an attempt that succeeded or failed terminally, or after the third; every earlier attempt it passed was a retryable failure |
| Retry.Waits | paper_pipeline.py:255-256 | the sleeps before `n` attempts are 5, then 10 seconds, and there is no sleep after the last attempt |
| Retry.CallAi | paper_pipeline.py:239-260 | a call makes 1 to 3 attempts, and the waits between them are a prefix of [5, 10] |
| Retry.CallAiSucceedsIff | paper_pipeline.py:241-259 | the call returns a value exactly when some attempt parses and every earlier one was rate-limited; it returns that attempt's parsed value |
| Retry.TerminalFailureStops | paper_pipeline.py:254-259 | a first failure that is neither "429" nor "rate limit" returns None after one attempt and no wait |
| Retry.BackoffSchedule | paper_pipeline.py:254-257 | two rate-limited attempts and then a success take three attempts, with waits of 5 and 10 |
| Retry.RateLimitExhaustion | paper_pipeline.py:254-260 | three rate-limited attempts return None after waits of 5 and 10 |
| Batching.Chunks | paper_pipeline.py:332 | a negative size gives no chunks; every chunk is non-empty and at most `size` long; all but the last chunk are full |
| Batching.ChunksPartition | paper_pipeline.py:332 | the chunks, concatenated in order, are exactly the input |
| Batching.ChunkIsSlice | paper_pipeline.py:332 | chunk `i` is the slice `s[i*size : i*size+size]`, clipped at the end of `s` |
| Batching.ChunkElement | paper_pipeline.py:332 | element `j` of chunk `c` is element `c*size + j` of the input |
| Batching.FlattenMember | paper_pipeline.py:337-342 | anything in the concatenation of the chunks is in one of the chunks |
| Batching.FlattenContains | paper_pipeline.py:337-342 | anything in some chunk is in the concatenation |
| Batching.TwelveInFives | step3_ai_relevance_analysis.py:89-91 | twelve rows in steps of five give the groups `[0:5]`, `[5:10]`, `[10:12]` |
| Sorting.Insert | paper_pipeline.py:366 | inserting into a descending list keeps it descending and adds exactly one copy of the element |
| Sorting.SortDescending | paper_pipeline.py:366 | the result is non-increasing by the key and a permutation of the input |
| Checkpoint.Save | paper_pipeline.py:285-288 | one entry per key, in order; each entry's text key reads back as the integer key, and it carries that key's value |
| Checkpoint.LoadSaveRoundTrip | paper_pipeline.py:274-288 | loading a saved checkpoint gives back exactly the map that was saved |
| Checkpoint.LoadSavedInto | paper_pipeline.py:280 | loading saved entries over an accumulator adds exactly the saved keys with their values |
| Checkpoint.BadKeyDiscardsAll | paper_pipeline.py:277-282 | a single key that is not an integer makes the whole checkpoint load as empty |
| Checkpoint.BadKeyFails | paper_pipeline.py:280 | the dict comprehension raises as soon as it meets a key that is not an integer |
| Annotation.PlaceholderLinkIgnoresFiles | step3_ai_relevance_analysis.py:45-46 | a NaN or "Not_Found" link gives "无摘要数据。" in both readers, whatever the directory holds |
| Annotation.ReadersOnlyConsultTheLinkedFile | paper_pipeline.py:225-236 | both readers depend only on the file the link names |
| Annotation.ReadersAgree | step3_ai_relevance_analysis.py:43-53 | the step 3 reader raises exactly on an empty link or a damaged file; otherwise it returns what `_read_abstract` returns |
| Annotation.Entries | paper_pipeline.py:267-269 | one prompt entry per row of the batch |
| Annotation.PromptListsItemsInOrder | step3_ai_relevance_analysis.py:57-59 | the prompt is the header followed by the entries `[文献 1]` … `[文献 n]`, in row order |
| Scoring.ApiKey | paper_pipeline.py:218-222 | a key exists exactly when the configured key or the environment variable is non-empty, and the configured key wins |
| Scoring.SheetResults | paper_pipeline.py:298-303 | the prior-output map has exactly the ids of rows with a score; for repeated ids, the last such row gives the result |
| Scoring.ExistingResults | paper_pipeline.py:291-305 | no readable output file, or no score and reason columns, gives the empty map; otherwise it is the rows' map |
| Scoring.Known | paper_pipeline.py:317-320 | the merged keys are the union of the output's and the checkpoint's keys, and the checkpoint's result wins |
| Scoring.Pending | paper_pipeline.py:322 | a row is pending exactly when it is a row whose id has no result yet; the order is the input order, stated by `Scoring.PendingAppend` |
| Scoring.PendingAppend | paper_pipeline.py:322 | the pending rows of a concatenated table are the pending rows of each part, concatenated, so the input order is kept |
| Scoring.PendingSnoc | paper_pipeline.py:322 | a row added at the end of the table is added at the end of the pending rows exactly when its id has no result |
| Scoring.PendingKeepsDistinct | paper_pipeline.py:322 | filtering rows with distinct ids leaves rows with distinct ids |
| Scoring.PendingDependsOnKeys | paper_pipeline.py:322 | which rows are pending depends only on the set of known ids |
| Scoring.Record | paper_pipeline.py:352-359 | recording a reply adds exactly the batch's ids; every other key keeps its result; each id gets the reply element at its position (the last position, for a repeated id) |
| Scoring.RecordFrom | paper_pipeline.py:352-359 | the same, for the alignment loop from position `j` on |
| Scoring.After | paper_pipeline.py:344-362 | after the completed batches, the results hold the prior keys plus every id of a completed batch, and leave the other prior results alone |
| Scoring.AfterTakesOwnReply | paper_pipeline.py:344-359 | when ids are unique across batches, each id of a completed batch holds its own batch's reply at its own position |
| Scoring.Table | paper_pipeline.py:364-366 | the final table has one row per input row, is non-increasing by score, and is a permutation of the filled rows |
| Scoring.BatchesFor | paper_pipeline.py:322-332 | batches are non-empty and at most `batch_size` long, and together they are exactly the pending rows |
| Scoring.PromptsListBatches | paper_pipeline.py:263-271 | batch `c`'s prompt is the header followed by `[文献 j+1]` with the title and resolved abstract of the batch's `j`-th row, in row order |
| Scoring.Saves | paper_pipeline.py:361-362 | one checkpoint is written per completed batch; the `t`-th holds the results after the first `t+1` completions |
| Scoring.SaveAt | paper_pipeline.py:362 | the checkpoint written after a completion is the result map at that moment |
| Scoring.RunAiScoring | paper_pipeline.py:308-369 | the run fails exactly without an API key, or with batch size 0 or a worker count that is not positive while something is pending; otherwise the table is a sorted permutation of all rows, one prompt and one checkpoint per batch, and the batches partition the pending rows |
| ScoringProperties.BatchIdsWerePending | paper_pipeline.py:322-332 | no batched id already had a result |
| ScoringProperties.RunShape | paper_pipeline.py:308-369 | a successful run's results are the known map after every batch completed in the given order, and its table is built from them |
| ScoringProperties.RunPrompts | paper_pipeline.py:263-271 | a successful run's prompts are those of its batches, one each: the header, then `[文献 j+1]` with the title and resolved abstract of the batch's `j`-th row, in row order |
| ScoringProperties.FinalSaveIsResults | paper_pipeline.py:344-361 | when there were batches, the last checkpoint written holds the run's final results |
| ScoringProperties.AllRowsResolved | paper_pipeline.py:322-362 | once every batch has completed, every row id has a result |
| ScoringProperties.TableRowsLookUp | paper_pipeline.py:364-365 | every table row is an input row carrying its own id's result, or score 0 and "处理遗漏" |
| ScoringProperties.EveryRowGetsAResult | paper_pipeline.py:352-366 | after a run with a positive batch size, every row has a result, and the table shows that result |
| ScoringProperties.KnownIdsNotBatched | paper_pipeline.py:322 | no id that was already known is in a completed batch |
| ScoringProperties.KnownResultsKept | paper_pipeline.py:317-362 | a result that was known before the run is unchanged after it |
| ScoringProperties.ChunkIdsUnique | paper_pipeline.py:332-341 | rows with distinct ids give batches whose ids are unique across all batches |
| ScoringProperties.ChunkPositionsDistinct | paper_pipeline.py:332-341 | two batch positions holding the same id are the same position |
| ScoringProperties.CompletedBatchesTakeOwnReply | paper_pipeline.py:344-359 | whatever the completion order, every id of every batch ends with its own batch's reply at its position |
| ScoringProperties.BatchReplyLandsOnItsRows | paper_pipeline.py:341-359 | in a run over distinct row ids, row `j` of batch `c` ends with element `j` of batch `c`'s reply, with defaults when it is short or failed |
| ScoringProperties.RunRepliesLand | paper_pipeline.py:341-359 | the same statement for any run whose results are the fold over its batches |
| ScoringProperties.NegativeBatchSizeScoresNothing | paper_pipeline.py:332-365 | a negative batch size makes no batches; rows without prior results get score 0 and "处理遗漏" |
| ScoringProperties.SavesGrow | paper_pipeline.py:361-362 | every checkpoint keeps the prior keys and the ids of every batch completed so far, and later checkpoints contain earlier ones |
| ScoringProperties.CheckpointOnlyGrows | paper_pipeline.py:361-362 | the same for the checkpoints a run writes |
| ScoringProperties.RunSavesGrow | paper_pipeline.py:361-362 | the same for any run whose checkpoints follow the fold |
| ScoringProperties.DonePrefix | paper_pipeline.py:344 | an id is done after the first `t+1` completions exactly when one of those batches holds it |
| ScoringProperties.ResumePending | paper_pipeline.py:322 | with the ids of the first `t+1` completed batches added to the known keys, the pending rows are the previously pending rows outside those batches |
| ScoringProperties.ResumeFromSave | paper_pipeline.py:317-322 | restarting from the `t`-th checkpoint leaves pending exactly the rows that were pending and not in the first `t+1` completed batches |
| ScoringProperties.ResumedKnown | paper_pipeline.py:317-320 | after a restart, the known ids are the earlier known ids plus those of the completed batches |
| ScoringProperties.ResumeAfterCrash | paper_pipeline.py:317-362 | a crash after the `t`-th checkpoint and a restart leave pending exactly the rows no completed batch covered |
| ScoringProperties.NothingLeftToScore | paper_pipeline.py:322-330 | when every row id is known, nothing is pending and the table is the one the known results give |
| ScoringProperties.RerunIsIdempotent | paper_pipeline.py:324-330 | the last checkpoint holds the final results, and rerunning from them makes no batches and reproduces the same table |
| ScoringProperties.TwelveRowsResumeFromFive | paper_pipeline.py:317-332 | twelve rows with the first five checkpointed resume with rows 5-11, in the batches `[5:10]` and `[10:12]` |
| ScoringProperties.PendingAfterKnownPrefix | paper_pipeline.py:322 | when exactly a prefix of the rows is known, the pending rows are the rest |
| SequentialScoring.FailureReply | step3_ai_relevance_analysis.py:79 | a failed call gives `len(batch)` copies of score 0 and "分析失败" |
| SequentialScoring.Align | step3_ai_relevance_analysis.py:104-111 | position `j` takes element `j` of the reply (default 0 and "无理由") when there is one, and 0 with "AI 未能返回结果" otherwise; a reply that is neither a list nor empty raises |
| SequentialScoring.ReadGroup | step3_ai_relevance_analysis.py:94-99 | the group's abstracts are read in row order, and the read fails exactly when one of them raises |
| SequentialScoring.GroupResult | step3_ai_relevance_analysis.py:93-111 | a group whose abstracts raise ends with that failure; a group that does not raise yields exactly one score per row |
| SequentialScoring.GroupPrompt | step3_ai_relevance_analysis.py:57-59 | the prompt is the five-paper header followed by one labelled entry per item, in group order |
| SequentialScoring.GroupPromptListsRows | step3_ai_relevance_analysis.py:57-59 | entry `k` of a group's prompt is `[文献 k+1]` with row `k`'s title and the abstract read for it |
| SequentialScoring.GroupCallSeesOnlyItsPrompt | step3_ai_relevance_analysis.py:61-74 | the service sees the group only through that prompt: calls that answer it alike give the same result |
| SequentialScoring.FailedCallScoresZero | step3_ai_relevance_analysis.py:77-111 | a call that fails on the group's prompt scores every row of the group 0 with "分析失败" |
| SequentialScoring.RunStepsIsConcatenation | step3_ai_relevance_analysis.py:85-111 | the scores are the groups' scores concatenated in order, and the first failing group ends the run with its error |
| SequentialScoring.GroupResults | step3_ai_relevance_analysis.py:90-111 | one result per group, and each successful one is as long as its group |
| SequentialScoring.ScoreGroups | step3_ai_relevance_analysis.py:90-111 | when no group fails, there is exactly one score per row |
| SequentialScoring.GroupsOf | step3_ai_relevance_analysis.py:89-91 | the groups of five are non-empty and consecutive, all but the last are full, and together they are the rows |
| SequentialScoring.Attach | step3_ai_relevance_analysis.py:117-118 | the score columns are as long as the table |
| SequentialScoring.RunAnalysis | step3_ai_relevance_analysis.py:81-123 | the run succeeds exactly when no group fails; the output is a permutation of the rows with their scores, non-increasing by score |
| SequentialScoring.FlattenAt | step3_ai_relevance_analysis.py:90-91 | element `j` of group `g` is at offset `5g + j` of the concatenation |
| SequentialScoring.RunStepsAt | step3_ai_relevance_analysis.py:104-111 | the score at offset `5g + j` is the `j`-th score of group `g` |
| SequentialScoring.RowTakesItsGroupsScore | step3_ai_relevance_analysis.py:89-118 | row `5g + j` is row `j` of group `g`, and its score is that group's `j`-th aligned result |
| SequentialScoring.AlignmentsAgree | step3_ai_relevance_analysis.py:104-111 | the two scorers align a list reply to the same scores; they differ only in the reason text for a missing position |
| Doi.ClassRun | paper_pipeline.py:73 | the length of the maximal run of `[-._;()/:a-zA-Z0-9]` characters from a position |
| Doi.GroupEnd | paper_pipeline.py:73 | the captured group of a match ends past "10." and within the text |
| Doi.FirstMatch | paper_pipeline.py:73 | `re.search` finds the leftmost offset where the pattern matches, or none exists |
| Doi.ExtractDoi | paper_pipeline.py:70-74 | the result is "" exactly for an empty URL or no match; otherwise it is the leftmost match's group, of the form `10.` + at least 4 digits + `/` + at least one class character |
| Doi.GroupIsDoiShaped | paper_pipeline.py:73 | the group of any match has the DOI shape |
| Doi.WildcardDot | paper_pipeline.py:73 | the unescaped `.` lets "doiXorg/10.1234/ab" yield "10.1234/ab" |
| Doi.TooFewDigits | paper_pipeline.py:73 | "doi.org/10.123/ab" has no match, because three digits are too few |
| Doi.FirstMatchIsExtracted | paper_pipeline.py:74 | the returned text is the group of the first match |
| Dblp.PipelineYear | paper_pipeline.py:94 | an absent, null or empty year counts as 0; a number is kept; other text goes through `int()` |
| Dblp.Step1Year | step1_fetch_dblp.py:21 | an absent year is 0; a null year raises; text goes through `int()` |
| Dblp.YearConversionsAgree | paper_pipeline.py:94 | whenever step 1 reads a year, the pipeline reads the same year, and a year the pipeline cannot read also fails in step 1 |
| Dblp.SingleAuthorShapesAgree | paper_pipeline.py:98-102 | a single author given as an object gives the same text as a one-element author list |
| Dblp.TwoAuthorsJoined | step1_fetch_dblp.py:24-28 | two author texts are joined with ", " |
| Dblp.PipelineDoi | paper_pipeline.py:70-74 | `extract_doi` of the `ee` value: "" for an absent, null, empty or empty-list link, the matcher's DOI for a text link, and a raise exactly for a non-empty list of links |
| Dblp.ToPipelineRow | paper_pipeline.py:104-113 | the row exists exactly when the link is not a non-empty list; it carries the hit's year and `ee` value ("" when absent), and its DOI is the one extracted from a text link and "" otherwise |
| Dblp.PipelineRows | paper_pipeline.py:90-115 | the loop completes exactly when every hit's year converts and no kept hit's link is a non-empty list, and then it gives one row per hit whose year is at least the start year |
| Dblp.PipelineStep | paper_pipeline.py:92-114 | one hit raises exactly when its year does not convert or it is kept with a link that is a non-empty list; otherwise it appends its row exactly when it is kept |
| Dblp.PipelineRowsKept | paper_pipeline.py:94-113 | every row's year is at least the start year, and every kept hit's row is in the result |
| Dblp.PipelineRowsFromHits | paper_pipeline.py:92-113 | every row comes from a kept hit |
| Dblp.PipelineRowsAppend | paper_pipeline.py:92-114 | the rows of two runs of hits are the concatenation of their rows, so input order is kept |
| Dblp.FetchOnce | paper_pipeline.py:82-115 | a failed request gives no rows; otherwise the result is the loop's over the hits, which raises on an unconvertible year or a kept hit's list of links, and whose rows are all at or after the start year |
| Dblp.Step1Rows | step1_fetch_dblp.py:16-37 | the loop completes exactly when every year converts; every row's year is at least the start year, and every such hit's row is in the result |
| Dblp.Step1MatchesPipeline | step1_fetch_dblp.py:19-37 | when step 1 succeeds, the pipeline succeeds exactly when no hit step 1 keeps has a non-empty list of links, and then it has as many rows with the same years and authors, position by position |
| Dblp.LinkListDiverges | step1_fetch_dblp.py:35 | a kept hit whose link is a non-empty list is saved by step 1, which only copies the link, and makes the pipeline raise |
| Dblp.EmptyYearDiverges | step1_fetch_dblp.py:21 | an empty year text is year 0 for the pipeline, which keeps the hit unless its link raises, but makes step 1 raise |
| Dblp.FetchAndSave | step1_fetch_dblp.py:10-41 | a non-200 response saves nothing; an unconvertible year raises; otherwise the saved rows are the step 1 rows, and the reported count is their number |
| Slug.RemoveDisallowed | paper_pipeline.py:151 | only word characters, whitespace and `-` remain, each taken from the input; a text made only of those is unchanged |
| Slug.DropSeparators | paper_pipeline.py:152 | a suffix of the input that does not start with a separator |
| Slug.Collapse | paper_pipeline.py:152 | no separator remains; every other character is `_` or comes from the input; a text without separators is unchanged |
| Slug.SlugifyChars | paper_pipeline.py:150-152 | a slug is made only of lower-case letters, digits and `_` |
| Slug.SlugifyFixedPoints | paper_pipeline.py:150-152 | `slugify` leaves a text unchanged exactly when the text is already a slug |
| Slug.SlugUnchanged | paper_pipeline.py:150-152 | a slug passes through every stage unchanged |
| Slug.SlugifyIdempotent | paper_pipeline.py:150-152 | slugifying twice gives the same text as slugifying once |
| Slug.SlugifyCell | step4_fetch_pdfs_scihub.py:25-29 | a value that is not a string gives "untitled"; a string gives the shared `slugify`; the result is always a slug |
| PdfFetch.CoerceScore | step4_fetch_pdfs_scihub.py:137 | a number is kept; an empty cell or a non-numeric text counts as 0 |
| PdfFetch.Targets | step4_fetch_pdfs_scihub.py:136-140 | without a score column, every row is a target; with one, the targets are exactly the rows scoring at least 4, in order |
| PdfFetch.TargetsAppend | step4_fetch_pdfs_scihub.py:138 | filtering distributes over concatenation, so the filter keeps row order |
| PdfFetch.IsIeeeIffOccurs | step4_fetch_pdfs_scihub.py:177 | the IEEE path is taken exactly when "10.1109" occurs in the DOI or "IEEE" occurs in the venue |
| PdfFetch.FirstArnumber | step4_fetch_pdfs_scihub.py:109 | the leftmost offset where "document/" is followed by a digit |
| PdfFetch.Arnumber | step4_fetch_pdfs_scihub.py:109-111 | there is no match exactly when no "document/" is followed by a digit; otherwise the result is the maximal digit run after the leftmost such "document/" |
| PdfFetch.IeeeDownloadUrl | step4_fetch_pdfs_scihub.py:109-117 | a URL exists exactly when the landing page has an `arnumber`, and it is the stamp URL followed by that number |
| PdfFetch.StampUrlCarriesArnumber | step4_fetch_pdfs_scihub.py:113 | the download URL starts with the stamp prefix, and what follows it is the `arnumber`, all digits |
| PdfFetch.LandingPageArnumber | step4_fetch_pdfs_scihub.py:108-111 | "ieee.org/document/9746006/" yields the `arnumber` "9746006" |
| PdfFetch.FirstArnumberFrom | step4_fetch_pdfs_scihub.py:109 | the search finds the first offset where the pattern matches |
| PdfFetch.Truncate | step4_fetch_pdfs_scihub.py:167 | `title[:80]` is the prefix of at most 80 characters, and the whole title when it is shorter |
| PdfFetch.TargetNameAsWritten | step4_fetch_pdfs_scihub.py:167 | slicing a title that is not a string raises, so there is no name |
| PdfFetch.TargetName | step4_fetch_pdfs_scihub.py:167 | the file name is a slug followed by ".pdf"; for a string title it is the name the code computes; for a missing title it is "untitled.pdf" |
| PdfFetch.EmptyTitleRaises | step4_fetch_pdfs_scihub.py:161-167 | an empty title cell makes the code as written raise, while the intended name is "untitled.pdf" |
| PdfFetch.AfterWait | step4_fetch_pdfs_scihub.py:65-97 | a timeout leaves every file in place; a success puts the expected name on disk and takes the newest file's old name off it, and keeps every other file |
| PdfFetch.Decide | step4_fetch_pdfs_scihub.py:160-197 | a row is skipped exactly when it has no DOI; it is skipped as existing exactly when its file name is already saved; it errors exactly when the browser call raises; otherwise it takes the DOI or IEEE path the routing test picks, and waits as the browser reports |
| PdfFetch.Effect | step4_fetch_pdfs_scihub.py:186-189 | a success puts the row's name on disk; only a file the wait renamed to the row's name leaves the disk |
| PdfFetch.CountDownloaded | step4_fetch_pdfs_scihub.py:186-189 | there are never more successes than rows |
| PdfFetch.Loop | step4_fetch_pdfs_scihub.py:158-197 | one action per row; the success count is the number of waits that returned True; a file on disk, or a downloaded name, is still there at the end unless a later wait renamed it away |
| PdfFetch.LoopPrefix | step4_fetch_pdfs_scihub.py:160-197 | the first `k` decisions do not depend on the rows after them |
| PdfFetch.LoopSkipsNoDoi | step4_fetch_pdfs_scihub.py:164-165 | a row without a DOI is skipped |
| PdfFetch.SecondCopySkipped | step4_fetch_pdfs_scihub.py:167-171 | a later row whose file name was already downloaded is skipped as existing, unless a wait in between renamed that file away |
| PdfFetch.StaleFileRenamed | step4_fetch_pdfs_scihub.py:74-92 | a wait that finds no new file renames the newest earlier PDF to the row's name and counts a success, so the earlier file is gone |
| PdfFetch.FetchAll | step4_fetch_pdfs_scihub.py:135-197 | one action per target row, no more successes than actions, and every file on disk stays unless a wait renamed it away |
| PdfFetch.LoopAsWritten | step4_fetch_pdfs_scihub.py:160-175 | the loop as written completes exactly when no row with a DOI has a title that is not text; otherwise it stops at the first such row, having done what the corrected loop does with the rows before it |
| PdfFetch.FetchAllAsWritten | step4_fetch_pdfs_scihub.py:135-197 | `main` as written completes exactly when no target row raises on its title, and then agrees with the corrected `FetchAll`; otherwise it stops at a target row that raises |
| PaperFiles.PadIndex | split_json.py:40 | `{n:02d}` is at least two characters: a "0" before a single digit, and the plain decimal otherwise |
| PaperFiles.PadIndexInjective | split_json.py:40 | different indices get different padded texts |
| PaperFiles.NotPadded | split_json.py:40 | an index outside 0-9 is not written with a leading "0" |
| PaperFiles.FileNameInjective | split_json.py:40-41 | different indices get different file names, so only papers that share an index overwrite each other |
| PaperFiles.ReadIndex | split_json.py:32 | reading `paper_info.index` raises exactly for a paper, or `paper_info`, that is not an object; an integer index is read as itself |
| PaperFiles.SplitStep | split_json.py:29-53 | an integer index writes the paper under its file name and counts it; other papers change nothing; the loop aborts only on a raise before any index was bound |
| PaperFiles.SplitLoop | split_json.py:29-53 | no papers leave the state untouched; after any paper, an index was bound or the loop aborted |
| PaperFiles.SplitAbortsOnlyOnFirst | split_json.py:29-60 | the loop aborts exactly when the first paper makes the index read raise, and then nothing is written |
| PaperFiles.LastWithIndex | split_json.py:40-47 | the last paper holding a given index, or none when no paper holds it |
| PaperFiles.CountIndexed | split_json.py:50 | the count never exceeds the number of papers |
| PaperFiles.SplitLoopWrites | split_json.py:29-53 | the count is the number of indexed papers; each index's file holds the last paper with that index; other files are untouched; nothing else is created |
| PaperFiles.SplitPapers | split_json.py:4-60 | a missing, unreadable or key-less input writes nothing; an abort leaves the directory unchanged; a completed split counts the indexed papers |
| PaperFiles.Collect | combin_json.py:31-45 | at most one paper per requested index; every index whose file exists and parses contributes its paper |
| PaperFiles.CollectFromFiles | combin_json.py:36-41 | every merged paper was read from the file of a requested index |
| PaperFiles.CollectAppend | combin_json.py:31-45 | merging two index lists gives the two merges concatenated, so the order of the requested indices is kept |
| PaperFiles.Merge | combin_json.py:4-69 | a missing folder is reported; nothing found means no output; otherwise the merged list, with `found_count` equal to its length, goes to the joined-index name |
| PaperFiles.MergeDefault | combin_json.py:12-13 | no index list means `[1, 2]` |
| PaperFiles.SplitThenMerge | combin_json.py:31-54 | splitting and then merging one index gives back the last paper with that index, under the name `n.json` |
| PaperFiles.SplitWritesIndex | combin_json.py:33-36 | after a split, the file for every index present holds the last paper with it |
| PaperFiles.CollectOne | combin_json.py:31-41 | merging one readable index yields exactly its file's paper |
| PaperFiles.OutputNameOne | combin_json.py:54 | a single index `n` gives the output name `n.json` |

## Left out

- Network calls: the DBLP search, Semantic Scholar, and the OpenAI and Gemini clients. Each remote result is a parameter: a response value, a sequence of attempt outcomes, or a reply per batch.
- `json.loads` and `json.load` are a `parse` parameter or a datatype of decoded values. The pandas Excel read and write are lists of row records.
- File I/O: directories are maps from file name to content. `os.makedirs` and the output files' formatting (indent, `ensure_ascii`) are not modelled.
- `time.sleep`: back-off is a list of integer waits; the one-second and two-second pauses of steps 3 and 4 are dropped.
- The thread pool of `run_ai_scoring` (paper_pipeline.py:335-362) is modelled as one sequential fold over an arbitrary completion order of the batches, because only the consuming thread touches the result map. An exception from `future.result()` is a failed reply. A worker count that is not positive fails the run, as `ThreadPoolExecutor` raises for it; any positive count gives the same results.
- Crash atomicity: the checkpoint is rewritten in place. The model only states what a completed write holds; a torn file is the unreadable case, which loads as empty.
- Sort stability: pandas' default sort is not stable. `Sorting.SortDescending` is one insertion sort, and only order and permutation are claimed for it.
- Unicode: `\w`, `\s`, `\d`, `strip()` and `lower()` are classified on ASCII only.
- `int()` of text accepts an optional sign and decimal digits only. Surrounding whitespace and `_` separators are not accepted, and `float` cells are not modelled.
- A score is an integer. Float scores from the model or the spreadsheet are out of scope.
- Malformed reply elements: an element that is not a JSON object is not modelled. Elements are records with an optional score and reason.
- A JSON `null` in a string field (title, venue, author text, and the "abstract" of an abstract file) is treated like an absent key. For a null abstract, `_read_abstract` would return `None` and the prompt would show "None"; the model shows the empty-abstract text. The abstract fetcher never writes a null abstract. `bool` indices in `split_json.py` (a subclass of `int` in Python) are not distinguished from other non-integers.
- `fetch_from_dblp` (paper_pipeline.py:118-144): its loop over keywords and venues, its sort by year and its de-duplication are not modelled; the single request `fetch_dblp_once` is.
- step2_fetch_abstracts.py, `run_full_pipeline` and run_pipeline.py are orchestration around network calls, and are not part of this model.
- `init_driver` and the browser part of step 4's `main` are not modelled. The visit to a landing page is a parameter. For `wait_for_download`, the files that arrive, and which PDF is the newest when a rename succeeds, are parameters; modification times and the polling clock are not modelled.
- The input-file discovery in step 4 (`os.listdir("output")`) is not modelled.
- PdfFetch.Arnumber: `re.search(r"document/(\d+)")` is modelled as the leftmost "document/" followed by a digit, which is what the regular expression engine's leftmost match gives.
- Annotation.ReadAbstract has no contract of its own. Its properties are `Annotation.ReadersAgree`, `Annotation.PlaceholderLinkIgnoresFiles` and `Annotation.ReadersOnlyConsultTheLinkedFile`.
- Annotation.AbstractContent has no contract of its own. Its properties are the same three lemmas, which relate it to `_read_abstract`.
- SequentialScoring.AnalyzeBatch has no contract of its own. Its failure case is stated by `SequentialScoring.FailedCallScoresZero`.
- Checkpoint.Load has no contract of its own. Its properties are `Checkpoint.LoadSaveRoundTrip` and `Checkpoint.BadKeyDiscardsAll`.
- Checkpoint.LoadInto has no contract of its own. Its properties are `Checkpoint.LoadSavedInto` and `Checkpoint.BadKeyFails`.
- Scoring.RunAiScoring: what each batch's prompt says is stated by `ScoringProperties.RunPrompts` and `Scoring.PromptsListBatches`, not in its own contract.
- Slug.Slugify has no contract of its own. Its properties are the lemmas `SlugifyChars`, `SlugifyFixedPoints` and `SlugifyIdempotent`.
- Scoring.Pending: that the pending rows keep the input order is stated by `Scoring.PendingAppend` and `Scoring.PendingSnoc`, not in its own contract.
- Dblp.PipelineRows: its statements about years and membership are in `Dblp.PipelineRowsKept` and `Dblp.PipelineRowsFromHits`, not in its own contract.
- PdfFetch.Loop: that rows without a DOI are skipped is stated in `PdfFetch.LoopSkipsNoDoi`, not in its own contract. It does not promise that files on disk stay. `wait_for_download` renames whichever PDF is newest, so a later row can rename an earlier file away, and a success can be counted with no new download (`PdfFetch.StaleFileRenamed`). It promises only that a file stays until such a rename.
- PdfFetch.Loop: it uses the corrected file name, so a row with a DOI whose title is not text gets "untitled.pdf" instead of stopping the loop. The loop as written is `PdfFetch.LoopAsWritten`, which agrees with it up to the first such row.
- PdfFetch.Decide: it uses the corrected file name `PdfFetch.TargetName`. As written, a title that is not text raises before the `try` (see Findings), and that case is handled by `PdfFetch.LoopAsWritten`.
- PdfFetch.FetchAll: it runs the corrected loop, and its frame is the one `PdfFetch.Loop` states. `main` as written is `PdfFetch.FetchAllAsWritten`.
- PdfFetch.SecondCopySkipped: it needs the extra condition that no wait in between renamed the first copy away, because `wait_for_download` can do that.
- Log output (`print`, `tqdm` progress bars) is not modelled.

## Findings

| source | as written | input that shows it | evidently intended | confidence | as-written member | corrected member |
|---|---|---|---|---|---|---|
| step4_fetch_pdfs_scihub.py:167 | `slugify(title[:80])` slices the title before `slugify` can check that it is a string. An empty title cell is a float NaN, so `title[:80]` raises `TypeError` outside the `try`, and the whole download loop stops. | a target row with a DOI and an empty Title cell | the file name "untitled.pdf", which `slugify`'s own guard at line 27 is there to give | not executed | PdfFetch.TargetNameAsWritten | PdfFetch.TargetName |

=== FILE: annotation.dfy ===
/** The request side of the annotation client shared by both scorers: how a
    row's abstract text is resolved from its `Abstract_Link` cell, how a
    batch becomes one prompt, and the shape of a parsed reply. The abstract
    directory is a map from file name to the file as `json.load` sees it. */
module Annotation {
  import opened Common
  import Batching

  /** The `Abstract_Link` cell of a row: NaN, or a text (a file name, or the
      marker "Not_Found" left by the abstract fetcher). */
  datatype Link = NaN | LinkText(text: string)

  /** A file of the abstract directory: not a JSON object, or an object
      with or without an "abstract" member. */
  datatype AbstractFile = Unparseable | AbstractJson(abstractText: Option<string>)

  type AbstractDir = map<string, AbstractFile>

  const NotFoundMarker := "Not_Found"
  const NoAbstract := "无摘要数据。"
  const MissingFile := "找不到摘要文件。"
  const EmptyAbstract := "摘要内容为空。"
  const DamagedFile := "摘要文件损坏。"

  /** NaN or "Not_Found": both readers answer without looking at files. */
  predicate IsPlaceholderLink(link: Link) {
    link.NaN? || link.text == NotFoundMarker
  }

  /** `_read_abstract` of the batch scorer (paper_pipeline.py line 225-236):
      every failure becomes a placeholder text. */
  function ReadAbstract(dir: AbstractDir, link: Link): string {
    if link.NaN? || link.text == "" || link.text == NotFoundMarker then NoAbstract
    else if link.text !in dir then MissingFile
    else match dir[link.text]
      case Unparseable => DamagedFile
      case AbstractJson(a) => a.GetOr(EmptyAbstract)
  }

  /** Why the sequential scorer's reader raised. */
  datatype ReadFailure =
    | DirectoryLink            // an empty link names the directory itself
    | DamagedAbstract(name: string)

  /** `get_abstract_content` of the sequential scorer
      (step3_ai_relevance_analysis.py line 43-53): unlike the batch
      scorer's reader it lets `open` and `json.load` raise. The abstract
      directory is taken to exist; when it is missing, an empty link
      finds no file instead of raising. */
  function AbstractContent(dir: AbstractDir, link: Link): Result<string, ReadFailure> {
    if IsPlaceholderLink(link) then Ok(NoAbstract)
    else if link.text == "" then Err(DirectoryLink)
    else if link.text !in dir then Ok(MissingFile)
    else match dir[link.text]
      case Unparseable => Err(DamagedAbstract(link.text))
      case AbstractJson(a) => Ok(a.GetOr(EmptyAbstract))
  }

  /** A NaN or "Not_Found" link gives the no-abstract text whatever the
      directory holds: no file is consulted. */
  lemma PlaceholderLinkIgnoresFiles(d1: AbstractDir, d2: AbstractDir, link: Link)
    requires IsPlaceholderLink(link)
    ensures ReadAbstract(d1, link) == ReadAbstract(d2, link) == NoAbstract
    ensures AbstractContent(d1, link) == AbstractContent(d2, link) == Ok(NoAbstract)
  {
  }

  /** Both readers look at the linked file only: directories that agree on
      it give the same answer. */
  lemma ReadersOnlyConsultTheLinkedFile(d1: AbstractDir, d2: AbstractDir, link: Link)
    requires link.LinkText? ==>
      (link.text in d1 <==> link.text in d2)
      && (link.text in d1 ==> d1[link.text] == d2[link.text])
    ensures ReadAbstract(d1, link) == ReadAbstract(d2, link)
    ensures AbstractContent(d1, link) == AbstractContent(d2, link)
  {
  }

  /** Whenever the sequential reader does not raise, the two copies agree;
      it raises exactly on an empty link or a damaged file. */
  lemma ReadersAgree(dir: AbstractDir, link: Link)
    ensures AbstractContent(dir, link).Ok? ==> AbstractContent(dir, link).value == ReadAbstract(dir, link)
    ensures AbstractContent(dir, link).Err? <==>
      link.LinkText? && !IsPlaceholderLink(link)
      && (link.text == "" || (link.text in dir && dir[link.text].Unparseable?))
  {
  }

  // ---------------------------------------------------------------------
  // Prompt text
  // ---------------------------------------------------------------------

  /** What the prompt says about one row: its title and resolved abstract. */
  datatype Item = Item(title: string, abstractText: string)

  /** `f"[文献 {i}]\n标题: {title}\n摘要: {abstract}\n\n"` */
  function Entry(i: nat, item: Item): string {
    "[文献 " + NatToString(i) + "]\n标题: " + item.title + "\n摘要: " + item.abstractText + "\n\n"
  }

  /** The loop `for i, item in enumerate(items): prompt += Entry(i + 1, item)`
      started from `header`. */
  function PromptText(header: string, items: seq<Item>): string
    decreases |items|
  {
    if |items| == 0 then header
    else PromptText(header, items[..|items| - 1]) + Entry(|items|, items[|items| - 1])
  }

  /** The labelled entries of a batch, numbered from 1 in batch order. */
  function Entries(items: seq<Item>): (es: seq<string>)
    ensures |es| == |items|
  {
    seq(|items|, i requires 0 <= i < |items| => Entry(i + 1, items[i]))
  }

  /** The prompt is the header followed by one entry per item, in batch
      order, the k-th labelled `[文献 k]`. */
  lemma {:induction false} PromptListsItemsInOrder(header: string, items: seq<Item>)
    ensures PromptText(header, items) == header + Batching.Flatten(Entries(items))
    decreases |items|
  {
    if |items| > 0 {
      var n := |items| - 1;
      var es := Entries(items[..n]);
      var e := Entry(n + 1, items[n]);
      assert PromptText(header, items) == PromptText(header, items[..n]) + e;
      PromptListsItemsInOrder(header, items[..n]);
      EntriesSnoc(items);
      Batching.FlattenSnoc(es, e);
      ConcatAssoc(header, Batching.Flatten(es), e);
    }
  }

  lemma ConcatAssoc<T>(a: seq<T>, b: seq<T>, c: seq<T>)
    ensures (a + b) + c == a + (b + c)
  {
  }

  lemma EntriesSnoc(items: seq<Item>)
    requires |items| > 0
    ensures Entries(items) == Entries(items[..|items| - 1]) + [Entry(|items|, items[|items| - 1])]
  {
    var n := |items| - 1;
    assert forall i :: 0 <= i < n ==> items[..n][i] == items[i];
  }

  // ---------------------------------------------------------------------
  // Reply shape
  // ---------------------------------------------------------------------

  /** One element of a reply array as `.get("score", 0)` and
      `.get("reason", ...)` see it. */
  datatype Element = Element(score: Option<int>, reason: Option<string>)

  /** What `json.loads` returned for a reply: an array, a value of length
      zero that is not an array (an empty object or string), or any other
      value. */
  datatype Parsed = ParsedList(elements: seq<Element>) | EmptyNonList | OtherValue
}

=== FILE: batching.dfy ===
/** Fixed-size batching by slicing: Python's
    `[s[i:i + size] for i in range(0, len(s), size)]`, used for the chunks of
    pending rows (paper_pipeline.py line 332) and for the groups of five in
    the sequential scorer (step3_ai_relevance_analysis.py line 89-91). */
module Batching {

  /** The concatenation of a sequence of sequences. */
  function Flatten<T>(parts: seq<seq<T>>): seq<T>
    decreases |parts|
  {
    if |parts| == 0 then [] else parts[0] + Flatten(parts[1..])
  }

  /** Appending a part appends its items. */
  lemma {:induction false} FlattenSnoc<T>(parts: seq<seq<T>>, last: seq<T>)
    ensures Flatten(parts + [last]) == Flatten(parts) + last
    decreases |parts|
  {
    if |parts| == 0 {
      assert Flatten([last]) == last + Flatten([]);
    } else {
      assert (parts + [last])[1..] == parts[1..] + [last];
      FlattenSnoc(parts[1..], last);
    }
  }

  /** An item of the concatenation comes from some part. */
  lemma {:induction false} FlattenMember<T>(parts: seq<seq<T>>, x: T)
    requires x in Flatten(parts)
    ensures exists c :: 0 <= c < |parts| && x in parts[c]
    decreases |parts|
  {
    if x !in parts[0] {
      FlattenMember(parts[1..], x);
      var c :| 0 <= c < |parts[1..]| && x in parts[1..][c];
      assert x in parts[c + 1];
    }
  }

  /** An item of a part is an item of the concatenation. */
  lemma {:induction false} FlattenContains<T>(parts: seq<seq<T>>, c: nat, x: T)
    requires c < |parts| && x in parts[c]
    ensures x in Flatten(parts)
    decreases c
  {
    if c > 0 {
      FlattenContains(parts[1..], c - 1, x);
    }
  }

  /** Later chunks start at least a whole chunk further on. */
  lemma {:induction false} OffsetGap(c1: nat, c2: nat, size: nat)
    requires c1 < c2
    ensures Offset(c1, size) + size <= Offset(c2, size)
    decreases c2
  {
    if c1 < c2 - 1 {
      OffsetGap(c1, c2 - 1, size);
    }
  }

  /** The slices `s[i:i+size]` for `i` in `range(0, len(s), size)`. A zero
      size makes `range` raise, so callers must rule it out; a negative one
      gives an empty range. */
  function Chunks<T>(s: seq<T>, size: int): (cs: seq<seq<T>>)
    requires size != 0
    ensures size < 0 ==> cs == []
    ensures forall i :: 0 <= i < |cs| ==> 0 < |cs[i]| <= size
    ensures forall i :: 0 <= i < |cs| - 1 ==> |cs[i]| == size
    decreases |s|
  {
    if size < 0 || |s| == 0 then []
    else if |s| <= size then [s]
    else [s[..size]] + Chunks(s[size..], size)
  }

  /** The chunks, put back together, are the input: no item is lost,
      duplicated or moved. */
  lemma {:induction false} ChunksPartition<T>(s: seq<T>, size: int)
    requires size > 0
    ensures Flatten(Chunks(s, size)) == s
    decreases |s|
  {
    if 0 < |s| <= size {
      assert Flatten([s]) == s + Flatten([]);
    } else if |s| > size {
      var cs := Chunks(s, size);
      ChunksPartition(s[size..], size);
      assert cs[1..] == Chunks(s[size..], size);
      assert s == s[..size] + s[size..];
    }
  }

  /** Where chunk `i` starts: `i * size`, counted up by repeated addition. */
  function Offset(i: nat, size: nat): nat {
    if i == 0 then 0 else Offset(i - 1, size) + size
  }

  lemma {:induction false} OffsetIsProduct(i: nat, size: nat)
    ensures Offset(i, size) == i * size
  {
    if i > 0 {
      OffsetIsProduct(i - 1, size);
      assert (i - 1) * size + size == i * size;
    }
  }

  /** Chunk `i` is exactly the slice `s[i*size : i*size + size]`, cut at the
      end of `s`: the chunks are the consecutive windows the list
      comprehension takes. */
  lemma ChunkIsSlice<T>(s: seq<T>, size: int, i: nat)
    requires size > 0 && i < |Chunks(s, size)|
    ensures i * size < |s|
    ensures Chunks(s, size)[i]
      == s[i * size .. if i * size + size <= |s| then i * size + size else |s|]
  {
    ChunkAtOffset(s, size, i);
    OffsetIsProduct(i, size);
  }

  lemma {:induction false} ChunkAtOffset<T>(s: seq<T>, size: int, i: nat)
    requires size > 0 && i < |Chunks(s, size)|
    ensures Offset(i, size) < |s|
    ensures Chunks(s, size)[i]
      == s[Offset(i, size) .. if Offset(i, size) + size <= |s| then Offset(i, size) + size else |s|]
    decreases i
  {
    if i == 0 {
      if |s| <= size {
        assert Chunks(s, size) == [s];
      } else {
        assert Chunks(s, size)[0] == s[..size];
      }
    } else {
      assert |s| > size;
      var rest := s[size..];
      assert Chunks(s, size)[i] == Chunks(rest, size)[i - 1];
      ChunkAtOffset(rest, size, i - 1);
      var lo := Offset(i - 1, size);
      var hi := if lo + size <= |rest| then lo + size else |rest|;
      SliceOfSuffix(s, size, lo, hi);
    }
  }

  /** Item `j` of chunk `c` is item `Offset(c, size) + j` of the input. */
  lemma ChunkElement<T>(s: seq<T>, size: int, c: nat, j: nat)
    requires size > 0 && c < |Chunks(s, size)| && j < |Chunks(s, size)[c]|
    ensures j < size && Offset(c, size) + j < |s|
    ensures Chunks(s, size)[c][j] == s[Offset(c, size) + j]
  {
    ChunkAtOffset(s, size, c);
  }

  lemma SliceOfSuffix<T>(s: seq<T>, k: nat, lo: nat, hi: nat)
    requires k <= |s| && lo <= hi <= |s| - k
    ensures s[k..][lo..hi] == s[lo + k..hi + k]
  {
  }

  /** Twelve items in batches of five: sizes 5, 5 and 2. */
  lemma TwelveInFives<T>(s: seq<T>)
    requires |s| == 12
    ensures |Chunks(s, 5)| == 3
    ensures Chunks(s, 5) == [s[..5], s[5..10], s[10..]]
  {
    var c1 := Chunks(s[5..], 5);
    assert s[5..][..5] == s[5..10];
    assert s[5..][5..] == s[10..];
    assert Chunks(s[10..], 5) == [s[10..]];
    assert c1 == [s[5..10]] + Chunks(s[10..], 5);
  }
}

=== FILE: checkpoint.dfy ===
/** The checkpoint file of the batch scorer (paper_pipeline.py line
    274-288). `_save_checkpoint` writes the results map as a JSON object
    whose keys are `str(row_id)`; `_load_checkpoint` reads it back with
    `int(k)` and yields the empty map when the file is missing or
    unreadable, or when any key fails to convert. */
module Checkpoint {
  import opened Common

  /** The members of the persisted JSON object, in file order. */
  type Entries<V> = seq<(string, V)>

  /** `{str(k): v for k, v in data.items()}`, with `order` the dictionary's
      key order. */
  function Save<V>(m: map<int, V>, order: seq<int>): (e: Entries<V>)
    requires forall i :: 0 <= i < |order| ==> order[i] in m
    ensures |e| == |order|
    ensures forall i :: 0 <= i < |e| ==> ParseInt(e[i].0) == Some(order[i]) && e[i].1 == m[order[i]]
  {
    ParseIntInvertsIntToString();
    seq(|order|, i requires 0 <= i < |order| => (IntToString(order[i]), m[order[i]]))
  }

  /** `{int(k): v for k, v in entries}` folded into `acc`; None when some
      `int(k)` raises. */
  function LoadInto<V>(entries: Entries<V>, acc: map<int, V>): Option<map<int, V>>
    decreases |entries|
  {
    if |entries| == 0 then Some(acc)
    else match ParseInt(entries[0].0)
      case None => None
      case Some(k) => LoadInto(entries[1..], acc[k := entries[0].1])
  }

  /** `_load_checkpoint`: `file` is None when the path is empty, the file
      is missing, or it does not hold a JSON object. */
  function Load<V>(file: Option<Entries<V>>): map<int, V> {
    match file
    case None => map[]
    case Some(entries) => LoadInto(entries, map[]).GetOr(map[])
  }

  /** Loading what was saved gives back the map, whatever the key order. */
  lemma LoadSaveRoundTrip<V>(m: map<int, V>, order: seq<int>)
    requires forall i :: 0 <= i < |order| ==> order[i] in m
    requires forall k :: k in m ==> k in order
    ensures Load(Some(Save(m, order))) == m
  {
    LoadSavedInto(m, order, map[]);
    var back := map k | k in order :: m[k];
    forall k | k in order
      ensures k in m
    {
      var i :| 0 <= i < |order| && order[i] == k;
    }
    assert forall k :: k in back <==> k in order;
    assert forall k :: k in back <==> k in m;
    assert back == m;
    assert map[] + back == back;
  }

  lemma {:induction false} LoadSavedInto<V>(m: map<int, V>, order: seq<int>, acc: map<int, V>)
    requires forall i :: 0 <= i < |order| ==> order[i] in m
    ensures LoadInto(Save(m, order), acc) == Some(acc + (map k | k in order :: m[k]))
    decreases |order|
  {
    var e := Save(m, order);
    var all := map j | j in order :: m[j];
    if |order| == 0 {
      assert all == map[];
      assert acc + all == acc;
    } else {
      var k := order[0];
      assert e[1..] == Save(m, order[1..]);
      assert ParseInt(e[0].0) == Some(k);
      LoadSavedInto(m, order[1..], acc[k := m[k]]);
      UnionStep(m, order, acc);
    }
  }

  lemma UnionStep<V>(m: map<int, V>, order: seq<int>, acc: map<int, V>)
    requires |order| > 0
    requires forall i :: 0 <= i < |order| ==> order[i] in m
    ensures acc[order[0] := m[order[0]]] + (map j | j in order[1..] :: m[j])
         == acc + (map j | j in order :: m[j])
  {
    var k := order[0];
    var rest := map j | j in order[1..] :: m[j];
    var all := map j | j in order :: m[j];
    assert order == [k] + order[1..];
    assert all.Keys == rest.Keys + {k};
    var lhs := acc[k := m[k]] + rest;
    var rhs := acc + all;
    assert lhs.Keys == rhs.Keys;
    forall j | j in lhs
      ensures lhs[j] == rhs[j]
    {
      if j in rest {
      } else if j == k {
      }
    }
  }

  /** One key that `int()` rejects makes the whole load come back empty,
      even when other entries are fine. */
  lemma BadKeyDiscardsAll<V>(entries: Entries<V>, i: nat)
    requires i < |entries| && ParseInt(entries[i].0).None?
    ensures Load(Some(entries)) == map[]
  {
    BadKeyFails(entries, i, map[]);
  }

  lemma {:induction false} BadKeyFails<V>(entries: Entries<V>, i: nat, acc: map<int, V>)
    requires i < |entries| && ParseInt(entries[i].0).None?
    ensures LoadInto(entries, acc).None?
    decreases i
  {
    if i > 0 && ParseInt(entries[0].0).Some? {
      BadKeyFails(entries[1..], i - 1, acc[ParseInt(entries[0].0).value := entries[0].1]);
    }
  }
}

=== FILE: common.dfy ===
/** Shared vocabulary of the model: optional values, error outcomes, and the
    handful of Python `str` operations the pipeline relies on (`in`,
    `replace`, `strip`, `lower`, `join`, `str(int)` and `int(str)`), all
    written for ASCII text. */
module Common {

  /** Python's `None`-or-value. */
  datatype Option<+T> = None | Some(value: T) {

    /** The value, or `default` when there is none (`dict.get(k, default)`). */
    function GetOr(default: T): T {
      match this
      case Some(v) => v
      case None => default
    }
  }

  /** A value, or the error that stopped its computation (an exception that
      escapes the modelled function). */
  datatype Result<+T, +E> = Ok(value: T) | Err(error: E)

  // ---------------------------------------------------------------------
  // Substrings
  // ---------------------------------------------------------------------

  /** `s.startswith(p)` */
  predicate StartsWith(s: string, p: string) {
    |p| <= |s| && s[..|p|] == p
  }

  /** Python's `p in s`. */
  predicate Contains(s: string, p: string)
    decreases |s|
  {
    StartsWith(s, p) || (|s| > 0 && Contains(s[1..], p))
  }

  /** `p` occurs in `s` at offset `i`. */
  predicate OccursAt(s: string, p: string, i: int) {
    0 <= i && i + |p| <= |s| && s[i..i + |p|] == p
  }

  /** `p in s` holds exactly when `p` occurs at some offset of `s`. */
  lemma {:induction false} ContainsIffOccurs(s: string, p: string)
    ensures Contains(s, p) <==> exists i :: OccursAt(s, p, i)
    decreases |s|
  {
    if StartsWith(s, p) {
      assert OccursAt(s, p, 0);
    } else if |s| > 0 {
      ContainsIffOccurs(s[1..], p);
      if Contains(s[1..], p) {
        var i :| OccursAt(s[1..], p, i);
        assert s[1..][i..i + |p|] == s[i + 1..i + 1 + |p|];
        assert OccursAt(s, p, i + 1);
      }
      if exists i :: OccursAt(s, p, i) {
        var i :| OccursAt(s, p, i);
        assert i != 0;
        assert s[1..][i - 1..i - 1 + |p|] == s[i..i + |p|];
        assert OccursAt(s[1..], p, i - 1);
      }
    }
  }

  /** A pattern that has `q` as a prefix can only occur where `q` occurs. */
  lemma {:induction false} ContainsLongerPattern(s: string, p: string, q: string)
    requires StartsWith(p, q)
    ensures Contains(s, p) ==> Contains(s, q)
    decreases |s|
  {
    if StartsWith(s, p) {
      assert s[..|q|] == s[..|p|][..|q|];
    } else if |s| > 0 {
      ContainsLongerPattern(s[1..], p, q);
    }
  }

  /** Dropping the last character cannot create an occurrence. */
  lemma {:induction false} ContainsDropLast(s: string, p: string)
    requires |s| > 0
    ensures Contains(s[..|s| - 1], p) ==> Contains(s, p)
    decreases |s|
  {
    var t := s[..|s| - 1];
    if StartsWith(t, p) {
      assert s[..|p|] == t[..|p|];
    } else if |t| > 0 && Contains(t[1..], p) {
      assert t[1..] == s[1..][..|s[1..]| - 1];
      ContainsDropLast(s[1..], p);
    }
  }

  // ---------------------------------------------------------------------
  // str.replace
  // ---------------------------------------------------------------------

  /** Python's `s.replace(p, r)` for a non-empty pattern: a left-to-right
      scan that replaces non-overlapping occurrences. */
  function ReplaceAll(s: string, p: string, r: string): string
    requires |p| > 0
    decreases |s|
  {
    if StartsWith(s, p) then r + ReplaceAll(s[|p|..], p, r)
    else if |s| == 0 then ""
    else [s[0]] + ReplaceAll(s[1..], p, r)
  }

  /** Replacing a pattern that does not occur leaves the text unchanged. */
  lemma {:induction false} ReplaceAbsent(s: string, p: string, r: string)
    requires |p| > 0
    requires !Contains(s, p)
    ensures ReplaceAll(s, p, r) == s
    decreases |s|
  {
    if |s| > 0 {
      ReplaceAbsent(s[1..], p, r);
      assert s == [s[0]] + s[1..];
    }
  }

  // ---------------------------------------------------------------------
  // Whitespace, strip, lower
  // ---------------------------------------------------------------------

  /** `c.isspace()` on ASCII, which is also what `\s` matches in a `str`
      regular expression: tab, line feed, vertical tab, form feed, carriage
      return, the four separators 0x1C-0x1F, and space. */
  predicate IsSpace(c: char) {
    var n := c as int;
    n == 32 || (9 <= n <= 13) || (28 <= n <= 31)
  }

  /** `s.lstrip()` */
  function TrimLeft(s: string): (r: string)
    ensures |r| <= |s| && r == s[|s| - |r|..]
    ensures forall i :: 0 <= i < |s| - |r| ==> IsSpace(s[i])
    ensures |r| > 0 ==> !IsSpace(r[0])
    decreases |s|
  {
    if |s| > 0 && IsSpace(s[0]) then TrimLeft(s[1..]) else s
  }

  /** `s.rstrip()` */
  function TrimRight(s: string): (r: string)
    ensures |r| <= |s| && r == s[..|r|]
    ensures forall i :: |r| <= i < |s| ==> IsSpace(s[i])
    ensures |r| > 0 ==> !IsSpace(r[|r| - 1])
    decreases |s|
  {
    if |s| > 0 && IsSpace(s[|s| - 1]) then TrimRight(s[..|s| - 1]) else s
  }

  /** `s.strip()` */
  function Strip(s: string): string {
    TrimRight(TrimLeft(s))
  }

  /** Stripping keeps a string that has no surrounding whitespace. */
  lemma StripUnchanged(s: string)
    requires |s| == 0 || (!IsSpace(s[0]) && !IsSpace(s[|s| - 1]))
    ensures Strip(s) == s
  {
  }

  /** Stripping never creates an occurrence of a pattern. */
  lemma StripKeepsAbsence(s: string, p: string)
    requires !Contains(s, p)
    ensures !Contains(Strip(s), p)
  {
    TrimLeftKeepsAbsence(s, p);
    TrimRightKeepsAbsence(TrimLeft(s), p);
  }

  lemma {:induction false} TrimLeftKeepsAbsence(s: string, p: string)
    requires !Contains(s, p)
    ensures !Contains(TrimLeft(s), p)
    decreases |s|
  {
    if |s| > 0 && IsSpace(s[0]) {
      TrimLeftKeepsAbsence(s[1..], p);
    }
  }

  lemma {:induction false} TrimRightKeepsAbsence(s: string, p: string)
    requires !Contains(s, p)
    ensures !Contains(TrimRight(s), p)
    decreases |s|
  {
    if |s| > 0 && IsSpace(s[|s| - 1]) {
      ContainsDropLast(s, p);
      TrimRightKeepsAbsence(s[..|s| - 1], p);
    }
  }

  /** `c.lower()` on ASCII. */
  function LowerChar(c: char): char {
    if 'A' <= c <= 'Z' then (c as int + 32) as char else c
  }

  /** `s.lower()` on ASCII. */
  function Lower(s: string): string {
    seq(|s|, i requires 0 <= i < |s| => LowerChar(s[i]))
  }

  // ---------------------------------------------------------------------
  // str.join
  // ---------------------------------------------------------------------

  /** `sep.join(parts)` */
  function Join(sep: string, parts: seq<string>): string
    decreases |parts|
  {
    if |parts| == 0 then ""
    else if |parts| == 1 then parts[0]
    else parts[0] + sep + Join(sep, parts[1..])
  }

  // ---------------------------------------------------------------------
  // Decimal numerals: str(int) and int(str)
  // ---------------------------------------------------------------------

  predicate IsDigit(c: char) {
    '0' <= c <= '9'
  }

  predicate AllDigits(s: string) {
    forall i :: 0 <= i < |s| ==> IsDigit(s[i])
  }

  function DigitValue(c: char): nat
    requires IsDigit(c)
  {
    c as int - '0' as int
  }

  function DigitChar(d: nat): (c: char)
    requires d < 10
    ensures IsDigit(c) && DigitValue(c) == d
  {
    ('0' as int + d) as char
  }

  /** The length of the longest run of digits starting at `k`. */
  function DigitRun(s: string, k: nat): (n: nat)
    requires k <= |s|
    ensures k + n <= |s|
    ensures forall i :: k <= i < k + n ==> IsDigit(s[i])
    ensures k + n == |s| || !IsDigit(s[k + n])
    decreases |s| - k
  {
    if k < |s| && IsDigit(s[k]) then 1 + DigitRun(s, k + 1) else 0
  }

  /** A run of `n` digits followed by a non-digit or the end is the
      maximal run. */
  lemma {:induction false} DigitRunExact(s: string, k: nat, n: nat)
    requires k + n <= |s|
    requires forall i :: k <= i < k + n ==> IsDigit(s[i])
    requires k + n == |s| || !IsDigit(s[k + n])
    ensures DigitRun(s, k) == n
    decreases n
  {
    if n > 0 {
      DigitRunExact(s, k + 1, n - 1);
    }
  }

  /** A digit run inside a slice that reaches past the run's end is the
      same run. */
  lemma {:induction false} DigitRunShift(s: string, lo: nat, hi: nat, k: nat)
    requires lo + k <= hi <= |s|
    requires lo + k + DigitRun(s, lo + k) < hi
    ensures DigitRun(s[lo..hi], k) == DigitRun(s, lo + k)
    decreases hi - lo - k
  {
    if IsDigit(s[lo + k]) {
      DigitRunShift(s, lo, hi, k + 1);
    }
  }

  /** `str(n)` for a natural number: the shortest decimal spelling. */
  function NatToString(n: nat): (s: string)
    ensures |s| > 0 && AllDigits(s)
    ensures n == 0 <==> s == "0"
    ensures n > 0 ==> s[0] != '0'
    decreases n
  {
    if n < 10 then [DigitChar(n)] else NatToString(n / 10) + [DigitChar(n % 10)]
  }

  /** `str(n)` */
  function IntToString(n: int): string {
    if n < 0 then "-" + NatToString(-n) else NatToString(n)
  }

  /** The number a run of decimal digits spells (leading zeros allowed). */
  function DigitsValue(s: string): nat
    requires AllDigits(s)
    decreases |s|
  {
    if |s| == 0 then 0 else 10 * DigitsValue(s[..|s| - 1]) + DigitValue(s[|s| - 1])
  }

  /** `int(s)` on an optionally signed run of ASCII digits; `None` stands
      for the `ValueError` Python raises on anything else. */
  function ParseInt(s: string): Option<int> {
    if |s| > 1 && (s[0] == '-' || s[0] == '+') && AllDigits(s[1..]) then
      var v: int := DigitsValue(s[1..]);
      Some(if s[0] == '-' then -v else v)
    else if |s| > 0 && AllDigits(s) then
      Some(DigitsValue(s))
    else
      None
  }

  lemma {:induction false} DigitsValueOfNatToString(n: nat)
    ensures DigitsValue(NatToString(n)) == n
    decreases n
  {
    if n >= 10 {
      var s := NatToString(n / 10);
      var t := s + [DigitChar(n % 10)];
      assert t[..|t| - 1] == s;
      DigitsValueOfNatToString(n / 10);
    }
  }

  /** `int(str(n)) == n`: the decimal spelling round-trips. */
  lemma ParseIntOfIntToString(n: int)
    ensures ParseInt(IntToString(n)) == Some(n)
  {
    if n < 0 {
      var t := NatToString(-n);
      var s := "-" + t;
      assert s == IntToString(n);
      assert s[1..] == t;
      assert |s| > 1 && s[0] == '-' && AllDigits(s[1..]);
      DigitsValueOfNatToString(-n);
      assert DigitsValue(s[1..]) == -n;
    } else {
      var s := NatToString(n);
      assert s == IntToString(n);
      assert s[0] != '-' && s[0] != '+' by {
        assert IsDigit(s[0]);
      }
      DigitsValueOfNatToString(n);
    }
  }

  /** `int(str(n)) == n` for every `n`. */
  lemma ParseIntInvertsIntToString()
    ensures forall n :: ParseInt(IntToString(n)) == Some(n)
  {
    forall n: int
      ensures ParseInt(IntToString(n)) == Some(n)
    {
      ParseIntOfIntToString(n);
    }
  }

  /** Distinct integers have distinct decimal spellings. */
  lemma IntToStringInjective(a: int, b: int)
    ensures IntToString(a) == IntToString(b) ==> a == b
  {
    ParseIntOfIntToString(a);
    ParseIntOfIntToString(b);
  }
}

=== FILE: dblp.dfy ===
/** The DBLP hit-to-row transformation, in its two copies: `fetch_dblp_once`
    (paper_pipeline.py line 90-115) and the loop of
    `fetch_and_save_from_dblp` (step1_fetch_dblp.py line 10-41). The decoded
    JSON of a hit is a datatype; a key that is absent is `None`. */
module Dblp {
  import opened Common
  import Doi

  /** The `year` field of a hit's `info`. DBLP sends it as a string, but the
      JSON may hold a number, `null`, or nothing. */
  datatype YearValue = YearAbsent | YearNull | YearNumber(n: int) | YearText(t: string)

  /** One entry of `authors.author`: a JSON object whose `text` may be absent. */
  datatype Author = Author(text: Option<string>)

  /** `info.authors.author`: a single object, a list of objects, or absent
      (which the code reads as the empty list). */
  datatype AuthorField = AuthorsAbsent | OneAuthor(author: Author) | AuthorList(authors: seq<Author>)

  /** The `ee` field (the electronic edition link): absent, `null`, one
      link, or a list of links, which DBLP sends when a paper has several. */
  datatype EeValue = EeAbsent | EeNull | EeText(s: string) | EeList(items: seq<string>)

  datatype Info = Info(
    year: YearValue,
    authors: AuthorField,
    title: Option<string>,
    venue: Option<string>,
    ee: EeValue,
    key: Option<string>)

  /** One element of `result.hits.hit`; its `info` may be absent. */
  datatype Hit = Hit(info: Option<Info>)

  /** What `hit.get("info", {})` yields for a hit without `info`: every
      field absent. */
  const EmptyInfo := Info(YearAbsent, AuthorsAbsent, None, None, EeAbsent, None)

  function InfoOf(h: Hit): Info {
    h.info.GetOr(EmptyInfo)
  }

  /** `int(info.get("year", 0) or 0)`: absent, null, zero and the empty
      string are all falsy and become 0; other text goes through `int`,
      whose `ValueError` is `None`. */
  function PipelineYear(y: YearValue): (r: Option<int>)
    ensures y.YearAbsent? || y.YearNull? || y == YearText("") ==> r == Some(0)
    ensures y.YearNumber? ==> r == Some(y.n)
    ensures y.YearText? && y.t != "" ==> r == ParseInt(y.t)
  {
    match y
    case YearAbsent => Some(0)
    case YearNull => Some(0)
    case YearNumber(n) => Some(n)
    case YearText(t) => if t == "" then Some(0) else ParseInt(t)
  }

  /** `int(info.get('year', 0))`: without the `or 0`, `int(None)` raises
      `TypeError` and `int("")` raises `ValueError`. */
  function Step1Year(y: YearValue): (r: Option<int>)
    ensures y.YearAbsent? ==> r == Some(0)
    ensures y.YearNull? ==> r.None?
    ensures y.YearNumber? ==> r == Some(y.n)
    ensures y.YearText? ==> r == ParseInt(y.t)
  {
    match y
    case YearAbsent => Some(0)
    case YearNull => None
    case YearNumber(n) => Some(n)
    case YearText(t) => ParseInt(t)
  }

  /** Wherever the stricter conversion succeeds, the lenient one agrees. */
  lemma YearConversionsAgree(y: YearValue)
    ensures Step1Year(y).Some? ==> PipelineYear(y) == Step1Year(y)
    ensures PipelineYear(y).None? ==> Step1Year(y).None?
  {
    if y.YearText? && y.t == "" {
      assert ParseInt(y.t).None?;
    }
  }

  /** The authors string: the `text` of a single author object, or the
      `text`s of a list joined with ", "; a missing `text` is "". */
  function AuthorsText(f: AuthorField): (s: string) {
    match f
    case AuthorsAbsent => ""
    case OneAuthor(a) => a.text.GetOr("")
    case AuthorList(list) => Join(", ", seq(|list|, i requires 0 <= i < |list| => list[i].text.GetOr("")))
  }

  /** A single author reads the same whether DBLP sends it as an object or
      as a one-element list. */
  lemma SingleAuthorShapesAgree(a: Author)
    ensures AuthorsText(OneAuthor(a)) == AuthorsText(AuthorList([a]))
  {
  }

  /** Two authors are joined with a comma and a space. */
  lemma TwoAuthorsJoined(a: string, b: string)
    ensures AuthorsText(AuthorList([Author(Some(a)), Author(Some(b))])) == a + ", " + b
  {
    var parts := [a, b];
    assert seq(2, i requires 0 <= i < 2 => [Author(Some(a)), Author(Some(b))][i].text.GetOr("")) == parts;
    assert Join(", ", parts[1..]) == b;
  }

  /** `extract_doi(info.get("ee", ""))`: an absent link reads as "", and a
      falsy one (`""`, `None`, `[]`) gives ""; a link goes through the
      matcher; a non-empty list reaches `re.search`, which raises
      `TypeError` (`None`). */
  function PipelineDoi(e: EeValue): (r: Option<string>)
    ensures r.None? <==> e.EeList? && |e.items| > 0
    ensures e.EeText? ==> r == Some(Doi.ExtractDoi(e.s))
    ensures r.Some? && !e.EeText? ==> r.value == ""
  {
    match e
    case EeAbsent => Some("")
    case EeNull => Some("")
    case EeText(s) => Some(Doi.ExtractDoi(s))
    case EeList(items) => if |items| == 0 then Some("") else None
  }

  /** A row of the pipeline's search sheet; its URL cell holds whatever
      `ee` held ("" when it was absent). */
  datatype PipelineRow = PipelineRow(year: int, title: string, authors: string, venue: string, doi: string, url: EeValue)

  /** A row of step 1's sheet; `info.get(...)` without a default leaves
      `None` for an absent field. */
  datatype Step1Row = Step1Row(year: int, title: Option<string>, authors: string, venue: Option<string>, url: EeValue, dblpKey: Option<string>)

  /** The row `fetch_dblp_once` builds from a hit whose year is `year`;
      `None` when `extract_doi` raises on the link. */
  function ToPipelineRow(info: Info, year: int): (row: Option<PipelineRow>)
    ensures row.None? <==> info.ee.EeList? && |info.ee.items| > 0
    ensures row.Some? ==> row.value.year == year
                          && row.value.url == (if info.ee.EeAbsent? then EeText("") else info.ee)
    ensures row.Some? && row.value.url.EeText? ==> row.value.doi == Doi.ExtractDoi(row.value.url.s)
    ensures row.Some? && !row.value.url.EeText? ==> row.value.doi == ""
  {
    var url := if info.ee.EeAbsent? then EeText("") else info.ee;
    match PipelineDoi(url)
    case None => None
    case Some(doi) => Some(PipelineRow(year, info.title.GetOr(""), AuthorsText(info.authors), info.venue.GetOr(""), doi, url))
  }

  /** The row step 1 builds from a hit whose year is `year`. */
  function ToStep1Row(info: Info, year: int): (row: Step1Row) {
    Step1Row(year, info.title, AuthorsText(info.authors), info.venue, info.ee, info.key)
  }

  /** A hit's year as the pipeline converts it. */
  function HitYear(h: Hit): Option<int> {
    PipelineYear(InfoOf(h).year)
  }

  /** The pipeline keeps the hit: its year converts and is at least
      `start`. */
  predicate Kept(h: Hit, start: int) {
    HitYear(h).Some? && HitYear(h).value >= start
  }

  /** The pipeline gets through the hit: its year converts, and when the
      hit is kept its link does not make `extract_doi` raise. */
  predicate HitPasses(h: Hit, start: int) {
    HitYear(h).Some? && (HitYear(h).value >= start ==> ToPipelineRow(InfoOf(h), HitYear(h).value).Some?)
  }

  function RowOf(h: Hit): PipelineRow
    requires HitYear(h).Some? && ToPipelineRow(InfoOf(h), HitYear(h).value).Some?
  {
    ToPipelineRow(InfoOf(h), HitYear(h).value).value
  }

  /** No hit raises in the pipeline's loop. */
  predicate PipelineHitsPass(hits: seq<Hit>, start: int) {
    forall i :: 0 <= i < |hits| ==> HitPasses(hits[i], start)
  }

  /** How many hits the pipeline keeps. */
  function CountKept(hits: seq<Hit>, start: int): (n: nat)
    ensures n <= |hits|
  {
    if |hits| == 0 then 0
    else CountKept(hits[..|hits| - 1], start) + (if Kept(hits[|hits| - 1], start) then 1 else 0)
  }

  /** The loop of `fetch_dblp_once` over the hits, in order; `None` when
      some year, or the link of some kept hit, raises. */
  function PipelineRows(hits: seq<Hit>, start: int): (r: Option<seq<PipelineRow>>)
    ensures r.Some? <==> PipelineHitsPass(hits, start)
    ensures r.Some? ==> |r.value| == CountKept(hits, start)
    decreases |hits|
  {
    if |hits| == 0 then Some([])
    else
      var init := hits[..|hits| - 1];
      var last := hits[|hits| - 1];
      assert forall i :: 0 <= i < |init| ==> init[i] == hits[i];
      PipelineStep(PipelineRows(init, start), last, start)
  }

  /** One turn of the loop: the hit's row is appended when it is kept; a
      year that does not convert, or the link of a kept hit that
      `extract_doi` cannot take, raises. */
  function PipelineStep(acc: Option<seq<PipelineRow>>, h: Hit, start: int): (r: Option<seq<PipelineRow>>)
    ensures r.Some? <==> acc.Some? && HitPasses(h, start)
    ensures r.Some? ==> r.value == acc.value + (if Kept(h, start) then [RowOf(h)] else [])
  {
    match acc
    case None => None
    case Some(rows) =>
      match HitYear(h)
      case None => None
      case Some(y) =>
        if y < start then Some(rows)
        else match ToPipelineRow(InfoOf(h), y)
          case None => None
          case Some(row) => Some(rows + [row])
  }

  lemma PipelineRowsSnoc(hits: seq<Hit>, h: Hit, start: int)
    ensures PipelineRows(hits + [h], start) == PipelineStep(PipelineRows(hits, start), h, start)
  {
    assert (hits + [h])[..|hits|] == hits;
  }

  /** Every row has a year of at least `start`, and every hit the pipeline
      keeps has its row among the rows. */
  lemma {:induction false} PipelineRowsKept(hits: seq<Hit>, start: int)
    requires PipelineRows(hits, start).Some?
    ensures forall k :: 0 <= k < |PipelineRows(hits, start).value| ==> PipelineRows(hits, start).value[k].year >= start
    ensures forall i :: 0 <= i < |hits| && Kept(hits[i], start) ==> RowOf(hits[i]) in PipelineRows(hits, start).value
    decreases |hits|
  {
    if |hits| > 0 {
      var init := hits[..|hits| - 1];
      var last := hits[|hits| - 1];
      PipelineRowsKept(init, start);
      var a := PipelineRows(init, start).value;
      var rows := PipelineRows(hits, start).value;
      assert rows == a + (if Kept(last, start) then [RowOf(last)] else []);
      forall k | 0 <= k < |rows|
        ensures rows[k].year >= start
      {
        if k < |a| {
          assert rows[k] == a[k];
        }
      }
      forall i | 0 <= i < |hits| && Kept(hits[i], start)
        ensures RowOf(hits[i]) in rows
      {
        if i < |init| {
          assert init[i] == hits[i];
          assert RowOf(init[i]) in a;
        }
      }
    }
  }

  /** Every row comes from a hit the pipeline keeps. */
  lemma {:induction false} PipelineRowsFromHits(hits: seq<Hit>, start: int, k: nat)
    requires PipelineRows(hits, start).Some? && k < |PipelineRows(hits, start).value|
    ensures exists i :: 0 <= i < |hits| && Kept(hits[i], start) && PipelineRows(hits, start).value[k] == RowOf(hits[i])
    decreases |hits|
  {
    var init := hits[..|hits| - 1];
    var rows := PipelineRows(init, start).value;
    if k < |rows| {
      PipelineRowsFromHits(init, start, k);
      var i :| 0 <= i < |init| && Kept(init[i], start) && rows[k] == RowOf(init[i]);
      assert init[i] == hits[i];
    } else {
      assert Kept(hits[|hits| - 1], start);
    }
  }

  /** Hits fetched in two parts give the rows of each part, one after the
      other: the rows keep the hits' order. */
  lemma {:induction false} PipelineRowsAppend(a: seq<Hit>, b: seq<Hit>, start: int)
    requires PipelineRows(a, start).Some? && PipelineRows(b, start).Some?
    ensures PipelineRows(a + b, start) == Some(PipelineRows(a, start).value + PipelineRows(b, start).value)
    decreases |b|
  {
    if |b| == 0 {
      assert a + b == a;
      assert PipelineRows(b, start) == Some([]);
      assert PipelineRows(a, start).value + [] == PipelineRows(a, start).value;
    } else {
      var binit := b[..|b| - 1];
      var last := b[|b| - 1];
      assert b == binit + [last];
      assert a + b == (a + binit) + [last];
      PipelineRowsSnoc(binit, last, start);
      PipelineRowsSnoc(a + binit, last, start);
      PipelineRowsAppend(a, binit, start);
      StepAppends(PipelineRows(a, start).value, PipelineRows(binit, start).value, last, start);
    }
  }

  lemma StepAppends(x: seq<PipelineRow>, y: seq<PipelineRow>, h: Hit, start: int)
    requires HitPasses(h, start)
    ensures PipelineStep(Some(x + y), h, start) == Some(x + PipelineStep(Some(y), h, start).value)
  {
    if Kept(h, start) {
      assert (x + y) + [RowOf(h)] == x + (y + [RowOf(h)]);
    }
  }

  /** `fetch_dblp_once`: a failed request (`None`) yields no rows; a hit
      whose year does not convert, or a kept hit whose link is a non-empty
      list, raises outside the `try` (`None` result). */
  function FetchOnce(response: Option<seq<Hit>>, start: int): (r: Option<seq<PipelineRow>>)
    ensures response.None? ==> r == Some([])
    ensures response.Some? ==> r == PipelineRows(response.value, start)
    ensures r.Some? ==> forall k :: 0 <= k < |r.value| ==> r.value[k].year >= start
  {
    match response
    case None => Some([])
    case Some(hits) =>
      var r := PipelineRows(hits, start);
      if r.Some? then PipelineRowsKept(hits, start); r else r
  }

  // -----------------------------------------------------------------------
  // step1_fetch_dblp.py
  // -----------------------------------------------------------------------

  predicate Step1YearsParse(hits: seq<Hit>) {
    forall i :: 0 <= i < |hits| ==> Step1Year(InfoOf(hits[i]).year).Some?
  }

  /** The row list step 1 builds; `None` when some year raises. */
  function Step1Rows(hits: seq<Hit>, start: int): (r: Option<seq<Step1Row>>)
    ensures r.Some? <==> Step1YearsParse(hits)
    ensures r.Some? ==> |r.value| <= |hits|
    ensures r.Some? ==> forall k :: 0 <= k < |r.value| ==> r.value[k].year >= start
    ensures r.Some? ==> forall i :: 0 <= i < |hits| && Step1Year(InfoOf(hits[i]).year).value >= start
                          ==> ToStep1Row(InfoOf(hits[i]), Step1Year(InfoOf(hits[i]).year).value) in r.value
    decreases |hits|
  {
    if |hits| == 0 then Some([])
    else
      var init := hits[..|hits| - 1];
      var info := InfoOf(hits[|hits| - 1]);
      match Step1Rows(init, start)
      case None => None
      case Some(rows) =>
        match Step1Year(info.year)
        case None => None
        case Some(y) =>
          assert forall i :: 0 <= i < |init| ==> init[i] == hits[i];
          Some(if y >= start then rows + [ToStep1Row(info, y)] else rows)
  }

  /** When step 1 does not raise, the pipeline raises exactly when a hit
      step 1 keeps has a link list `extract_doi` cannot take (step 1 only
      copies the link); otherwise both select the same hits, with the same
      years and authors. */
  lemma {:induction false} Step1MatchesPipeline(hits: seq<Hit>, start: int)
    requires Step1Rows(hits, start).Some?
    ensures PipelineRows(hits, start).Some? <==>
              forall i :: 0 <= i < |hits| && Step1Year(InfoOf(hits[i]).year).value >= start
                ==> PipelineDoi(InfoOf(hits[i]).ee).Some?
    ensures PipelineRows(hits, start).Some? ==>
              |Step1Rows(hits, start).value| == |PipelineRows(hits, start).value|
    ensures PipelineRows(hits, start).Some? ==>
              forall k :: 0 <= k < |Step1Rows(hits, start).value| ==>
                Step1Rows(hits, start).value[k].year == PipelineRows(hits, start).value[k].year
                && Step1Rows(hits, start).value[k].authors == PipelineRows(hits, start).value[k].authors
    decreases |hits|
  {
    if |hits| > 0 {
      var init := hits[..|hits| - 1];
      var last := hits[|hits| - 1];
      assert forall i :: 0 <= i < |init| ==> init[i] == hits[i];
      Step1MatchesPipeline(init, start);
      forall i | 0 <= i < |hits|
        ensures HitYear(hits[i]) == Step1Year(InfoOf(hits[i]).year)
      {
        YearConversionsAgree(InfoOf(hits[i]).year);
      }
    }
  }

  /** A kept hit whose link is a non-empty list: step 1 saves its row, the
      pipeline raises. */
  lemma LinkListDiverges(info: Info, start: int)
    requires Step1Year(info.year).Some? && Step1Year(info.year).value >= start
    requires info.ee.EeList? && |info.ee.items| > 0
    ensures Step1Rows([Hit(Some(info))], start) == Some([ToStep1Row(info, Step1Year(info.year).value)])
    ensures PipelineRows([Hit(Some(info))], start).None?
  {
    var h := Hit(Some(info));
    YearConversionsAgree(info.year);
    assert !HitPasses(h, start);
    assert [h][..0] == [];
    assert Step1Rows([], start) == Some([]);
    assert [] + [ToStep1Row(info, Step1Year(info.year).value)] == [ToStep1Row(info, Step1Year(info.year).value)];
  }

  /** A hit with an empty-string year: the pipeline keeps it as year 0,
      step 1 raises. */
  lemma EmptyYearDiverges(info: Info)
    requires info.year == YearText("")
    ensures PipelineRows([Hit(Some(info))], 0) ==
              (if ToPipelineRow(info, 0).Some? then Some([ToPipelineRow(info, 0).value]) else None)
    ensures Step1Rows([Hit(Some(info))], 0).None?
  {
    var h := Hit(Some(info));
    assert HitYear(h) == Some(0);
    PipelineRowsSnoc([], h, 0);
    assert [] + [h] == [h];
    assert PipelineRows([], 0) == Some([]);
    if ToPipelineRow(info, 0).Some? {
      assert RowOf(h) == ToPipelineRow(info, 0).value;
      assert [] + [RowOf(h)] == [RowOf(h)];
    }
    assert ParseInt("").None?;
  }

  /** The response of the search request: a non-200 status, or a 200 with
      the `result.hits.hit` list (absent levels read as the empty list). */
  datatype Response = NotOk(status: int) | Ok200(hits: seq<Hit>)

  /** What `fetch_and_save_from_dblp` ends with. */
  datatype Step1Outcome = RequestFailed | Raised | Saved(rows: seq<Step1Row>, count: nat)

  /** `fetch_and_save_from_dblp`: a failed request saves nothing; otherwise
      the qualifying rows are saved and their number reported. */
  function FetchAndSave(response: Response, start: int): (o: Step1Outcome)
    ensures response.NotOk? <==> o.RequestFailed?
    ensures o.Raised? <==> response.Ok200? && !Step1YearsParse(response.hits)
    ensures o.Saved? ==> o.count == |o.rows| && o.rows == Step1Rows(response.hits, start).value
  {
    match response
    case NotOk(_) => RequestFailed
    case Ok200(hits) =>
      match Step1Rows(hits, start)
      case None => Raised
      case Some(rows) => Saved(rows, |rows|)
  }
}

=== FILE: doi.dfy ===
/** `extract_doi` (paper_pipeline.py line 68-74): the first match of
    `doi.org/(10\.\d{4,}/[-._;()/:a-zA-Z0-9]+)` in a DBLP `ee` link, as a
    hand-written matcher over ASCII. The `.` of `doi.org` is an unescaped
    wildcard, so "doi" followed by any character except a line feed and then
    "org/" also matches. Because a digit is never a `/`, the greedy `\d{4,}`
    has nothing to give back, and the match at a position is determined by
    maximal runs. */
module Doi {
  import opened Common

  /** The character class `[-._;()/:a-zA-Z0-9]`. */
  predicate InSuffixClass(c: char) {
    c == '-' || c == '.' || c == '_' || c == ';' || c == '(' || c == ')' || c == '/' || c == ':'
    || ('a' <= c <= 'z') || ('A' <= c <= 'Z') || IsDigit(c)
  }

  /** The length of the longest run of class characters starting at `k`. */
  function ClassRun(s: string, k: nat): (n: nat)
    requires k <= |s|
    ensures k + n <= |s|
    ensures forall i :: k <= i < k + n ==> InSuffixClass(s[i])
    ensures k + n == |s| || !InSuffixClass(s[k + n])
    decreases |s| - k
  {
    if k < |s| && InSuffixClass(s[k]) then 1 + ClassRun(s, k + 1) else 0
  }

  /** The pattern matches at offset `i`: "doi", any character but a line
      feed, "org/10.", at least four digits, "/", at least one class
      character. */
  predicate MatchAt(s: string, i: nat) {
    i + 11 <= |s|
    && s[i..i + 3] == "doi" && s[i + 3] != '\n' && s[i + 4..i + 11] == "org/10."
    && var d := DigitRun(s, i + 11);
       d >= 4 && i + 11 + d < |s| && s[i + 11 + d] == '/'
       && ClassRun(s, i + 12 + d) >= 1
  }

  /** Where the captured group of a match at `i` ends. */
  function GroupEnd(s: string, i: nat): (e: nat)
    requires MatchAt(s, i)
    ensures i + 8 < e <= |s|
  {
    var d := DigitRun(s, i + 11);
    i + 12 + d + ClassRun(s, i + 12 + d)
  }

  /** `re.search` scans left to right: the first offset from `i` on where
      the pattern matches. */
  function FirstMatch(s: string, i: nat): (r: Option<nat>)
    requires i <= |s|
    ensures r.Some? ==> i <= r.value < |s| && MatchAt(s, r.value)
    ensures r.Some? ==> forall k :: i <= k < r.value ==> !MatchAt(s, k)
    ensures r.None? ==> forall k :: i <= k ==> !MatchAt(s, k)
    decreases |s| - i
  {
    if i == |s| then None
    else if MatchAt(s, i) then Some(i)
    else FirstMatch(s, i + 1)
  }

  /** The text `10.` + at least four digits + `/` + at least one class
      character, and nothing else. */
  predicate DoiShaped(r: string) {
    |r| >= 3 && r[..3] == "10."
    && var d := DigitRun(r, 3);
       d >= 4 && 3 + d < |r| - 1 && r[3 + d] == '/'
       && forall i :: 4 + d <= i < |r| ==> InSuffixClass(r[i])
  }

  /** `extract_doi(url)` */
  function ExtractDoi(url: string): (r: string)
    ensures r == "" <==> url == "" || forall i: nat :: !MatchAt(url, i)
    ensures r != "" ==> exists i: nat :: MatchAt(url, i) && (forall k :: 0 <= k < i ==> !MatchAt(url, k))
                                    && r == url[i + 8..GroupEnd(url, i)]
    ensures r != "" ==> DoiShaped(r)
  {
    if url == "" then ""
    else match FirstMatch(url, 0)
      case None => ""
      case Some(i) =>
        var r := url[i + 8..GroupEnd(url, i)];
        GroupIsDoiShaped(url, i);
        r
  }

  /** The captured group of any match is DOI-shaped. */
  lemma GroupIsDoiShaped(s: string, i: nat)
    requires MatchAt(s, i)
    ensures DoiShaped(s[i + 8..GroupEnd(s, i)])
  {
    var e := GroupEnd(s, i);
    var r := s[i + 8..e];
    var d := DigitRun(s, i + 11);
    DigitRunShift(s, i + 8, e, 3);
    assert DigitRun(r, 3) == d;
    assert r[..3] == s[i + 8..i + 11] == "10.";
    assert r[3 + d] == s[i + 11 + d] == '/';
    forall k | 4 + d <= k < |r|
      ensures InSuffixClass(r[k])
    {
      assert r[k] == s[i + 8 + k];
    }
  }

  /** A link whose "doi.org" has its dot replaced. */
  const DottedLink := "doiXorg/" + DottedDoi
  const DottedDoi := "10.1234/ab"

  /** A DOI link with only three digits after "10.". */
  const ShortLink := "doi.org/10.123/ab"

  lemma DottedLinkRuns()
    ensures DigitRun(DottedLink, 11) == 4
    ensures ClassRun(DottedLink, 16) == 2
  {
    var s := DottedLink;
    DigitRunExact(s, 11, 4);
  }

  lemma DottedLinkMatches()
    ensures MatchAt(DottedLink, 0) && GroupEnd(DottedLink, 0) == 18
  {
    DottedLinkRuns();
    var s := DottedLink;
    assert s[0..3] == "doi";
    assert s[4..11] == "org/10.";
  }

  /** The unescaped dot: "doi" + any character + "org/" matches too. */
  lemma WildcardDot()
    ensures ExtractDoi(DottedLink) == "10.1234/ab"
  {
    DottedLinkFirst();
    DottedLinkMatches();
    FirstMatchIsExtracted(DottedLink, 0);
    assert DottedLink[8..] == DottedDoi;
  }

  lemma DottedLinkFirst()
    ensures FirstMatch(DottedLink, 0) == Some(0)
  {
    DottedLinkMatches();
  }

  /** The extracted text is the group of the leftmost match. */
  lemma FirstMatchIsExtracted(url: string, i: nat)
    requires FirstMatch(url, 0) == Some(i)
    ensures ExtractDoi(url) == url[i + 8..GroupEnd(url, i)]
  {
  }

  lemma ShortLinkRun()
    ensures DigitRun(ShortLink, 11) == 3
  {
    DigitRunExact(ShortLink, 11, 3);
  }

  lemma ShortLinkNoMatchAt(i: nat)
    ensures !MatchAt(ShortLink, i)
  {
    var s := ShortLink;
    if i == 0 {
      ShortLinkRun();
    } else if i + 11 <= |s| {
      assert 1 <= i <= 6;
      assert s[i + 9] != '0';
    }
  }

  /** Three digits after "10." are too few. */
  lemma TooFewDigits()
    ensures ExtractDoi(ShortLink) == ""
  {
    forall i: nat
      ensures !MatchAt(ShortLink, i)
    {
      ShortLinkNoMatchAt(i);
    }
  }
}

=== FILE: fences.dfy ===
/** The reply cleaning both scorers apply before `json.loads`: strip the
    reply, delete every "```json", then every "```", and strip again
    (paper_pipeline.py line 250-251, step3_ai_relevance_analysis.py line
    73-75). */
module Fences {
  import opened Common

  const JsonFence := "```json"
  const Fence := "```"

  /** The text handed to `json.loads` for a reply `raw`. */
  function CleanReply(raw: string): (r: string)
    ensures !Contains(r, Fence)
    ensures !Contains(r, JsonFence)
  {
    var once := ReplaceAll(Strip(raw), JsonFence, "");
    var twice := ReplaceAll(once, Fence, "");
    NoFenceAfterRemoval(once);
    StripKeepsAbsence(twice, Fence);
    ContainsLongerPattern(Strip(twice), JsonFence, Fence);
    Strip(twice)
  }

  /** A reply that carries no fence and no surrounding whitespace reaches
      the parser unchanged. */
  lemma CleanReplyKeepsPlainText(raw: string)
    requires !Contains(raw, Fence)
    requires |raw| == 0 || (!IsSpace(raw[0]) && !IsSpace(raw[|raw| - 1]))
    ensures CleanReply(raw) == raw
  {
    StripUnchanged(raw);
    ReplacesNothing(raw);
  }

  lemma ReplacesNothing(raw: string)
    requires !Contains(raw, Fence)
    ensures ReplaceAll(ReplaceAll(raw, JsonFence, ""), Fence, "") == raw
  {
    ContainsLongerPattern(raw, JsonFence, Fence);
    ReplaceAbsent(raw, JsonFence, "");
    ReplaceAbsent(raw, Fence, "");
  }

  /** Deleting every "```" leaves none behind, even where the deletions
      bring backticks from both sides together: a deleted occurrence is
      always the leftmost one, so no backtick can precede it. */
  lemma {:induction false} NoFenceAfterRemoval(s: string)
    ensures !Contains(ReplaceAll(s, Fence, ""), Fence)
    decreases |s|
  {
    var r := ReplaceAll(s, Fence, "");
    if StartsWith(s, Fence) {
      NoFenceAfterRemoval(s[3..]);
      assert r == ReplaceAll(s[3..], Fence, "");
    } else if |s| > 0 {
      var t := s[1..];
      var rt := ReplaceAll(t, Fence, "");
      NoFenceAfterRemoval(t);
      assert r == [s[0]] + rt;
      assert r[1..] == rt;
      if s[0] == '`' {
        assert !StartsWith(t, "``");
        NoDoubleTickAfterRemoval(t);
        assert !StartsWith(r, Fence);
      }
    }
  }

  /** Removal keeps a leading character that is not a backtick. */
  lemma KeepsFirstChar(s: string)
    requires |s| > 0 && s[0] != '`'
    ensures |ReplaceAll(s, Fence, "")| > 0 && ReplaceAll(s, Fence, "")[0] == s[0]
  {
    assert !StartsWith(s, Fence);
  }

  /** Removal does not produce a leading "``" from a text without one. */
  lemma NoDoubleTickAfterRemoval(s: string)
    requires !StartsWith(s, "``")
    ensures !StartsWith(ReplaceAll(s, Fence, ""), "``")
  {
    var r := ReplaceAll(s, Fence, "");
    if |s| > 0 && s[0] != '`' {
      KeepsFirstChar(s);
    } else if |s| > 0 {
      assert !StartsWith(s, Fence);
      var t := s[1..];
      assert r == "`" + ReplaceAll(t, Fence, "");
      if |t| > 0 {
        assert t[0] != '`';
        KeepsFirstChar(t);
        assert r[1] == t[0];
      }
    }
  }
}

=== FILE: paper_files.dfy ===
/** Splitting a paper collection into one JSON file per paper index
    (split_json.py) and merging chosen indices back into one list
    (combin_json.py). A directory is a map from file name to what the file
    holds; `json.dump` followed by `json.load` gives back the same paper. */
module PaperFiles {
  import opened Common

  /** `paper_info.index`: absent, `null`, an integer, or something `:02d`
      cannot format (text, a float). */
  datatype IndexValue = IndexAbsent | IndexNull | IndexInt(n: int) | IndexOther

  /** `paper_info`: absent, not an object (so `.get` raises), or an object. */
  datatype InfoField = InfoAbsent | InfoNotObject | InfoObject(index: IndexValue, title: Option<string>)

  /** One element of `papers`. Only an object has `.get`. */
  datatype Paper = NotAnObject | PaperObject(info: InfoField, fields: map<string, string>)

  /** A file in a directory: a JSON value, or text that does not parse. */
  datatype StoredFile = Stored(paper: Paper) | Corrupt

  type Directory = map<string, StoredFile>

  /** `f"{n:02d}"`: at least two characters, padded with zeros on the left;
      a negative number already has two ("-5"). */
  function PadIndex(n: int): (s: string)
    ensures |s| >= 2
    ensures 0 <= n < 10 ==> s == "0" + IntToString(n)
    ensures !(0 <= n < 10) ==> s == IntToString(n)
  {
    if 0 <= n < 10 then "0" + IntToString(n)
    else
      assert n >= 10 ==> NatToString(n / 10) != "";
      IntToString(n)
  }

  /** `f"{n:02d}.json"`, the name both scripts use for index `n`. */
  function FileName(n: int): string {
    PadIndex(n) + ".json"
  }

  /** Different indices get different files. */
  lemma PadIndexInjective(a: int, b: int)
    ensures PadIndex(a) == PadIndex(b) ==> a == b
  {
    if PadIndex(a) == PadIndex(b) {
      if 0 <= a < 10 && 0 <= b < 10 {
        assert IntToString(a) == PadIndex(a)[1..] == PadIndex(b)[1..] == IntToString(b);
        IntToStringInjective(a, b);
      } else if 0 <= a < 10 {
        NotPadded(b);
      } else if 0 <= b < 10 {
        NotPadded(a);
      } else {
        IntToStringInjective(a, b);
      }
    }
  }

  /** Outside 0..9 the spelling does not start with "0". */
  lemma NotPadded(n: int)
    requires !(0 <= n < 10)
    ensures PadIndex(n)[0] != '0'
  {
    if n < 0 {
      assert PadIndex(n)[0] == '-';
    }
  }

  lemma FileNameInjective(a: int, b: int)
    ensures FileName(a) == FileName(b) ==> a == b
  {
    if FileName(a) == FileName(b) {
      var pa := PadIndex(a);
      var pb := PadIndex(b);
      assert |pa| == |pb|;
      assert pa == FileName(a)[..|pa|] == FileName(b)[..|pb|] == pb;
      PadIndexInjective(a, b);
    }
  }

  // -----------------------------------------------------------------------
  // split_json_papers
  // -----------------------------------------------------------------------

  /** What reading `paper.get("paper_info", {}).get("index")` and formatting
      it gives. */
  datatype IndexRead = ReadRaises | NoIndex | Unformattable | Index(n: int)

  function ReadIndex(p: Paper): (r: IndexRead)
    ensures r.ReadRaises? <==> p.NotAnObject? || p.info.InfoNotObject?
    ensures r.Index? <==> p.PaperObject? && p.info.InfoObject? && p.info.index.IndexInt?
  {
    match p
    case NotAnObject => ReadRaises
    case PaperObject(info, _) =>
      match info
      case InfoNotObject => ReadRaises
      case InfoAbsent => NoIndex
      case InfoObject(index, _) =>
        match index
        case IndexAbsent => NoIndex
        case IndexNull => NoIndex
        case IndexOther => Unformattable
        case IndexInt(n) => Index(n)
  }

  /** The state of the loop: the output directory, `count`, whether `idx`
      has been assigned yet, and whether the loop was abandoned. */
  datatype SplitState = SplitState(dir: Directory, count: nat, idxBound: bool, aborted: bool)

  /** One paper. A paper that has an integer index is written under its
      file name. A paper without one is skipped. When reading the index
      raises, the handler prints `idx`: before any paper has assigned it,
      that raises again, out of the loop. */
  function SplitStep(st: SplitState, p: Paper): (r: SplitState)
    ensures st.aborted ==> r == st
    ensures !st.aborted && ReadIndex(p).Index? ==>
              r == SplitState(st.dir[FileName(ReadIndex(p).n) := Stored(p)], st.count + 1, true, false)
    ensures !st.aborted && !ReadIndex(p).Index? ==> r.dir == st.dir && r.count == st.count
    ensures r.aborted <==> st.aborted || (!st.idxBound && ReadIndex(p).ReadRaises?)
  {
    if st.aborted then st
    else match ReadIndex(p)
      case ReadRaises => if st.idxBound then st else st.(aborted := true)
      case NoIndex => st.(idxBound := true)
      case Unformattable => st.(idxBound := true)
      case Index(n) => SplitState(st.dir[FileName(n) := Stored(p)], st.count + 1, true, false)
  }

  /** The loop over `papers`, starting from directory `dir`. */
  function SplitLoop(dir: Directory, papers: seq<Paper>): (st: SplitState)
    ensures |papers| == 0 ==> st == SplitState(dir, 0, false, false)
    ensures |papers| > 0 ==> st.idxBound || st.aborted
    decreases |papers|
  {
    if |papers| == 0 then SplitState(dir, 0, false, false)
    else SplitStep(SplitLoop(dir, papers[..|papers| - 1]), papers[|papers| - 1])
  }

  /** The loop is abandoned exactly when reading the first paper's index
      raises; later papers that raise are only skipped. */
  lemma {:induction false} SplitAbortsOnlyOnFirst(dir: Directory, papers: seq<Paper>)
    ensures SplitLoop(dir, papers).aborted <==> |papers| > 0 && ReadIndex(papers[0]).ReadRaises?
    ensures SplitLoop(dir, papers).aborted ==> SplitLoop(dir, papers).dir == dir && SplitLoop(dir, papers).count == 0
    decreases |papers|
  {
    if |papers| > 1 {
      var init := papers[..|papers| - 1];
      SplitAbortsOnlyOnFirst(dir, init);
      assert init[0] == papers[0];
    }
  }

  /** The last paper in `papers` whose index is `n`. */
  function LastWithIndex(papers: seq<Paper>, n: int): (r: Option<Paper>)
    ensures r.Some? ==> r.value in papers && ReadIndex(r.value) == Index(n)
    ensures r.None? <==> forall i :: 0 <= i < |papers| ==> ReadIndex(papers[i]) != Index(n)
    decreases |papers|
  {
    if |papers| == 0 then None
    else if ReadIndex(papers[|papers| - 1]) == Index(n) then Some(papers[|papers| - 1])
    else
      var r := LastWithIndex(papers[..|papers| - 1], n);
      assert forall i :: 0 <= i < |papers| - 1 ==> papers[..|papers| - 1][i] == papers[i];
      r
  }

  /** How many papers have an integer index. */
  function CountIndexed(papers: seq<Paper>): (n: nat)
    ensures n <= |papers|
  {
    if |papers| == 0 then 0
    else CountIndexed(papers[..|papers| - 1]) + (if ReadIndex(papers[|papers| - 1]).Index? then 1 else 0)
  }

  /** A name is written by the loop: it is the file name of some paper's
      index. */
  ghost predicate Written(papers: seq<Paper>, name: string) {
    exists n :: LastWithIndex(papers, n).Some? && name == FileName(n)
  }

  /** What a loop that is not abandoned leaves behind: every index's file
      holds the last paper with that index, every other file is untouched,
      and `count` is the number of papers with an index. */
  lemma {:induction false} SplitLoopWrites(dir: Directory, papers: seq<Paper>)
    requires !SplitLoop(dir, papers).aborted
    ensures SplitLoop(dir, papers).count == CountIndexed(papers)
    ensures forall n :: LastWithIndex(papers, n).Some? ==>
              FileName(n) in SplitLoop(dir, papers).dir
              && SplitLoop(dir, papers).dir[FileName(n)] == Stored(LastWithIndex(papers, n).value)
    ensures forall name :: name in dir && !Written(papers, name) ==>
              name in SplitLoop(dir, papers).dir && SplitLoop(dir, papers).dir[name] == dir[name]
    ensures forall name :: name in SplitLoop(dir, papers).dir ==> name in dir || Written(papers, name)
    decreases |papers|
  {
    if |papers| > 0 {
      var init := papers[..|papers| - 1];
      var p := papers[|papers| - 1];
      SplitLoopWrites(dir, init);
      var before := SplitLoop(dir, init);
      var after := SplitLoop(dir, papers);
      forall n | LastWithIndex(papers, n).Some?
        ensures FileName(n) in after.dir && after.dir[FileName(n)] == Stored(LastWithIndex(papers, n).value)
      {
        if ReadIndex(p) != Index(n) && ReadIndex(p).Index? {
          FileNameInjective(n, ReadIndex(p).n);
        }
      }
      forall name | name in dir && !Written(papers, name)
        ensures name in after.dir && after.dir[name] == dir[name]
      {
        if ReadIndex(p).Index? {
          assert LastWithIndex(papers, ReadIndex(p).n).Some?;
        }
        forall n | LastWithIndex(init, n).Some?
          ensures name != FileName(n)
        {
          assert LastWithIndex(papers, n).Some?;
        }
      }
      forall name | name in after.dir
        ensures name in dir || Written(papers, name)
      {
        if name !in dir {
          if ReadIndex(p).Index? && name == FileName(ReadIndex(p).n) {
            assert LastWithIndex(papers, ReadIndex(p).n).Some?;
          } else {
            assert Written(init, name);
            var n :| LastWithIndex(init, n).Some? && name == FileName(n);
            assert LastWithIndex(papers, n).Some?;
          }
        }
      }
    }
  }

  /** The input file: missing, not JSON, JSON without a "papers" key, or
      the papers list. */
  datatype InputFile = InputMissing | InputCorrupt | NoPapersKey | Papers(papers: seq<Paper>)

  datatype SplitOutcome =
    | NoInput
    | BadJson
    | MissingPapers
    | Abandoned(dir: Directory)
    | Split(dir: Directory, count: nat)

  /** `split_json_papers`: only a readable "papers" list writes anything. */
  function SplitPapers(input: InputFile, dir: Directory): (o: SplitOutcome)
    ensures !input.Papers? ==> !o.Abandoned? && !o.Split?
    ensures o.Abandoned? ==> o.dir == dir
    ensures o.Split? ==> o.count == CountIndexed(input.papers) <= |input.papers|
  {
    match input
    case InputMissing => NoInput
    case InputCorrupt => BadJson
    case NoPapersKey => MissingPapers
    case Papers(papers) =>
      SplitAbortsOnlyOnFirst(dir, papers);
      var st := SplitLoop(dir, papers);
      if st.aborted then Abandoned(st.dir)
      else
        SplitLoopWrites(dir, papers);
        Split(st.dir, st.count)
  }

  // -----------------------------------------------------------------------
  // merge_specific_jsons
  // -----------------------------------------------------------------------

  /** `target_indices` when it is `None` */
  const DefaultIndices: seq<int> := [1, 2]

  /** The papers read for `indices`, in that order; a missing or corrupt
      file is skipped. */
  function Collect(dir: Directory, indices: seq<int>): (merged: seq<Paper>)
    ensures |merged| <= |indices|
    ensures forall i :: 0 <= i < |indices| && Readable(dir, indices[i]) ==> dir[FileName(indices[i])].paper in merged
    decreases |indices|
  {
    if |indices| == 0 then []
    else
      var init := indices[..|indices| - 1];
      var name := FileName(indices[|indices| - 1]);
      var before := Collect(dir, init);
      assert forall i :: 0 <= i < |init| ==> init[i] == indices[i];
      if Readable(dir, indices[|indices| - 1]) then before + [dir[name].paper] else before
  }

  /** The file for index `n` exists and parses. */
  predicate Readable(dir: Directory, n: int) {
    FileName(n) in dir && dir[FileName(n)].Stored?
  }

  /** Every merged paper was read from the file of one of the indices. */
  lemma {:induction false} CollectFromFiles(dir: Directory, indices: seq<int>, k: nat)
    requires k < |Collect(dir, indices)|
    ensures exists i :: 0 <= i < |indices| && Readable(dir, indices[i])
                        && dir[FileName(indices[i])].paper == Collect(dir, indices)[k]
    decreases |indices|
  {
    var init := indices[..|indices| - 1];
    var before := Collect(dir, init);
    if k < |before| {
      CollectFromFiles(dir, init, k);
      var i :| 0 <= i < |init| && Readable(dir, init[i]) && dir[FileName(init[i])].paper == before[k];
      assert init[i] == indices[i];
    } else {
      assert Readable(dir, indices[|indices| - 1]);
    }
  }

  /** Reading a list of indices in two parts reads each part in turn. */
  lemma {:induction false} CollectAppend(dir: Directory, a: seq<int>, b: seq<int>)
    ensures Collect(dir, a + b) == Collect(dir, a) + Collect(dir, b)
    decreases |b|
  {
    if |b| == 0 {
      assert a + b == a;
      assert Collect(dir, a) + [] == Collect(dir, a);
    } else {
      var binit := b[..|b| - 1];
      CollectAppend(dir, a, binit);
      assert (a + b)[..|a + b| - 1] == a + binit;
      assert (a + b)[|a + b| - 1] == b[|b| - 1];
      var x := Collect(dir, a);
      var y := Collect(dir, binit);
      var name := FileName(b[|b| - 1]);
      if name in dir && dir[name].Stored? {
        assert (x + y) + [dir[name].paper] == x + (y + [dir[name].paper]);
      }
    }
  }

  /** The output name: the indices' decimal spellings joined with "_". */
  function OutputName(indices: seq<int>): string {
    Join("_", seq(|indices|, i requires 0 <= i < |indices| => IntToString(indices[i]))) + ".json"
  }

  datatype MergeOutcome = NoInputFolder | NothingFound | Merged(name: string, papers: seq<Paper>, found: nat)

  /** `merge_specific_jsons`: the output is written only when something was
      found, under a name made of all the requested indices. */
  function Merge(dir: Directory, folderExists: bool, targets: Option<seq<int>>): (o: MergeOutcome)
    ensures !folderExists <==> o.NoInputFolder?
    ensures o.Merged? ==> o.found == |o.papers| > 0
    ensures o.Merged? ==> o.papers == Collect(dir, targets.GetOr(DefaultIndices))
                          && o.name == OutputName(targets.GetOr(DefaultIndices))
    ensures o.NothingFound? ==> Collect(dir, targets.GetOr(DefaultIndices)) == []
  {
    var indices := targets.GetOr(DefaultIndices);
    if !folderExists then NoInputFolder
    else
      var merged := Collect(dir, indices);
      if merged == [] then NothingFound else Merged(OutputName(indices), merged, |merged|)
  }

  /** No list given is the same as asking for indices 1 and 2. */
  lemma MergeDefault(dir: Directory, folderExists: bool)
    ensures Merge(dir, folderExists, None) == Merge(dir, folderExists, Some([1, 2]))
  {
  }

  /** Splitting and then merging a single index gives back the last paper
      with that index, in a file named after the index. */
  lemma SplitThenMerge(input: InputFile, dir: Directory, n: int)
    requires SplitPapers(input, dir).Split?
    requires LastWithIndex(input.papers, n).Some?
    ensures Merge(SplitPapers(input, dir).dir, true, Some([n]))
            == Merged(IntToString(n) + ".json", [LastWithIndex(input.papers, n).value], 1)
  {
    var out := SplitPapers(input, dir).dir;
    SplitWritesIndex(input, dir, n);
    CollectOne(out, n);
    OutputNameOne(n);
  }

  /** After a split, the file for an index holds the last paper with it. */
  lemma SplitWritesIndex(input: InputFile, dir: Directory, n: int)
    requires SplitPapers(input, dir).Split?
    requires LastWithIndex(input.papers, n).Some?
    ensures Readable(SplitPapers(input, dir).dir, n)
    ensures SplitPapers(input, dir).dir[FileName(n)] == Stored(LastWithIndex(input.papers, n).value)
  {
    SplitAbortsOnlyOnFirst(dir, input.papers);
    SplitLoopWrites(dir, input.papers);
  }

  lemma CollectOne(dir: Directory, n: int)
    requires Readable(dir, n)
    ensures Collect(dir, [n]) == [dir[FileName(n)].paper]
  {
    assert [n][..0] == [];
  }

  lemma OutputNameOne(n: int)
    ensures OutputName([n]) == IntToString(n) + ".json"
  {
    assert Join("_", [IntToString(n)]) == IntToString(n);
    assert seq(1, i requires 0 <= i < 1 => IntToString([n][i])) == [IntToString(n)];
  }
}

=== FILE: pdf_fetch.dfy ===
/** The decisions of the PDF downloader (step4_fetch_pdfs_scihub.py): which
    rows to fetch, which to skip, which file name each PDF gets, and which
    URL the browser is sent to. The browser itself is an input: for every
    row it reports the page a DOI link landed on and whether a download was
    caught. */
module PdfFetch {
  import opened Common
  import Slug

  /** `MIN_AI_SCORE` */
  const MinAiScore := 4

  /** An `AI_Score` cell: a number, text, or empty. */
  datatype ScoreCell = ScoreNumber(n: int) | ScoreText(t: string) | ScoreEmpty

  /** `pd.to_numeric(..., errors='coerce').fillna(0)`: text that is not a
      number and empty cells become 0. */
  function CoerceScore(c: ScoreCell): (n: int)
    ensures c.ScoreNumber? ==> n == c.n
    ensures c.ScoreEmpty? ==> n == 0
    ensures c.ScoreText? ==> n == ParseInt(c.t).GetOr(0)
  {
    match c
    case ScoreNumber(n) => n
    case ScoreText(t) => ParseInt(t).GetOr(0)
    case ScoreEmpty => 0
  }

  /** A row of the analysis sheet. A cell that is not text (an empty cell
      reads as NaN) is `NotText`; a missing `Title` column reads as
      "Untitled", a missing `DOI` column as "", a missing `Venue` as "". */
  datatype PaperRow = PaperRow(title: Slug.CellValue, doi: Slug.CellValue, venue: Option<string>, score: ScoreCell)

  predicate WorthFetching(r: PaperRow) {
    CoerceScore(r.score) >= MinAiScore
  }

  /** The rows of `target_df`: with an `AI_Score` column, those scoring at
      least 4, in sheet order; without it, every row. */
  function Targets(rows: seq<PaperRow>, hasScoreColumn: bool): (t: seq<PaperRow>)
    ensures !hasScoreColumn ==> t == rows
    ensures |t| <= |rows|
    ensures hasScoreColumn ==> forall k :: 0 <= k < |t| ==> WorthFetching(t[k]) && t[k] in rows
    ensures hasScoreColumn ==> forall i :: 0 <= i < |rows| && WorthFetching(rows[i]) ==> rows[i] in t
    decreases |rows|
  {
    if !hasScoreColumn || |rows| == 0 then rows
    else
      var init := rows[..|rows| - 1];
      var last := rows[|rows| - 1];
      var t0 := Targets(init, true);
      assert forall i :: 0 <= i < |init| ==> init[i] == rows[i];
      if WorthFetching(last) then t0 + [last] else t0
  }

  /** Selecting from two parts of the sheet selects from each in turn: the
      filter keeps the sheet order. */
  lemma {:induction false} TargetsAppend(a: seq<PaperRow>, b: seq<PaperRow>)
    ensures Targets(a + b, true) == Targets(a, true) + Targets(b, true)
    decreases |b|
  {
    if |b| == 0 {
      assert a + b == a;
      assert Targets(a, true) + [] == Targets(a, true);
    } else {
      var binit := b[..|b| - 1];
      var last := b[|b| - 1];
      TargetsAppend(a, binit);
      assert (a + b)[..|a + b| - 1] == a + binit;
      assert (a + b)[|a + b| - 1] == last;
      var x := Targets(a, true);
      var y := Targets(binit, true);
      assert (x + y) + [last] == x + (y + [last]);
    }
  }

  /** `not doi or pd.isna(doi)`: an empty or missing DOI skips the row. */
  predicate NoDoi(doi: Slug.CellValue) {
    doi.NotText? || doi.s == ""
  }

  /** The IEEE route: the DOI carries the IEEE prefix "10.1109" or the venue
      names IEEE (`str` of a missing venue is "nan" or "", which never
      does). */
  predicate IsIeee(doi: string, venue: Option<string>) {
    Contains(doi, "10.1109") || Contains(venue.GetOr(""), "IEEE")
  }

  /** The route as occurrences: the IEEE path is taken exactly when
      "10.1109" occurs somewhere in the DOI or "IEEE" somewhere in the venue. */
  lemma IsIeeeIffOccurs(doi: string, venue: Option<string>)
    ensures IsIeee(doi, venue) <==>
      (exists i :: OccursAt(doi, "10.1109", i)) || (exists i :: OccursAt(venue.GetOr(""), "IEEE", i))
  {
    ContainsIffOccurs(doi, "10.1109");
    ContainsIffOccurs(venue.GetOr(""), "IEEE");
  }

  // -----------------------------------------------------------------------
  // arnumber
  // -----------------------------------------------------------------------

  const DocumentPrefix := "document/"

  /** `document/(\d+)` matches at `i`: "document/" followed by a digit. */
  predicate ArnumberAt(url: string, i: nat) {
    OccursAt(url, DocumentPrefix, i) && i + 9 < |url| && IsDigit(url[i + 9])
  }

  /** The leftmost match from `i` on. */
  function FirstArnumber(url: string, i: nat): (r: Option<nat>)
    requires i <= |url|
    ensures r.Some? ==> i <= r.value < |url| && ArnumberAt(url, r.value)
    ensures r.Some? ==> forall k :: i <= k < r.value ==> !ArnumberAt(url, k)
    ensures r.None? ==> forall k :: i <= k ==> !ArnumberAt(url, k)
    decreases |url| - i
  {
    if i == |url| then None
    else if ArnumberAt(url, i) then Some(i)
    else FirstArnumber(url, i + 1)
  }

  /** `re.search(r"document/(\d+)", current_url).group(1)`: the whole digit
      run after the leftmost "document/" that a digit follows. */
  function Arnumber(url: string): (r: Option<string>)
    ensures r.None? <==> forall i: nat :: !ArnumberAt(url, i)
    ensures r.Some? ==> |r.value| > 0 && AllDigits(r.value)
    ensures r.Some? ==> exists i: nat :: ArnumberAt(url, i) && (forall k :: 0 <= k < i ==> !ArnumberAt(url, k))
                          && r.value == url[i + 9..i + 9 + DigitRun(url, i + 9)]
  {
    match FirstArnumber(url, 0)
    case None => None
    case Some(i) =>
      var d := url[i + 9..i + 9 + DigitRun(url, i + 9)];
      assert d[0] == url[i + 9];
      Some(d)
  }

  const StampPrefix := "https://ieeexplore.ieee.org/stamp/stamp.jsp?tp=&arnumber="

  /** `process_ieee` after the DOI redirect landed on `landing`: the stamp
      URL the browser is sent to, or `None` when it returns False. */
  function IeeeDownloadUrl(landing: string): (r: Option<string>)
    ensures r.None? <==> Arnumber(landing).None?
    ensures r.Some? ==> r.value == StampPrefix + Arnumber(landing).value
  {
    match Arnumber(landing)
    case None => None
    case Some(a) => Some(StampPrefix + a)
  }

  /** The arnumber can be read back from the stamp URL: the part after the
      fixed prefix is exactly the digits. */
  lemma StampUrlCarriesArnumber(landing: string)
    requires IeeeDownloadUrl(landing).Some?
    ensures var u := IeeeDownloadUrl(landing).value;
            |u| > |StampPrefix| && u[..|StampPrefix|] == StampPrefix
            && u[|StampPrefix|..] == Arnumber(landing).value && AllDigits(u[|StampPrefix|..])
  {
    var u := IeeeDownloadUrl(landing).value;
    assert u[|StampPrefix|..] == Arnumber(landing).value;
  }

  /** A typical landing page: the arnumber is the whole digit run. */
  const LandingPage := LandingPrefix + LandingArnumber + "/"
  const LandingPrefix := "ieee.org/document/"
  const LandingArnumber := "9746006"

  lemma LandingPageArnumber()
    ensures Arnumber(LandingPage) == Some("9746006")
  {
    LandingPageFirst();
    LandingPageRun();
    assert LandingPage[..25] == LandingPrefix + LandingArnumber;
  }

  lemma LandingPageFirst()
    ensures FirstArnumber(LandingPage, 0) == Some(9)
  {
    var s := LandingPage;
    assert OccursAt(s, DocumentPrefix, 9);
    forall k | 0 <= k < 9
      ensures !ArnumberAt(s, k)
    {
      assert s[k] != 'd';
    }
    FirstArnumberFrom(s, 0, 9);
  }

  lemma LandingPageRun()
    ensures DigitRun(LandingPage, 18) == 7
  {
    DigitRunExact(LandingPage, 18, 7);
  }

  /** The scan finds `j` when `j` matches and nothing between `i` and `j`
      does. */
  lemma {:induction false} FirstArnumberFrom(url: string, i: nat, j: nat)
    requires i <= j < |url| && ArnumberAt(url, j)
    requires forall k :: i <= k < j ==> !ArnumberAt(url, k)
    ensures FirstArnumber(url, i) == Some(j)
    decreases j - i
  {
    if i < j {
      FirstArnumberFrom(url, i + 1, j);
    }
  }

  // -----------------------------------------------------------------------
  // One row
  // -----------------------------------------------------------------------

  /** `title[:80]` */
  function Truncate(s: string): (r: string)
    ensures |r| <= 80 && |r| <= |s| && r == s[..|r|]
    ensures |s| <= 80 ==> r == s
  {
    if |s| <= 80 then s else s[..80]
  }

  /** The file name as written: `slugify(title[:80]) + ".pdf"`. Slicing a
      title that is not text raises `TypeError` before `slugify` can
      answer "untitled"; the error is `None`. */
  function TargetNameAsWritten(title: Slug.CellValue): (r: Option<string>)
    ensures r.None? <==> title.NotText?
  {
    match title
    case NotText => None
    case Text(s) => Some(Slug.Slugify(Truncate(s)) + ".pdf")
  }

  /** The file name with the `slugify` guard reachable: "untitled.pdf" for
      a title that is not text. */
  function TargetName(title: Slug.CellValue): (r: string)
    ensures |r| >= 4 && r[|r| - 4..] == ".pdf" && Slug.IsSlug(r[..|r| - 4])
    ensures title.Text? ==> TargetNameAsWritten(title) == Some(r)
    ensures title.NotText? ==> r == "untitled.pdf"
  {
    var stem := match title
      case NotText => Slug.SlugifyCell(title)
      case Text(s) => Slug.SlugifyCell(Slug.Text(Truncate(s)));
    assert (stem + ".pdf")[..|stem|] == stem;
    stem + ".pdf"
  }

  /** A row whose title cell is empty but whose DOI is present stops the
      whole download loop as written; the guard meant it to be saved as
      "untitled.pdf". */
  lemma EmptyTitleRaises()
    ensures TargetNameAsWritten(Slug.NotText).None?
    ensures TargetName(Slug.NotText) == "untitled.pdf"
  {
  }

  /** How `wait_for_download` ends. It polls the `.pdf` files in the save
      directory; `arrived` are the files that appeared meanwhile. It returns
      False on timeout (`TimedOut`), or True once the newest file `latest`
      already has the expected name or has been renamed to it
      (`Renamed`). The newest file need not be a new download: it can be
      any earlier PDF. The model does not require `latest` to be listed in
      the directory; a value that is not listed reads as a file that
      arrived and was renamed, which only admits more behaviours. */
  datatype Wait = TimedOut(arrived: set<string>) | Renamed(arrived: set<string>, latest: string)

  /** The PDF names in the directory after waiting for `name`. */
  function AfterWait(saved: set<string>, name: string, w: Wait): (r: set<string>)
    ensures w.Renamed? ==> name in r && w.arrived <= r + {w.latest}
    ensures w.Renamed? ==> forall f :: f in saved && f != w.latest ==> f in r
    ensures w.Renamed? && w.latest != name ==> w.latest !in r
    ensures w.TimedOut? ==> saved <= r && w.arrived <= r
  {
    match w
    case TimedOut(arrived) => saved + arrived
    case Renamed(arrived, latest) => (saved + arrived - {latest}) + {name}
  }

  /** What the browser reports for a row it visits: the call raised, or the
      page a DOI link landed on and how the wait for a PDF ended (there is
      no wait when an IEEE landing page shows no article number). */
  datatype Visit = VisitRaised | Visited(landing: string, wait: Wait)

  /** What happens to a row. */
  datatype Action =
    | SkipNoDoi
    | SkipExisting(name: string)
    | IeeeStamp(name: string, url: string, wait: Wait)
    | IeeeUnrecognised(name: string)
    | OpenDoi(name: string, url: string, wait: Wait)
    | Errored(name: string)

  /** The row waited for a download and `wait_for_download` returned True. */
  predicate Downloaded(a: Action) {
    (a.IeeeStamp? || a.OpenDoi?) && a.wait.Renamed?
  }

  /** The row's wait renamed the earlier file `f` away. */
  predicate Removes(a: Action, f: string) {
    Downloaded(a) && a.wait.latest == f && f != a.name
  }

  /** The body of the download loop for one row, with `saved` the PDF file
      names already present. */
  function Decide(row: PaperRow, saved: set<string>, visit: Visit): (a: Action)
    ensures a.SkipNoDoi? <==> NoDoi(row.doi)
    ensures !NoDoi(row.doi) ==> a.name == TargetName(row.title)
    ensures a.SkipExisting? <==> !NoDoi(row.doi) && TargetName(row.title) in saved
    ensures a.OpenDoi? ==> !IsIeee(row.doi.s, row.venue) && visit.Visited?
                           && a.url == "https://doi.org/" + row.doi.s && a.wait == visit.wait
    ensures a.IeeeStamp? ==> IsIeee(row.doi.s, row.venue) && visit.Visited?
                             && Some(a.url) == IeeeDownloadUrl(visit.landing) && a.wait == visit.wait
    ensures a.IeeeUnrecognised? ==> IsIeee(row.doi.s, row.venue) && visit.Visited?
                                    && Arnumber(visit.landing).None?
    ensures a.Errored? <==> !NoDoi(row.doi) && TargetName(row.title) !in saved && visit.VisitRaised?
  {
    if NoDoi(row.doi) then SkipNoDoi
    else
      var name := TargetName(row.title);
      if name in saved then SkipExisting(name)
      else match visit
        case VisitRaised => Errored(name)
        case Visited(landing, wait) =>
          if IsIeee(row.doi.s, row.venue) then
            match IeeeDownloadUrl(landing)
            case None => IeeeUnrecognised(name)
            case Some(url) => IeeeStamp(name, url, wait)
          else OpenDoi(name, "https://doi.org/" + row.doi.s, wait)
  }

  /** What an action does to the PDF names on disk: only a wait changes
      them. */
  function Effect(saved: set<string>, a: Action): (r: set<string>)
    ensures Downloaded(a) ==> a.name in r
    ensures forall f :: f in saved && !Removes(a, f) ==> f in r
    ensures forall f :: Removes(a, f) ==> f !in r
  {
    if a.IeeeStamp? || a.OpenDoi? then AfterWait(saved, a.name, a.wait) else saved
  }

  /** The loop state: the actions so far, the PDF names on disk, and
      `success_count`. */
  datatype Progress = Progress(actions: seq<Action>, saved: set<string>, successes: nat)

  function CountDownloaded(actions: seq<Action>): (n: nat)
    ensures n <= |actions|
  {
    if |actions| == 0 then 0
    else CountDownloaded(actions[..|actions| - 1]) + (if Downloaded(actions[|actions| - 1]) then 1 else 0)
  }

  /** No action from position `i` on renames `f` away. */
  predicate KeptFrom(actions: seq<Action>, i: nat, f: string) {
    forall m :: i <= m < |actions| ==> !Removes(actions[m], f)
  }

  /** One turn of the loop. */
  function Step(p: Progress, row: PaperRow, visit: Visit): (q: Progress)
    ensures q.actions == p.actions + [Decide(row, p.saved, visit)]
    ensures q.saved == Effect(p.saved, Decide(row, p.saved, visit))
  {
    var a := Decide(row, p.saved, visit);
    Progress(p.actions + [a], Effect(p.saved, a), p.successes + (if Downloaded(a) then 1 else 0))
  }

  /** The download loop over the first `n` target rows. A file on disk stays
      until a later wait renames it away, and that includes a file a wait
      has just named. */
  function Loop(rows: seq<PaperRow>, existing: set<string>, visits: nat -> Visit, n: nat): (p: Progress)
    requires n <= |rows|
    ensures |p.actions| == n
    ensures p.successes == CountDownloaded(p.actions)
    ensures forall f :: f in existing && KeptFrom(p.actions, 0, f) ==> f in p.saved
    ensures forall k :: 0 <= k < n && Downloaded(p.actions[k]) && KeptFrom(p.actions, k + 1, p.actions[k].name)
              ==> p.actions[k].name in p.saved
  {
    if n == 0 then Progress([], existing, 0)
    else
      var prev := Loop(rows, existing, visits, n - 1);
      var q := Step(prev, rows[n - 1], visits(n - 1));
      assert q.actions[..n - 1] == prev.actions;
      assert forall k :: 0 <= k < n - 1 ==> q.actions[k] == prev.actions[k];
      KeptFromSnoc(prev.actions, q.actions);
      q
  }

  /** What is kept from `i` on in a longer run is kept from `i` on in its
      prefix, and by its last action. */
  lemma KeptFromSnoc(a: seq<Action>, b: seq<Action>)
    requires |b| == |a| + 1 && b[..|a|] == a
    ensures forall i: nat, f :: KeptFrom(b, i, f) && i <= |a| ==> KeptFrom(a, i, f) && !Removes(b[|a|], f)
  {
    assert forall m :: 0 <= m < |a| ==> b[m] == a[m];
  }

  /** The loop never looks back: what it did with the first `k` rows is
      what a loop over only those rows does. */
  lemma {:induction false} LoopPrefix(rows: seq<PaperRow>, existing: set<string>, visits: nat -> Visit, k: nat, n: nat)
    requires k <= n <= |rows|
    ensures Loop(rows, existing, visits, n).actions[..k] == Loop(rows, existing, visits, k).actions
    decreases n - k
  {
    var b := Loop(rows, existing, visits, n).actions;
    if k < n {
      LoopPrefix(rows, existing, visits, k, n - 1);
      var a := Loop(rows, existing, visits, n - 1).actions;
      LoopSnoc(rows, existing, visits, n);
      SnocPrefix(a, b, k);
    } else {
      assert b[..n] == b;
    }
  }

  /** Turn `n` of the loop appends the action decided for row `n - 1`. */
  lemma LoopSnoc(rows: seq<PaperRow>, existing: set<string>, visits: nat -> Visit, n: nat)
    requires 0 < n <= |rows|
    ensures var prev := Loop(rows, existing, visits, n - 1);
      Loop(rows, existing, visits, n).actions == prev.actions + [Decide(rows[n - 1], prev.saved, visits(n - 1))]
  {
  }

  lemma SnocPrefix<T>(a: seq<T>, b: seq<T>, k: nat)
    requires k <= |a| && |b| == |a| + 1 && b[..|a|] == a
    ensures b[..k] == a[..k]
  {
    assert forall i :: 0 <= i < k ==> b[i] == b[..|a|][i];
  }

  /** A row without a DOI is skipped, whatever came before it. */
  lemma LoopSkipsNoDoi(rows: seq<PaperRow>, existing: set<string>, visits: nat -> Visit, k: nat, n: nat)
    requires k < n <= |rows| && NoDoi(rows[k].doi)
    ensures Loop(rows, existing, visits, n).actions[k] == SkipNoDoi
  {
    LoopPrefix(rows, existing, visits, k + 1, n);
    var prev := Loop(rows, existing, visits, k);
    assert Loop(rows, existing, visits, k + 1).actions[k] == Decide(rows[k], prev.saved, visits(k));
    assert Loop(rows, existing, visits, n).actions[k] == Loop(rows, existing, visits, n).actions[..k + 1][k];
  }

  /** Two rows with the same target name: once the first is downloaded, the
      second is skipped as already present, unless a wait in between
      renamed that file to another name. */
  lemma SecondCopySkipped(rows: seq<PaperRow>, existing: set<string>, visits: nat -> Visit, j: nat, k: nat)
    requires j < k < |rows|
    requires Downloaded(Loop(rows, existing, visits, k).actions[j])
    requires !NoDoi(rows[k].doi)
    requires TargetName(rows[k].title) == Loop(rows, existing, visits, k).actions[j].name
    requires KeptFrom(Loop(rows, existing, visits, k).actions, j + 1, TargetName(rows[k].title))
    ensures Loop(rows, existing, visits, k + 1).actions[k] == SkipExisting(TargetName(rows[k].title))
  {
  }

  /** A wait that finds no new file renames the newest earlier PDF to the
      row's name and counts a success: the earlier file is gone. */
  lemma StaleFileRenamed(rows: seq<PaperRow>, existing: set<string>, visits: nat -> Visit, n: nat, stale: string, landing: string)
    requires n < |rows| && !NoDoi(rows[n].doi) && !IsIeee(rows[n].doi.s, rows[n].venue)
    requires stale in Loop(rows, existing, visits, n).saved && stale != TargetName(rows[n].title)
    requires TargetName(rows[n].title) !in Loop(rows, existing, visits, n).saved
    requires visits(n) == Visited(landing, Renamed({}, stale))
    ensures Loop(rows, existing, visits, n + 1).successes == Loop(rows, existing, visits, n).successes + 1
    ensures stale !in Loop(rows, existing, visits, n + 1).saved
    ensures TargetName(rows[n].title) in Loop(rows, existing, visits, n + 1).saved
  {
  }

  /** `main` after the sheet is read: the target rows, then the loop. */
  function FetchAll(rows: seq<PaperRow>, hasScoreColumn: bool, existing: set<string>, visits: nat -> Visit): (p: Progress)
    ensures |p.actions| == |Targets(rows, hasScoreColumn)|
    ensures p.successes <= |p.actions|
    ensures forall f :: f in existing && KeptFrom(p.actions, 0, f) ==> f in p.saved
  {
    var t := Targets(rows, hasScoreColumn);
    Loop(t, existing, visits, |t|)
  }

  // -----------------------------------------------------------------------
  // The loop as written: a title that is not text stops it
  // -----------------------------------------------------------------------

  /** The row gets past the DOI check and then raises on `title[:80]`,
      outside the `try`. */
  predicate RaisesOnTitle(row: PaperRow) {
    !NoDoi(row.doi) && TargetNameAsWritten(row.title).None?
  }

  /** No row among the first `n` raises on its title. */
  predicate NoneRaiseOnTitle(rows: seq<PaperRow>, n: nat) {
    forall i :: 0 <= i < n && i < |rows| ==> !RaisesOnTitle(rows[i])
  }

  /** How `main`'s loop ends as written: it finishes, or it stops at row
      `at` with the progress made before it. */
  datatype LoopEnd = Completed(progress: Progress) | Stopped(progress: Progress, at: nat)

  /** The download loop over the first `n` rows as written. Until a row
      raises it does what `Loop` does, since a text title gives the same
      name both ways. */
  function LoopAsWritten(rows: seq<PaperRow>, existing: set<string>, visits: nat -> Visit, n: nat): (r: LoopEnd)
    requires n <= |rows|
    ensures r.Completed? <==> NoneRaiseOnTitle(rows, n)
    ensures r.Stopped? ==> r.at < n && RaisesOnTitle(rows[r.at]) && NoneRaiseOnTitle(rows, r.at)
    ensures r.Completed? ==> r.progress == Loop(rows, existing, visits, n)
    ensures r.Stopped? ==> r.progress == Loop(rows, existing, visits, r.at)
  {
    if n == 0 then Completed(Progress([], existing, 0))
    else match LoopAsWritten(rows, existing, visits, n - 1)
      case Stopped(p, at) => Stopped(p, at)
      case Completed(p) =>
        if RaisesOnTitle(rows[n - 1]) then Stopped(p, n - 1)
        else Completed(Step(p, rows[n - 1], visits(n - 1)))
  }

  /** `main` as written after the sheet is read. */
  function FetchAllAsWritten(rows: seq<PaperRow>, hasScoreColumn: bool, existing: set<string>, visits: nat -> Visit): (r: LoopEnd)
    ensures r.Completed? <==> NoneRaiseOnTitle(Targets(rows, hasScoreColumn), |Targets(rows, hasScoreColumn)|)
    ensures r.Completed? ==> r == Completed(FetchAll(rows, hasScoreColumn, existing, visits))
    ensures r.Stopped? ==> r.at < |Targets(rows, hasScoreColumn)| && RaisesOnTitle(Targets(rows, hasScoreColumn)[r.at])
  {
    var t := Targets(rows, hasScoreColumn);
    LoopAsWritten(t, existing, visits, |t|)
  }
}

=== FILE: retry.dfy ===
/** `_call_ai` (paper_pipeline.py line 239-260) as a state machine folded
    over the outcomes of its attempts. Only a failure whose message mentions
    "429" or, in lower case, "rate limit" is retried; the wait before retry
    k (k = 1, 2) is 5 * k; any other failure, or a third rate-limit, gives
    no result. Sleeping is modelled as the list of waits, and the service
    and `json.loads` are parameters. */
module Retry {
  import opened Common
  import Fences

  /** `max_retries`, hard-coded in the source */
  const MaxRetries: nat := 3
  /** the base of the linear backoff, hard-coded in the source */
  const BaseDelay: nat := 5

  /** What one `client.chat.completions.create` call yields: the reply's
      text, or the message of the exception it raised. */
  datatype Attempt = Replied(content: string) | Raised(message: string)

  /** One call as `_call_ai` saw it: the parsed reply, or the message of the
      exception raised while producing it (by the client or by the parser
      on the cleaned text). */
  function AttemptResult<V>(a: Attempt, parse: string -> Result<V, string>): Result<V, string> {
    match a
    case Replied(content) => parse(Fences.CleanReply(content))
    case Raised(message) => Err(message)
  }

  /** `"429" in str(exc) or "rate limit" in str(exc).lower()` */
  predicate IsRateLimited(message: string) {
    Contains(message, "429") || Contains(Lower(message), "rate limit")
  }

  /** The attempt failed in a way `_call_ai` retries (when attempts remain). */
  predicate Retryable<V>(a: Attempt, parse: string -> Result<V, string>) {
    var r := AttemptResult(a, parse);
    r.Err? && IsRateLimited(r.error)
  }

  /** A whole call: the parsed value (None when `_call_ai` returns None),
      the number of attempts made, and the waits slept between them. */
  datatype CallTrace<V> = CallTrace(result: Option<V>, attempts: nat, waits: seq<nat>)

  /** The loop from attempt `k` on; `outcomes[i]` is what attempt `i` would
      yield, and only the attempts actually made are consulted. The result
      is the parsed value and the number of attempts made. */
  function CallFrom<V>(k: nat, outcomes: seq<Attempt>, parse: string -> Result<V, string>): (t: (Option<V>, nat))
    requires |outcomes| == MaxRetries && k < MaxRetries
    ensures k < t.1 <= MaxRetries
    ensures forall i :: k <= i < t.1 - 1 ==> Retryable(outcomes[i], parse)
    ensures var last := AttemptResult(outcomes[t.1 - 1], parse);
            && (last.Ok? ==> t.0 == Some(last.value))
            && (last.Err? ==> t.0.None? && (t.1 == MaxRetries || !IsRateLimited(last.error)))
    decreases MaxRetries - k
  {
    var r := AttemptResult(outcomes[k], parse);
    if r.Ok? then (Some(r.value), k + 1)
    else if IsRateLimited(r.error) && k < MaxRetries - 1 then CallFrom(k + 1, outcomes, parse)
    else (None, k + 1)
  }

  /** The sleeps before retries 1 .. n - 1: `base_delay * (attempt + 1)`
      after the failed attempt numbered `attempt`; with three attempts at
      most, that is 5 and then 10. */
  function Waits(n: nat): (ws: seq<nat>)
    requires 1 <= n <= MaxRetries
    ensures ws == [5, 10][..n - 1]
  {
    var ws := seq(n - 1, i requires 0 <= i < n - 1 => BaseDelay * (i + 1));
    if n == 1 then
      ws
    else if n == 2 then
      assert ws[0] == 5;
      ws
    else
      assert ws[0] == 5 && ws[1] == 10;
      ws
  }

  /** `_call_ai(client, ai_cfg, prompt)` given the outcomes of its (at most
      three) attempts. */
  function CallAi<V>(outcomes: seq<Attempt>, parse: string -> Result<V, string>): (t: CallTrace<V>)
    requires |outcomes| == MaxRetries
    ensures 1 <= t.attempts <= MaxRetries
    ensures t.waits == [5, 10][..t.attempts - 1]
  {
    var (result, attempts) := CallFrom(0, outcomes, parse);
    CallTrace(result, attempts, Waits(attempts))
  }

  /** The call yields a value exactly when some attempt succeeds after
      nothing but retryable failures; the value is that attempt's. */
  lemma CallAiSucceedsIff<V>(outcomes: seq<Attempt>, parse: string -> Result<V, string>)
    requires |outcomes| == MaxRetries
    ensures CallAi(outcomes, parse).result.Some? <==>
      exists k :: 0 <= k < MaxRetries && AttemptResult(outcomes[k], parse).Ok?
        && forall i :: 0 <= i < k ==> Retryable(outcomes[i], parse)
    ensures forall k ::
      (0 <= k < MaxRetries && AttemptResult(outcomes[k], parse).Ok?
        && (forall i :: 0 <= i < k ==> Retryable(outcomes[i], parse))) ==>
      CallAi(outcomes, parse).result == Some(AttemptResult(outcomes[k], parse).value)
  {
    var t := CallAi(outcomes, parse);
    var n := t.attempts;
    forall k | 0 <= k < MaxRetries && AttemptResult(outcomes[k], parse).Ok?
        && (forall i :: 0 <= i < k ==> Retryable(outcomes[i], parse))
      ensures t.result == Some(AttemptResult(outcomes[k], parse).value)
    {
      // attempt k succeeded, so the loop cannot have gone past it, and every
      // attempt before the last one failed, so it cannot have stopped early
      assert k == n - 1;
    }
    if t.result.Some? {
      assert AttemptResult(outcomes[n - 1], parse).Ok?;
    }
  }

  /** A failure that is not a rate-limit ends the call at once, with no
      wait and no result. */
  lemma TerminalFailureStops<V>(outcomes: seq<Attempt>, parse: string -> Result<V, string>)
    requires |outcomes| == MaxRetries
    requires AttemptResult(outcomes[0], parse).Err? && !Retryable(outcomes[0], parse)
    ensures CallAi(outcomes, parse) == CallTrace(None, 1, [])
  {
  }

  /** Rate-limited twice, then answered: waits 5 and then 10, and the third
      reply is the result, not a default. */
  lemma BackoffSchedule<V>(outcomes: seq<Attempt>, parse: string -> Result<V, string>)
    requires |outcomes| == MaxRetries
    requires Retryable(outcomes[0], parse) && Retryable(outcomes[1], parse)
    requires AttemptResult(outcomes[2], parse).Ok?
    ensures CallAi(outcomes, parse)
      == CallTrace(Some(AttemptResult(outcomes[2], parse).value), 3, [5, 10])
  {
  }

  /** Three rate-limits in a row exhaust the retries: no result after
      waiting 5 and 10. */
  lemma RateLimitExhaustion<V>(outcomes: seq<Attempt>, parse: string -> Result<V, string>)
    requires |outcomes| == MaxRetries
    requires forall i :: 0 <= i < MaxRetries ==> Retryable(outcomes[i], parse)
    ensures CallAi(outcomes, parse) == CallTrace(None, 3, [5, 10])
  {
  }
}

=== FILE: scoring.dfy ===
/** `run_ai_scoring` (paper_pipeline.py line 308-369): the resumable,
    concurrent batch scorer. Rows whose `RowId` already has a result (from
    an earlier output file or from the checkpoint) are skipped; the rest are
    cut into batches, each batch becomes one prompt and one `_call_ai`, and
    every batch's reply is written into the results map, which is saved
    after each batch. The final table carries each row's score and reason
    and is ordered by descending score.

    The thread pool is modelled by its observable effect: `order` is the
    order in which `as_completed` yields the batches (any permutation), and
    `reply(c)` is what `_call_ai` returned for batch `c` (the `result` of
    `Retry.CallAi` on that batch's attempts). */
module Scoring {
  import opened Common
  import Batching
  import Sorting
  import Checkpoint
  import opened Annotation

  /** The columns of a row the scorer reads. */
  datatype Row = Row(rowId: int, title: string, link: Link)

  /** `{"score": ..., "reason": ...}` */
  datatype ScoreResult = ScoreResult(score: int, reason: string)

  /** `results_map`, keyed by `RowId` */
  type Results = map<int, ScoreResult>

  const PromptHeader := "请分析以下文献摘要，并返回 JSON 数组：\n\n"
  /** the reason of an element that has none */
  const NoReason := "无理由"
  /** the result of a row the reply did not cover */
  const ShortReply := "AI返回不足或失败"
  /** the reason of a row that never got a result */
  const Unresolved := "处理遗漏"

  // ---------------------------------------------------------------------
  // The API key
  // ---------------------------------------------------------------------

  /** `cfg.api_key or os.getenv(cfg.api_key_env)`; None is the case in
      which `_load_ai_client` raises. */
  function ApiKey(configured: Option<string>, env: Option<string>): (k: Option<string>)
    ensures k.Some? <==> (configured.Some? && configured.value != "") || (env.Some? && env.value != "")
    ensures k.Some? ==> k.value != ""
    ensures configured.Some? && configured.value != "" ==> k == configured
  {
    if configured.Some? && configured.value != "" then configured
    else if env.Some? && env.value != "" then env
    else None
  }

  // ---------------------------------------------------------------------
  // Results known before the run
  // ---------------------------------------------------------------------

  /** A row of an earlier output sheet: its `RowId`, its `AI_Score` (None
      when the cell is empty) and its `AI_Reason`. */
  datatype OutputRow = OutputRow(rowId: int, score: Option<int>, reason: string)

  /** The earlier output file: absent, unreadable, or a sheet that may lack
      the score columns or the `RowId` column. */
  datatype OutputFile =
    | NoOutput
    | BrokenOutput
    | OutputSheet(hasScores: bool, hasRowIds: bool, rows: seq<OutputRow>)

  /** The key a sheet row is filed under: its `RowId`, or its position when
      the sheet has no such column. */
  function SheetKey(rows: seq<OutputRow>, i: nat, hasRowIds: bool): int
    requires i < |rows|
  {
    if hasRowIds then rows[i].rowId else i
  }

  /** The loop of `_load_existing_results_from_output`: every row with a
      score is filed under its key, later rows overwriting earlier ones. */
  function SheetResults(rows: seq<OutputRow>, hasRowIds: bool): (m: Results)
    ensures forall id :: id in m <==>
      exists i :: 0 <= i < |rows| && rows[i].score.Some? && SheetKey(rows, i, hasRowIds) == id
    ensures forall i ::
      (0 <= i < |rows| && rows[i].score.Some?
       && (forall j :: i < j < |rows| && rows[j].score.Some? ==> SheetKey(rows, j, hasRowIds) != SheetKey(rows, i, hasRowIds)))
      ==> m[SheetKey(rows, i, hasRowIds)] == ScoreResult(rows[i].score.value, rows[i].reason)
    decreases |rows|
  {
    if |rows| == 0 then map[]
    else
      var n := |rows| - 1;
      var m := SheetResults(rows[..n], hasRowIds);
      assert forall i :: 0 <= i < n ==> SheetKey(rows[..n], i, hasRowIds) == SheetKey(rows, i, hasRowIds);
      if rows[n].score.Some? then m[SheetKey(rows, n, hasRowIds) := ScoreResult(rows[n].score.value, rows[n].reason)]
      else m
  }

  /** `_load_existing_results_from_output` */
  function ExistingResults(f: OutputFile): (m: Results)
    ensures !(f.OutputSheet? && f.hasScores) ==> m == map[]
    ensures f.OutputSheet? && f.hasScores ==> forall id :: id in m <==>
      exists i :: 0 <= i < |f.rows| && f.rows[i].score.Some? && SheetKey(f.rows, i, f.hasRowIds) == id
  {
    match f
    case OutputSheet(hasScores, hasRowIds, rows) =>
      if hasScores then SheetResults(rows, hasRowIds) else map[]
    case _ => map[]
  }

  /** `results_map.update(existing); results_map.update(checkpoint)`: the
      checkpoint wins where both know a row. */
  function Known(f: OutputFile, ckpt: Option<Checkpoint.Entries<ScoreResult>>): (m: Results)
    ensures m.Keys == ExistingResults(f).Keys + Checkpoint.Load(ckpt).Keys
    ensures forall id :: id in Checkpoint.Load(ckpt) ==> m[id] == Checkpoint.Load(ckpt)[id]
    ensures forall id :: id in ExistingResults(f) && id !in Checkpoint.Load(ckpt) ==> m[id] == ExistingResults(f)[id]
  {
    map[] + ExistingResults(f) + Checkpoint.Load(ckpt)
  }

  // ---------------------------------------------------------------------
  // Pending rows and batches
  // ---------------------------------------------------------------------

  /** `df[df["RowId"].map(lambda x: x not in results_map)]`: the rows
      without a result, in table order. */
  function Pending(rows: seq<Row>, known: Results): (p: seq<Row>)
    ensures |p| <= |rows|
    ensures forall r :: r in p <==> r in rows && r.rowId !in known
    decreases |rows|
  {
    if |rows| == 0 then []
    else (if rows[0].rowId in known then [] else [rows[0]]) + Pending(rows[1..], known)
  }

  /** The filter distributes over concatenation, so the pending rows keep
      the table's order. */
  lemma {:induction false} PendingAppend(a: seq<Row>, b: seq<Row>, known: Results)
    ensures Pending(a + b, known) == Pending(a, known) + Pending(b, known)
    decreases |a|
  {
    if |a| == 0 {
      assert a + b == b;
    } else {
      assert (a + b)[0] == a[0];
      assert (a + b)[1..] == a[1..] + b;
      PendingAppend(a[1..], b, known);
    }
  }

  /** Appending a row to the table appends it to the pending rows exactly
      when its id has no result. */
  lemma PendingSnoc(rows: seq<Row>, r: Row, known: Results)
    ensures Pending(rows + [r], known) == Pending(rows, known) + (if r.rowId in known then [] else [r])
  {
    PendingAppend(rows, [r], known);
    assert Pending([r], known) == (if r.rowId in known then [] else [r]) + Pending([], known);
  }

  /** No two rows share a `RowId`. */
  predicate DistinctIds(rows: seq<Row>) {
    forall i, j :: 0 <= i < j < |rows| ==> rows[i].rowId != rows[j].rowId
  }

  /** Filtering keeps `RowId`s distinct. */
  lemma {:induction false} PendingKeepsDistinct(rows: seq<Row>, known: Results)
    requires DistinctIds(rows)
    ensures DistinctIds(Pending(rows, known))
    decreases |rows|
  {
    if |rows| > 0 {
      PendingKeepsDistinct(rows[1..], known);
      var rest := Pending(rows[1..], known);
      forall r | r in rest
        ensures r.rowId != rows[0].rowId
      {
        var k :| 0 <= k < |rows[1..]| && rows[1..][k] == r;
        assert rows[k + 1] == r;
      }
    }
  }

  /** Only the key set matters for which rows are pending. */
  lemma {:induction false} PendingDependsOnKeys(rows: seq<Row>, k1: Results, k2: Results)
    requires k1.Keys == k2.Keys
    ensures Pending(rows, k1) == Pending(rows, k2)
    decreases |rows|
  {
    if |rows| > 0 {
      PendingDependsOnKeys(rows[1..], k1, k2);
    }
  }

  /** `[int(chunk.iloc[j]["RowId"]) for j in range(len(indices))]` */
  function IdsOf(batch: seq<Row>): (ids: seq<int>)
    ensures |ids| == |batch|
  {
    seq(|batch|, j requires 0 <= j < |batch| => batch[j].rowId)
  }

  /** The prompt items of a batch: each row's title and resolved abstract. */
  function ItemsOf(dir: AbstractDir, batch: seq<Row>): (items: seq<Item>)
    ensures |items| == |batch|
  {
    seq(|batch|, j requires 0 <= j < |batch| => Item(batch[j].title, ReadAbstract(dir, batch[j].link)))
  }

  // ---------------------------------------------------------------------
  // Recording replies
  // ---------------------------------------------------------------------

  /** The result the loop writes for position `j` of a batch: the reply's
      `j`-th element when the reply is a non-empty array long enough, with
      defaults for missing members; otherwise the failure result. */
  function ResultAt(reply: Option<Parsed>, j: nat): ScoreResult {
    match reply
    case Some(ParsedList(es)) =>
      if j < |es| then ScoreResult(es[j].score.GetOr(0), es[j].reason.GetOr(NoReason))
      else ScoreResult(0, ShortReply)
    case _ => ScoreResult(0, ShortReply)
  }

  /** The loop `for j, row_id in enumerate(indices)` from position `j` on. */
  function RecordFrom(m: Results, ids: seq<int>, reply: Option<Parsed>, j: nat): (r: Results)
    requires j <= |ids|
    ensures forall id :: id in r <==> id in m || id in ids[j..]
    ensures forall id :: id in m && id !in ids[j..] ==> r[id] == m[id]
    ensures forall k :: j <= k < |ids| ==> ids[k] in r
    ensures forall k :: j <= k < |ids| && ids[k] !in ids[k + 1..] ==> r[ids[k]] == ResultAt(reply, k)
    decreases |ids| - j
  {
    if j == |ids| then m
    else
      var r := RecordFrom(m[ids[j] := ResultAt(reply, j)], ids, reply, j + 1);
      assert ids[j..] == [ids[j]] + ids[j + 1..];
      r
  }

  /** One batch's reply written into the results map: every id of the batch
      gets a result, the last of its positions deciding which, and no other
      entry changes. */
  function Record(m: Results, ids: seq<int>, reply: Option<Parsed>): (r: Results)
    ensures forall id :: id in r <==> id in m || id in ids
    ensures forall id :: id in m && id !in ids ==> r[id] == m[id]
    ensures forall k :: 0 <= k < |ids| ==> ids[k] in r
    ensures forall k :: 0 <= k < |ids| && ids[k] !in ids[k + 1..] ==> r[ids[k]] == ResultAt(reply, k)
  {
    assert ids[0..] == ids;
    RecordFrom(m, ids, reply, 0)
  }

  /** Every entry of `done` names a batch. */
  predicate ValidDone(batchIds: seq<seq<int>>, done: seq<nat>) {
    forall u :: 0 <= u < |done| ==> done[u] < |batchIds|
  }

  /** `id` belongs to some batch that has completed. */
  predicate InDone(id: int, batchIds: seq<seq<int>>, done: seq<nat>)
    requires ValidDone(batchIds, done)
  {
    exists u :: 0 <= u < |done| && id in batchIds[done[u]]
  }

  lemma InDoneSnoc(id: int, batchIds: seq<seq<int>>, done: seq<nat>)
    requires |done| > 0 && ValidDone(batchIds, done)
    ensures InDone(id, batchIds, done) <==>
      InDone(id, batchIds, done[..|done| - 1]) || id in batchIds[done[|done| - 1]]
  {
    var n := |done| - 1;
    if InDone(id, batchIds, done) {
      var u :| 0 <= u < |done| && id in batchIds[done[u]];
      if u < n {
        assert done[..n][u] == done[u];
      }
    }
    if InDone(id, batchIds, done[..n]) {
      var u :| 0 <= u < n && id in batchIds[done[..n][u]];
      assert done[u] == done[..n][u];
    }
  }

  /** The results map after the batches in `done` completed, in that order:
      it knows exactly the earlier rows and the completed batches' rows, and
      rows outside those batches keep their earlier result. */
  function After(m: Results, batchIds: seq<seq<int>>, done: seq<nat>, reply: nat -> Option<Parsed>): (r: Results)
    requires ValidDone(batchIds, done)
    ensures forall id :: id in r <==> id in m || InDone(id, batchIds, done)
    ensures forall id :: id in m && !InDone(id, batchIds, done) ==> r[id] == m[id]
    decreases |done|
  {
    if |done| == 0 then m
    else
      var n := |done| - 1;
      var r := Record(After(m, batchIds, done[..n], reply), batchIds[done[n]], reply(done[n]));
      forall id
        ensures InDone(id, batchIds, done) <==> InDone(id, batchIds, done[..n]) || id in batchIds[done[n]]
      {
        InDoneSnoc(id, batchIds, done);
      }
      r
  }

  /** No id occurs twice, within a batch or across batches. */
  predicate UniqueIds(batchIds: seq<seq<int>>) {
    forall c1, j1, c2, j2 ::
      (0 <= c1 < |batchIds| && 0 <= j1 < |batchIds[c1]| && 0 <= c2 < |batchIds| && 0 <= j2 < |batchIds[c2]|
       && batchIds[c1][j1] == batchIds[c2][j2]) ==> c1 == c2 && j1 == j2
  }

  /** Whatever the completion order, a row's result is the one its own
      batch's reply gives at its position. */
  lemma {:induction false} AfterTakesOwnReply(m: Results, batchIds: seq<seq<int>>, done: seq<nat>, reply: nat -> Option<Parsed>)
    requires ValidDone(batchIds, done) && UniqueIds(batchIds)
    ensures forall u, j :: 0 <= u < |done| && 0 <= j < |batchIds[done[u]]| ==>
      batchIds[done[u]][j] in After(m, batchIds, done, reply)
    ensures forall u, j :: 0 <= u < |done| && 0 <= j < |batchIds[done[u]]| ==>
      After(m, batchIds, done, reply)[batchIds[done[u]][j]] == ResultAt(reply(done[u]), j)
    decreases |done|
  {
    if |done| > 0 {
      var n := |done| - 1;
      var c := done[n];
      var ids := batchIds[c];
      var prev := After(m, batchIds, done[..n], reply);
      AfterTakesOwnReply(m, batchIds, done[..n], reply);
      forall u, j | 0 <= u < |done| && 0 <= j < |batchIds[done[u]]|
        ensures After(m, batchIds, done, reply)[batchIds[done[u]][j]] == ResultAt(reply(done[u]), j)
      {
        if done[u] != c {
          assert u < n && done[..n][u] == done[u];
        }
      }
    }
  }

  // ---------------------------------------------------------------------
  // The run
  // ---------------------------------------------------------------------

  /** A row of the output table. */
  datatype ScoredRow = ScoredRow(row: Row, score: int, reason: string)

  function ScoreOf(r: ScoredRow): int {
    r.score
  }

  /** `results_map.get(x, {})` with the defaults of the two `.map` calls. */
  function Lookup(m: Results, id: int): ScoreResult {
    if id in m then m[id] else ScoreResult(0, Unresolved)
  }

  /** The `AI_Score` and `AI_Reason` columns, in table order. */
  function Fill(rows: seq<Row>, m: Results): (t: seq<ScoredRow>)
    ensures |t| == |rows|
  {
    seq(|rows|, i requires 0 <= i < |rows| =>
      ScoredRow(rows[i], Lookup(m, rows[i].rowId).score, Lookup(m, rows[i].rowId).reason))
  }

  /** The table sorted by `AI_Score`, descending. */
  function Table(rows: seq<Row>, m: Results): (t: seq<ScoredRow>)
    ensures |t| == |rows|
    ensures Sorting.NonIncreasing(t, ScoreOf)
    ensures multiset(t) == multiset(Fill(rows, m))
  {
    var t := Sorting.SortDescending(Fill(rows, m), ScoreOf);
    assert |t| == |multiset(t)| == |multiset(Fill(rows, m))| == |rows|;
    t
  }

  /** What a run did: the batches submitted (one `_call_ai` each), their
      prompts, the checkpoint saved after each completion, the final
      results map and the table written out. */
  datatype Run = Run(batches: seq<seq<Row>>, prompts: seq<string>, saves: seq<Results>,
                     results: Results, table: seq<ScoredRow>)

  /** `_load_ai_client` raises for a missing key; `range(0, n, 0)` raises
      for a zero batch size; `ThreadPoolExecutor` raises for a worker count
      that is not positive. */
  datatype RunError = MissingApiKey | ZeroBatchSize | NoWorkers

  /** The checkpoint file as `_load_checkpoint` finds it: None when it is
      absent or does not hold a JSON object. */
  type CheckpointFile = Option<Checkpoint.Entries<ScoreResult>>

  /** The batches the run cuts (none when nothing is pending or the batch
      size is not positive). */
  function BatchesFor(rows: seq<Row>, f: OutputFile, ckpt: CheckpointFile, batchSize: int): (bs: seq<seq<Row>>)
    ensures batchSize <= 0 ==> bs == []
    ensures forall c :: 0 <= c < |bs| ==> 0 < |bs[c]| <= batchSize
    ensures batchSize > 0 ==> Batching.Flatten(bs) == Pending(rows, Known(f, ckpt))
  {
    var pending := Pending(rows, Known(f, ckpt));
    if batchSize <= 0 then []
    else
      Batching.ChunksPartition(pending, batchSize);
      Batching.Chunks(pending, batchSize)
  }

  /** `order` lists each of the `n` batches exactly once. */
  predicate IsCompletionOrder(order: seq<nat>, n: nat) {
    |order| == n
    && (forall t :: 0 <= t < |order| ==> order[t] < n)
    && (forall c :: 0 <= c < n ==> c in order)
  }

  /** The ids of each batch, as submitted. */
  function BatchIds(batches: seq<seq<Row>>): (ids: seq<seq<int>>)
    ensures |ids| == |batches|
  {
    seq(|batches|, c requires 0 <= c < |batches| => IdsOf(batches[c]))
  }

  /** One prompt per batch, in submission order. */
  function Prompts(dir: AbstractDir, batches: seq<seq<Row>>): (ps: seq<string>)
    ensures |ps| == |batches|
  {
    seq(|batches|, c requires 0 <= c < |batches| => PromptText(PromptHeader, ItemsOf(dir, batches[c])))
  }

  /** Batch `c`'s prompt is the header, then `[文献 j+1]` with the title and
      resolved abstract of the batch's `j`-th row, in row order. */
  lemma PromptsListBatches(dir: AbstractDir, batches: seq<seq<Row>>)
    ensures forall c :: 0 <= c < |batches| ==>
              Prompts(dir, batches)[c] == PromptHeader + Batching.Flatten(Entries(ItemsOf(dir, batches[c])))
    ensures forall c, j :: 0 <= c < |batches| && 0 <= j < |batches[c]| ==>
              Entries(ItemsOf(dir, batches[c]))[j]
              == Entry(j + 1, Item(batches[c][j].title, ReadAbstract(dir, batches[c][j].link)))
  {
    forall c | 0 <= c < |batches| {
      PromptListsItemsInOrder(PromptHeader, ItemsOf(dir, batches[c]));
    }
  }

  /** The checkpoint written after each completion: save `t` is the results
      map once the first `t + 1` batches of `order` are in. */
  function Saves(known: Results, ids: seq<seq<int>>, order: seq<nat>, reply: nat -> Option<Parsed>): (saves: seq<Results>)
    requires ValidDone(ids, order)
    ensures |saves| == |order|
    ensures forall t :: 0 <= t < |order| ==> saves[t] == SaveAt(known, ids, order, t, reply)
  {
    seq(|order|, t requires 0 <= t < |order| => SaveAt(known, ids, order, t, reply))
  }

  /** The results once the first `t + 1` completions are in. */
  function SaveAt(known: Results, ids: seq<seq<int>>, order: seq<nat>, t: nat, reply: nat -> Option<Parsed>): (r: Results)
    requires ValidDone(ids, order) && t < |order|
    ensures ValidDone(ids, order[..t + 1])
    ensures r == After(known, ids, order[..t + 1], reply)
  {
    assert forall u :: 0 <= u < t + 1 ==> order[..t + 1][u] == order[u];
    After(known, ids, order[..t + 1], reply)
  }

  /** `run_ai_scoring(df, abstract_dir, ai_cfg, output_path)`. */
  function RunAiScoring(rows: seq<Row>, dir: AbstractDir, f: OutputFile, ckpt: CheckpointFile,
                        key: Option<string>, batchSize: int, workers: int,
                        order: seq<nat>, reply: nat -> Option<Parsed>): (r: Result<Run, RunError>)
    requires IsCompletionOrder(order, |BatchesFor(rows, f, ckpt, batchSize)|)
    ensures r.Err? <==> key.None? || ((batchSize == 0 || workers <= 0) && |Pending(rows, Known(f, ckpt))| > 0)
    ensures r.Err? ==> (r.error == MissingApiKey <==> key.None?)
    ensures r.Err? ==> (r.error == ZeroBatchSize <==> key.Some? && batchSize == 0)
    ensures r.Ok? ==>
      && |r.value.table| == |rows|
      && Sorting.NonIncreasing(r.value.table, ScoreOf)
      && multiset(r.value.table) == multiset(Fill(rows, r.value.results))
    ensures r.Ok? ==> |r.value.prompts| == |r.value.batches| == |r.value.saves|
    ensures r.Ok? ==> (|r.value.batches| == 0 <==> |Pending(rows, Known(f, ckpt))| == 0 || batchSize < 0)
    ensures r.Ok? && batchSize > 0 ==> Batching.Flatten(r.value.batches) == Pending(rows, Known(f, ckpt))
  {
    if key.None? then Err(MissingApiKey)
    else
      var known := Known(f, ckpt);
      var pending := Pending(rows, known);
      if |pending| == 0 then Ok(Run([], [], [], known, Table(rows, known)))
      else if batchSize == 0 then Err(ZeroBatchSize)
      else if workers <= 0 then Err(NoWorkers)
      else
        var batches := BatchesFor(rows, f, ckpt, batchSize);
        var ids := BatchIds(batches);
        var results := After(known, ids, order, reply);
        assert batchSize > 0 ==> |Batching.Flatten(batches)| == |pending| > 0;
        Ok(Run(batches, Prompts(dir, batches), Saves(known, ids, order, reply), results, Table(rows, results)))
  }
}

=== FILE: scoring_properties.dfy ===
/** What a run of the batch scorer promises: every row ends up with a result,
    results known before the run are kept, each batch's reply lands on its
    own rows whatever order the batches complete in, the checkpoint only
    grows, and a rerun resumes exactly where the saved checkpoint left off. */
module ScoringProperties {
  import opened Common
  import Batching
  import Checkpoint
  import opened Annotation
  import opened Scoring

  /** The rows that are scored in a run: those whose `RowId` was unknown. */
  function PendingOf(rows: seq<Row>, f: OutputFile, ckpt: CheckpointFile): seq<Row> {
    Pending(rows, Known(f, ckpt))
  }

  /** A row id carried by some batch was pending, hence unknown before. */
  lemma BatchIdsWerePending(rows: seq<Row>, f: OutputFile, ckpt: CheckpointFile, batchSize: int, c: nat, id: int)
    requires c < |BatchesFor(rows, f, ckpt, batchSize)|
    requires id in IdsOf(BatchesFor(rows, f, ckpt, batchSize)[c])
    ensures id !in Known(f, ckpt)
  {
    var batches := BatchesFor(rows, f, ckpt, batchSize);
    var k :| 0 <= k < |batches[c]| && IdsOf(batches[c])[k] == id;
    Batching.FlattenContains(batches, c, batches[c][k]);
  }

  /** The uniform shape of a successful run: its batches, results, saves
      and table are those of `After` over the completion order (an empty
      one when nothing was pending). */
  lemma RunShape(rows: seq<Row>, dir: AbstractDir, f: OutputFile, ckpt: CheckpointFile,
                 key: Option<string>, batchSize: int, workers: int, order: seq<nat>, reply: nat -> Option<Parsed>)
    requires IsCompletionOrder(order, |BatchesFor(rows, f, ckpt, batchSize)|)
    requires RunAiScoring(rows, dir, f, ckpt, key, batchSize, workers, order, reply).Ok?
    ensures var run := RunAiScoring(rows, dir, f, ckpt, key, batchSize, workers, order, reply).value;
      var ids := BatchIds(BatchesFor(rows, f, ckpt, batchSize));
      && ValidDone(ids, order)
      && run.batches == BatchesFor(rows, f, ckpt, batchSize)
      && run.results == After(Known(f, ckpt), ids, order, reply)
      && run.saves == Saves(Known(f, ckpt), ids, order, reply)
      && run.table == Table(rows, run.results)
  {
    var known := Known(f, ckpt);
    if |Pending(rows, known)| == 0 {
      var batches := BatchesFor(rows, f, ckpt, batchSize);
      assert batchSize > 0 ==> batches == Batching.Chunks([], batchSize);
      assert batches == [] && order == [];
      assert After(known, BatchIds(batches), order, reply) == known;
    }
  }

  /** The last checkpoint a run writes holds its final results. */
  lemma FinalSaveIsResults(rows: seq<Row>, dir: AbstractDir, f: OutputFile, ckpt: CheckpointFile,
                           key: Option<string>, batchSize: int, workers: int, order: seq<nat>, reply: nat -> Option<Parsed>)
    requires IsCompletionOrder(order, |BatchesFor(rows, f, ckpt, batchSize)|)
    requires RunAiScoring(rows, dir, f, ckpt, key, batchSize, workers, order, reply).Ok?
    ensures var run := RunAiScoring(rows, dir, f, ckpt, key, batchSize, workers, order, reply).value;
      |run.batches| > 0 ==> |run.saves| == |run.batches| && run.saves[|run.saves| - 1] == run.results
  {
    RunShape(rows, dir, f, ckpt, key, batchSize, workers, order, reply);
    assert order[..|order|] == order;
  }

  /** Each batch sends one prompt: the header, then `[文献 j+1]` with the
      title and resolved abstract of the batch's `j`-th row, in row order. */
  lemma RunPrompts(rows: seq<Row>, dir: AbstractDir, f: OutputFile, ckpt: CheckpointFile,
                   key: Option<string>, batchSize: int, workers: int, order: seq<nat>, reply: nat -> Option<Parsed>)
    requires IsCompletionOrder(order, |BatchesFor(rows, f, ckpt, batchSize)|)
    requires RunAiScoring(rows, dir, f, ckpt, key, batchSize, workers, order, reply).Ok?
    ensures var run := RunAiScoring(rows, dir, f, ckpt, key, batchSize, workers, order, reply).value;
      run.prompts == Prompts(dir, run.batches)
    ensures var run := RunAiScoring(rows, dir, f, ckpt, key, batchSize, workers, order, reply).value;
      && |run.prompts| == |run.batches|
      && (forall c :: 0 <= c < |run.batches| ==>
            run.prompts[c] == PromptHeader + Batching.Flatten(Entries(ItemsOf(dir, run.batches[c]))))
      && (forall c, j :: 0 <= c < |run.batches| && 0 <= j < |run.batches[c]| ==>
            Entries(ItemsOf(dir, run.batches[c]))[j]
            == Entry(j + 1, Item(run.batches[c][j].title, ReadAbstract(dir, run.batches[c][j].link))))
  {
    var run := RunAiScoring(rows, dir, f, ckpt, key, batchSize, workers, order, reply).value;
    if |Pending(rows, Known(f, ckpt))| == 0 {
      assert run.prompts == [] && run.batches == [];
    }
    assert run.prompts == Prompts(dir, run.batches);
    PromptsListBatches(dir, run.batches);
  }

  /** With every pending row in some batch and every batch completed, every
      row has a result. */
  lemma AllRowsResolved(rows: seq<Row>, known: Results, batches: seq<seq<Row>>, order: seq<nat>, reply: nat -> Option<Parsed>)
    requires Batching.Flatten(batches) == Pending(rows, known)
    requires IsCompletionOrder(order, |batches|)
    ensures forall i :: 0 <= i < |rows| ==> rows[i].rowId in After(known, BatchIds(batches), order, reply)
  {
    var ids := BatchIds(batches);
    forall i | 0 <= i < |rows|
      ensures rows[i].rowId in After(known, ids, order, reply)
    {
      if rows[i].rowId !in known {
        assert rows[i] in Pending(rows, known);
        Batching.FlattenMember(batches, rows[i]);
        var c :| 0 <= c < |batches| && rows[i] in batches[c];
        var k :| 0 <= k < |batches[c]| && batches[c][k] == rows[i];
        assert ids[c][k] == rows[i].rowId;
        assert c in order;
        var u :| 0 <= u < |order| && order[u] == c;
        assert InDone(rows[i].rowId, ids, order);
      }
    }
  }

  /** Each row of the table is an input row showing what `Lookup` finds. */
  lemma TableRowsLookUp(rows: seq<Row>, m: Results)
    ensures forall x :: x in Table(rows, m) ==>
      x.row in rows && ScoreResult(x.score, x.reason) == Lookup(m, x.row.rowId)
  {
    forall x | x in Table(rows, m)
      ensures x.row in rows && ScoreResult(x.score, x.reason) == Lookup(m, x.row.rowId)
    {
      assert x in multiset(Table(rows, m));
      var fill := Fill(rows, m);
      assert x in multiset(fill);
      var i :| 0 <= i < |fill| && fill[i] == x;
    }
  }

  /** When the batch size is positive, every row of the table has a result
      of its own: none falls back to the "处理遗漏" default, and the table
      shows exactly the final result of each row. */
  lemma EveryRowGetsAResult(rows: seq<Row>, dir: AbstractDir, f: OutputFile, ckpt: CheckpointFile,
                            key: Option<string>, batchSize: int, workers: int, order: seq<nat>, reply: nat -> Option<Parsed>)
    requires IsCompletionOrder(order, |BatchesFor(rows, f, ckpt, batchSize)|)
    requires batchSize > 0
    requires RunAiScoring(rows, dir, f, ckpt, key, batchSize, workers, order, reply).Ok?
    ensures var run := RunAiScoring(rows, dir, f, ckpt, key, batchSize, workers, order, reply).value;
      forall i :: 0 <= i < |rows| ==> rows[i].rowId in run.results
    ensures var run := RunAiScoring(rows, dir, f, ckpt, key, batchSize, workers, order, reply).value;
      forall x :: x in run.table ==>
        x.row in rows && x.row.rowId in run.results
        && run.results[x.row.rowId] == ScoreResult(x.score, x.reason)
  {
    var run := RunAiScoring(rows, dir, f, ckpt, key, batchSize, workers, order, reply).value;
    RunShape(rows, dir, f, ckpt, key, batchSize, workers, order, reply);
    AllRowsResolved(rows, Known(f, ckpt), BatchesFor(rows, f, ckpt, batchSize), order, reply);
    TableRowsLookUp(rows, run.results);
  }

  /** No completed batch carries an id that was known before the run. */
  lemma KnownIdsNotBatched(rows: seq<Row>, f: OutputFile, ckpt: CheckpointFile, batchSize: int, order: seq<nat>)
    requires ValidDone(BatchIds(BatchesFor(rows, f, ckpt, batchSize)), order)
    ensures forall id :: id in Known(f, ckpt) ==> !InDone(id, BatchIds(BatchesFor(rows, f, ckpt, batchSize)), order)
  {
    var ids := BatchIds(BatchesFor(rows, f, ckpt, batchSize));
    forall id | id in Known(f, ckpt)
      ensures !InDone(id, ids, order)
    {
      if InDone(id, ids, order) {
        var u :| 0 <= u < |order| && id in ids[order[u]];
        BatchIdsWerePending(rows, f, ckpt, batchSize, order[u], id);
      }
    }
  }

  /** A result known before the run, from the output file or the
      checkpoint, is never overwritten: only pending rows are batched. */
  lemma KnownResultsKept(rows: seq<Row>, dir: AbstractDir, f: OutputFile, ckpt: CheckpointFile,
                         key: Option<string>, batchSize: int, workers: int, order: seq<nat>, reply: nat -> Option<Parsed>)
    requires IsCompletionOrder(order, |BatchesFor(rows, f, ckpt, batchSize)|)
    requires RunAiScoring(rows, dir, f, ckpt, key, batchSize, workers, order, reply).Ok?
    ensures var run := RunAiScoring(rows, dir, f, ckpt, key, batchSize, workers, order, reply).value;
      forall id :: id in Known(f, ckpt) ==> id in run.results && run.results[id] == Known(f, ckpt)[id]
  {
    RunShape(rows, dir, f, ckpt, key, batchSize, workers, order, reply);
    KnownIdsNotBatched(rows, f, ckpt, batchSize, order);
  }

  /** Distinct rows in distinct chunk positions keep distinct ids. */
  lemma ChunkIdsUnique(pending: seq<Row>, size: int)
    requires size > 0 && DistinctIds(pending)
    ensures UniqueIds(BatchIds(Batching.Chunks(pending, size)))
  {
    var ids := BatchIds(Batching.Chunks(pending, size));
    forall c1, j1, c2, j2 |
      0 <= c1 < |ids| && 0 <= j1 < |ids[c1]| && 0 <= c2 < |ids| && 0 <= j2 < |ids[c2]|
      && ids[c1][j1] == ids[c2][j2]
      ensures c1 == c2 && j1 == j2
    {
      ChunkPositionsDistinct(pending, size, c1, j1, c2, j2);
    }
  }

  lemma ChunkPositionsDistinct(pending: seq<Row>, size: int, c1: nat, j1: nat, c2: nat, j2: nat)
    requires size > 0 && DistinctIds(pending)
    requires c1 < |Batching.Chunks(pending, size)| && j1 < |Batching.Chunks(pending, size)[c1]|
    requires c2 < |Batching.Chunks(pending, size)| && j2 < |Batching.Chunks(pending, size)[c2]|
    requires Batching.Chunks(pending, size)[c1][j1].rowId == Batching.Chunks(pending, size)[c2][j2].rowId
    ensures c1 == c2 && j1 == j2
  {
    Batching.ChunkElement(pending, size, c1, j1);
    Batching.ChunkElement(pending, size, c2, j2);
    var p1 := Batching.Offset(c1, size) + j1;
    var p2 := Batching.Offset(c2, size) + j2;
    assert pending[p1].rowId == pending[p2].rowId;
    assert p1 == p2;
    if c1 < c2 {
      Batching.OffsetGap(c1, c2, size);
    } else if c2 < c1 {
      Batching.OffsetGap(c2, c1, size);
    }
  }

  /** Every batch completes once, so each row gets its own batch's reply. */
  lemma CompletedBatchesTakeOwnReply(known: Results, ids: seq<seq<int>>, order: seq<nat>, reply: nat -> Option<Parsed>)
    requires IsCompletionOrder(order, |ids|) && UniqueIds(ids)
    ensures forall c, j :: 0 <= c < |ids| && 0 <= j < |ids[c]| ==>
      ids[c][j] in After(known, ids, order, reply)
      && After(known, ids, order, reply)[ids[c][j]] == ResultAt(reply(c), j)
  {
    AfterTakesOwnReply(known, ids, order, reply);
    forall c, j | 0 <= c < |ids| && 0 <= j < |ids[c]|
      ensures ids[c][j] in After(known, ids, order, reply)
      ensures After(known, ids, order, reply)[ids[c][j]] == ResultAt(reply(c), j)
    {
      assert c in order;
      var u :| 0 <= u < |order| && order[u] == c;
      assert ids[order[u]][j] == ids[c][j];
    }
  }

  /** With distinct `RowId`s, whatever order the batches complete in, row
      `j` of batch `c` gets element `j` of batch `c`'s reply, or the
      failure result when that reply is missing, not an array or too
      short. */
  lemma BatchReplyLandsOnItsRows(rows: seq<Row>, dir: AbstractDir, f: OutputFile, ckpt: CheckpointFile,
                                 key: Option<string>, batchSize: int, workers: int, order: seq<nat>, reply: nat -> Option<Parsed>)
    requires IsCompletionOrder(order, |BatchesFor(rows, f, ckpt, batchSize)|)
    requires DistinctIds(rows) && batchSize > 0
    requires RunAiScoring(rows, dir, f, ckpt, key, batchSize, workers, order, reply).Ok?
    ensures var run := RunAiScoring(rows, dir, f, ckpt, key, batchSize, workers, order, reply).value;
      forall c, j :: 0 <= c < |run.batches| && 0 <= j < |run.batches[c]| ==>
        run.batches[c][j].rowId in run.results
        && run.results[run.batches[c][j].rowId] == ResultAt(reply(c), j)
  {
    var known := Known(f, ckpt);
    var run := RunAiScoring(rows, dir, f, ckpt, key, batchSize, workers, order, reply).value;
    RunShape(rows, dir, f, ckpt, key, batchSize, workers, order, reply);
    PendingKeepsDistinct(rows, known);
    ChunkIdsUnique(Pending(rows, known), batchSize);
    assert run.batches == Batching.Chunks(Pending(rows, known), batchSize);
    RunRepliesLand(run, known, order, reply);
  }

  /** BatchReplyLandsOnItsRows, stated on the run's own batches and
      results. */
  lemma RunRepliesLand(run: Run, known: Results, order: seq<nat>, reply: nat -> Option<Parsed>)
    requires IsCompletionOrder(order, |run.batches|) && UniqueIds(BatchIds(run.batches))
    requires run.results == After(known, BatchIds(run.batches), order, reply)
    ensures forall c, j :: 0 <= c < |run.batches| && 0 <= j < |run.batches[c]| ==>
      run.batches[c][j].rowId in run.results
      && run.results[run.batches[c][j].rowId] == ResultAt(reply(c), j)
  {
    var ids := BatchIds(run.batches);
    CompletedBatchesTakeOwnReply(known, ids, order, reply);
    forall c, j | 0 <= c < |run.batches| && 0 <= j < |run.batches[c]|
      ensures run.batches[c][j].rowId == ids[c][j]
    {
    }
  }

  /** A negative batch size makes `range` empty: nothing is sent, and every
      row without an earlier result is written with score 0 and the
      "处理遗漏" reason. */
  lemma NegativeBatchSizeScoresNothing(rows: seq<Row>, dir: AbstractDir, f: OutputFile, ckpt: CheckpointFile,
                                       key: Option<string>, batchSize: int, workers: int, order: seq<nat>, reply: nat -> Option<Parsed>)
    requires IsCompletionOrder(order, |BatchesFor(rows, f, ckpt, batchSize)|)
    requires batchSize < 0
    requires RunAiScoring(rows, dir, f, ckpt, key, batchSize, workers, order, reply).Ok?
    ensures var run := RunAiScoring(rows, dir, f, ckpt, key, batchSize, workers, order, reply).value;
      run.batches == [] && run.results == Known(f, ckpt)
    ensures var run := RunAiScoring(rows, dir, f, ckpt, key, batchSize, workers, order, reply).value;
      forall x :: x in run.table && x.row.rowId !in Known(f, ckpt) ==> x.score == 0 && x.reason == Unresolved
  {
    var run := RunAiScoring(rows, dir, f, ckpt, key, batchSize, workers, order, reply).value;
    RunShape(rows, dir, f, ckpt, key, batchSize, workers, order, reply);
    TableRowsLookUp(rows, run.results);
  }

  /** The map saved after completion `t` is the results of the first
      `t + 1` completions. */
  lemma SavesGrow(known: Results, ids: seq<seq<int>>, order: seq<nat>, reply: nat -> Option<Parsed>)
    requires ValidDone(ids, order)
    ensures forall t :: 0 <= t < |order| ==> known.Keys <= Saves(known, ids, order, reply)[t].Keys
    ensures forall t, u, j :: 0 <= u <= t < |order| && 0 <= j < |ids[order[u]]| ==>
      ids[order[u]][j] in Saves(known, ids, order, reply)[t]
    ensures forall t1, t2 :: 0 <= t1 <= t2 < |order| ==>
      Saves(known, ids, order, reply)[t1].Keys <= Saves(known, ids, order, reply)[t2].Keys
  {
    var saves := Saves(known, ids, order, reply);
    forall t, id | 0 <= t < |order| && id in known
      ensures id in saves[t]
    {
    }
    forall t, u, j | 0 <= u <= t < |order| && 0 <= j < |ids[order[u]]|
      ensures ids[order[u]][j] in saves[t]
    {
      assert order[..t + 1][u] == order[u];
      assert InDone(ids[order[u]][j], ids, order[..t + 1]);
    }
    forall t1, t2, id | 0 <= t1 <= t2 < |order| && id in saves[t1]
      ensures id in saves[t2]
    {
      if InDone(id, ids, order[..t1 + 1]) {
        var u :| 0 <= u < t1 + 1 && id in ids[order[..t1 + 1][u]];
        assert order[..t2 + 1][u] == order[..t1 + 1][u];
      }
    }
  }

  /** The checkpoint saved after completion `t` holds every earlier result
      and every row of the batches completed so far, and nothing saved is
      ever dropped by a later save. */
  lemma CheckpointOnlyGrows(rows: seq<Row>, dir: AbstractDir, f: OutputFile, ckpt: CheckpointFile,
                            key: Option<string>, batchSize: int, workers: int, order: seq<nat>, reply: nat -> Option<Parsed>)
    requires IsCompletionOrder(order, |BatchesFor(rows, f, ckpt, batchSize)|)
    requires RunAiScoring(rows, dir, f, ckpt, key, batchSize, workers, order, reply).Ok?
    ensures var run := RunAiScoring(rows, dir, f, ckpt, key, batchSize, workers, order, reply).value;
      forall t :: 0 <= t < |run.saves| ==> Known(f, ckpt).Keys <= run.saves[t].Keys
    ensures var run := RunAiScoring(rows, dir, f, ckpt, key, batchSize, workers, order, reply).value;
      forall t, u, j :: 0 <= u <= t < |run.saves| && 0 <= j < |run.batches[order[u]]| ==>
        run.batches[order[u]][j].rowId in run.saves[t]
    ensures var run := RunAiScoring(rows, dir, f, ckpt, key, batchSize, workers, order, reply).value;
      forall t1, t2 :: 0 <= t1 <= t2 < |run.saves| ==> run.saves[t1].Keys <= run.saves[t2].Keys
  {
    var run := RunAiScoring(rows, dir, f, ckpt, key, batchSize, workers, order, reply).value;
    RunShape(rows, dir, f, ckpt, key, batchSize, workers, order, reply);
    RunSavesGrow(run, Known(f, ckpt), order, reply);
  }

  /** CheckpointOnlyGrows, stated on the run's own batches and saves. */
  lemma RunSavesGrow(run: Run, known: Results, order: seq<nat>, reply: nat -> Option<Parsed>)
    requires ValidDone(BatchIds(run.batches), order)
    requires run.saves == Saves(known, BatchIds(run.batches), order, reply)
    ensures forall t :: 0 <= t < |run.saves| ==> known.Keys <= run.saves[t].Keys
    ensures forall t, u, j :: 0 <= u <= t < |run.saves| && 0 <= j < |run.batches[order[u]]| ==>
      run.batches[order[u]][j].rowId in run.saves[t]
    ensures forall t1, t2 :: 0 <= t1 <= t2 < |run.saves| ==> run.saves[t1].Keys <= run.saves[t2].Keys
  {
    var ids := BatchIds(run.batches);
    SavesGrow(known, ids, order, reply);
    forall t, u, j | 0 <= u <= t < |run.saves| && 0 <= j < |run.batches[order[u]]|
      ensures run.batches[order[u]][j].rowId in run.saves[t]
    {
      assert ids[order[u]][j] == run.batches[order[u]][j].rowId;
    }
  }

  /** The ids a prefix of the completion order has covered. */
  lemma DonePrefix(id: int, ids: seq<seq<int>>, order: seq<nat>, t: nat)
    requires ValidDone(ids, order) && t < |order|
    ensures InDone(id, ids, order[..t + 1]) <==> exists u :: 0 <= u <= t && id in ids[order[u]]
  {
    var done := order[..t + 1];
    if InDone(id, ids, done) {
      var u :| 0 <= u < |done| && id in ids[done[u]];
      assert done[u] == order[u];
    }
    if exists u :: 0 <= u <= t && id in ids[order[u]] {
      var u :| 0 <= u <= t && id in ids[order[u]];
      assert done[u] == order[u];
    }
  }

  /** Resuming from a save: a row is pending again exactly when it was
      pending before and no completed batch covered its id. */
  lemma ResumePending(rows: seq<Row>, known: Results, known2: Results, batches: seq<seq<Row>>, order: seq<nat>, t: nat)
    requires ValidDone(BatchIds(batches), order) && t < |order|
    requires forall id :: id in known2 <==> id in known || InDone(id, BatchIds(batches), order[..t + 1])
    ensures forall r :: r in Pending(rows, known2) <==>
      r in Pending(rows, known) && forall u :: 0 <= u <= t ==> r.rowId !in IdsOf(batches[order[u]])
  {
    var ids := BatchIds(batches);
    forall r | r in rows
      ensures InDone(r.rowId, ids, order[..t + 1]) <==> exists u :: 0 <= u <= t && r.rowId in IdsOf(batches[order[u]])
    {
      DonePrefix(r.rowId, ids, order, t);
    }
  }

  /** Resuming from the `t`-th save, stated on a run's own batches and
      saves. */
  lemma ResumeFromSave(rows: seq<Row>, f: OutputFile, ckpt: CheckpointFile, run: Run,
                       order: seq<nat>, reply: nat -> Option<Parsed>, t: nat, keyOrder: seq<int>)
    requires ValidDone(BatchIds(run.batches), order) && t < |order|
    requires run.saves == Saves(Known(f, ckpt), BatchIds(run.batches), order, reply)
    requires (forall i :: 0 <= i < |keyOrder| ==> keyOrder[i] in run.saves[t])
      && (forall k :: k in run.saves[t] ==> k in keyOrder)
    ensures forall r :: r in PendingOf(rows, f, Some(Checkpoint.Save(run.saves[t], keyOrder))) <==>
      r in PendingOf(rows, f, ckpt) && forall u :: 0 <= u <= t ==> r.rowId !in IdsOf(run.batches[order[u]])
  {
    var known := Known(f, ckpt);
    var ids := BatchIds(run.batches);
    var save := run.saves[t];
    assert save == SaveAt(known, ids, order, t, reply);
    ResumedKnown(f, known, save, keyOrder, ids, order[..t + 1], reply);
    ResumePending(rows, known, Known(f, Some(Checkpoint.Save(save, keyOrder))), run.batches, order, t);
  }

  /** The results a rerun starts from when the checkpoint holds `save`: the
      output file's results carry over, so they are already among `known`. */
  lemma ResumedKnown(f: OutputFile, known: Results, save: Results, keyOrder: seq<int>,
                     ids: seq<seq<int>>, done: seq<nat>, reply: nat -> Option<Parsed>)
    requires ExistingResults(f).Keys <= known.Keys
    requires ValidDone(ids, done) && save == After(known, ids, done, reply)
    requires (forall i :: 0 <= i < |keyOrder| ==> keyOrder[i] in save) && (forall k :: k in save ==> k in keyOrder)
    ensures forall id :: id in Known(f, Some(Checkpoint.Save(save, keyOrder))) <==> id in known || InDone(id, ids, done)
  {
    Checkpoint.LoadSaveRoundTrip(save, keyOrder);
  }

  /** After a crash following completion `t`, a rerun with the saved
      checkpoint (and the same output file) leaves pending exactly the
      rows that were pending before and whose `RowId` no completed batch
      carried. */
  lemma ResumeAfterCrash(rows: seq<Row>, dir: AbstractDir, f: OutputFile, ckpt: CheckpointFile,
                         key: Option<string>, batchSize: int, workers: int, order: seq<nat>, reply: nat -> Option<Parsed>,
                         t: nat, keyOrder: seq<int>)
    requires IsCompletionOrder(order, |BatchesFor(rows, f, ckpt, batchSize)|)
    requires RunAiScoring(rows, dir, f, ckpt, key, batchSize, workers, order, reply).Ok?
    requires t < |RunAiScoring(rows, dir, f, ckpt, key, batchSize, workers, order, reply).value.saves|
    requires var save := RunAiScoring(rows, dir, f, ckpt, key, batchSize, workers, order, reply).value.saves[t];
      (forall i :: 0 <= i < |keyOrder| ==> keyOrder[i] in save) && (forall k :: k in save ==> k in keyOrder)
    ensures var run := RunAiScoring(rows, dir, f, ckpt, key, batchSize, workers, order, reply).value;
      forall r :: r in PendingOf(rows, f, Some(Checkpoint.Save(run.saves[t], keyOrder))) <==>
        r in PendingOf(rows, f, ckpt)
        && forall u :: 0 <= u <= t ==> r.rowId !in IdsOf(run.batches[order[u]])
  {
    var run := RunAiScoring(rows, dir, f, ckpt, key, batchSize, workers, order, reply).value;
    RunShape(rows, dir, f, ckpt, key, batchSize, workers, order, reply);
    ResumeFromSave(rows, f, ckpt, run, order, reply, t, keyOrder);
  }

  /** Once every row's id has a result, nothing is pending and the table is
      the same whatever else the known results hold. */
  lemma NothingLeftToScore(rows: seq<Row>, m: Results, m2: Results)
    requires forall i :: 0 <= i < |rows| ==> rows[i].rowId in m
    requires forall id :: id in m ==> id in m2 && m2[id] == m[id]
    ensures Pending(rows, m2) == []
    ensures Table(rows, m2) == Table(rows, m)
  {
    assert Fill(rows, m2) == Fill(rows, m);
  }

  /** A rerun after a completed run (its results saved as the checkpoint;
      when there were batches, these are the results of the last save)
      calls the service for nothing and writes the same table, whatever the
      output file, batch size, worker count or replies of the rerun. */
  lemma RerunIsIdempotent(rows: seq<Row>, dir: AbstractDir, f: OutputFile, ckpt: CheckpointFile,
                          key: Option<string>, batchSize: int, workers: int, order: seq<nat>, reply: nat -> Option<Parsed>,
                          keyOrder: seq<int>, f2: OutputFile, key2: Option<string>, batchSize2: int, workers2: int,
                          reply2: nat -> Option<Parsed>)
    requires IsCompletionOrder(order, |BatchesFor(rows, f, ckpt, batchSize)|)
    requires batchSize > 0 && key2.Some?
    requires RunAiScoring(rows, dir, f, ckpt, key, batchSize, workers, order, reply).Ok?
    requires var done := RunAiScoring(rows, dir, f, ckpt, key, batchSize, workers, order, reply).value.results;
      (forall i :: 0 <= i < |keyOrder| ==> keyOrder[i] in done) && (forall k :: k in done ==> k in keyOrder)
    ensures var run := RunAiScoring(rows, dir, f, ckpt, key, batchSize, workers, order, reply).value;
      |run.batches| > 0 ==> run.saves[|run.saves| - 1] == run.results
    ensures var run := RunAiScoring(rows, dir, f, ckpt, key, batchSize, workers, order, reply).value;
      BatchesFor(rows, f2, Some(Checkpoint.Save(run.results, keyOrder)), batchSize2) == []
    ensures var run := RunAiScoring(rows, dir, f, ckpt, key, batchSize, workers, order, reply).value;
      var rerun := RunAiScoring(rows, dir, f2, Some(Checkpoint.Save(run.results, keyOrder)), key2, batchSize2, workers2, [], reply2);
      rerun.Ok? && rerun.value.batches == [] && rerun.value.table == run.table
  {
    var run := RunAiScoring(rows, dir, f, ckpt, key, batchSize, workers, order, reply).value;
    var ckpt2 := Some(Checkpoint.Save(run.results, keyOrder));
    Checkpoint.LoadSaveRoundTrip(run.results, keyOrder);
    EveryRowGetsAResult(rows, dir, f, ckpt, key, batchSize, workers, order, reply);
    RunShape(rows, dir, f, ckpt, key, batchSize, workers, order, reply);
    NothingLeftToScore(rows, run.results, Known(f2, ckpt2));
    FinalSaveIsResults(rows, dir, f, ckpt, key, batchSize, workers, order, reply);
    if batchSize2 > 0 {
      assert BatchesFor(rows, f2, ckpt2, batchSize2) == Batching.Chunks([], batchSize2);
    }
  }

  /** Twelve rows with `RowId` 0 to 11, a checkpoint holding 0 to 4 and no
      earlier output: the run sends two batches, rows 5-9 and rows 10-11. */
  lemma TwelveRowsResumeFromFive(rows: seq<Row>, saved: Results, ckpt: CheckpointFile)
    requires |rows| == 12 && forall i :: 0 <= i < 12 ==> rows[i].rowId == i
    requires forall k :: k in saved <==> 0 <= k < 5
    requires ckpt == Some(Checkpoint.Save(saved, [0, 1, 2, 3, 4]))
    ensures PendingOf(rows, NoOutput, ckpt) == rows[5..]
    ensures BatchesFor(rows, NoOutput, ckpt, 5) == [rows[5..10], rows[10..]]
  {
    TwelveRowsPending(rows, saved, ckpt);
    SevenRowsChunk(rows[5..]);
    assert rows[5..][5..] == rows[10..] && rows[5..][..5] == rows[5..10];
  }

  lemma TwelveRowsPending(rows: seq<Row>, saved: Results, ckpt: CheckpointFile)
    requires |rows| == 12 && forall i :: 0 <= i < 12 ==> rows[i].rowId == i
    requires forall k :: k in saved <==> 0 <= k < 5
    requires ckpt == Some(Checkpoint.Save(saved, [0, 1, 2, 3, 4]))
    ensures PendingOf(rows, NoOutput, ckpt) == rows[5..]
  {
    Checkpoint.LoadSaveRoundTrip(saved, [0, 1, 2, 3, 4]);
    var known := Known(NoOutput, ckpt);
    assert known.Keys == saved.Keys;
    PendingAfterKnownPrefix(rows, known, 5);
  }

  /** Seven rows in batches of five: five, then two. */
  lemma SevenRowsChunk(p: seq<Row>)
    requires |p| == 7
    ensures Batching.Chunks(p, 5) == [p[..5], p[5..]]
  {
    assert Batching.Chunks(p[5..], 5) == [p[5..]];
  }

  /** When exactly the first `k` rows are known, the rest are pending. */
  lemma {:induction false} PendingAfterKnownPrefix(rows: seq<Row>, known: Results, k: nat)
    requires k <= |rows|
    requires forall i :: 0 <= i < k ==> rows[i].rowId in known
    requires forall i :: k <= i < |rows| ==> rows[i].rowId !in known
    ensures Pending(rows, known) == rows[k..]
    decreases |rows|
  {
    if |rows| > 0 {
      if k == 0 {
        PendingAfterKnownPrefix(rows[1..], known, 0);
        assert rows == [rows[0]] + rows[1..];
      } else {
        PendingAfterKnownPrefix(rows[1..], known, k - 1);
        assert rows[1..][k - 1..] == rows[k..];
      }
    }
  }
}

=== FILE: sequential.dfy ===
/** The standalone sequential scorer (step3_ai_relevance_analysis.py):
    rows in groups of five, one service call per group with no retry, the
    reply aligned position by position to the group, and the table sorted
    by descending score. Unlike the batch scorer it keeps no checkpoint, and
    a damaged abstract file or a reply that is neither an array nor empty
    ends the whole run. The service call and `json.loads` are parameters;
    the one-second pause between groups is left out. */
module SequentialScoring {
  import opened Common
  import Batching
  import Sorting
  import opened Annotation
  import Retry
  import Scoring

  /** `batch_size`, hard-coded */
  const GroupSize: nat := 5
  /** The prompt header; it announces five papers even for a shorter last
      group. */
  const PromptHeader := "请分析以下 5 篇文献的摘要，并返回 JSON 数组：\n\n"
  const FailReason := "分析失败"
  const MissingReason := "AI 未能返回结果"

  /** The columns of an index row the scorer reads. */
  datatype IndexRow = IndexRow(title: string, link: Link)

  /** A score and reason as appended to `all_scores` and `all_reasons`. */
  datatype Scored = Scored(score: int, reason: string)

  /** Why the run stopped with an exception. */
  datatype Failure =
    | ReadFailed(cause: ReadFailure)   // `get_abstract_content` raised
    | ReplyNotAList                    // indexing or `len` of the reply raised

  /** `[{"score": 0, "reason": "分析失败"}] * len(batch_data)` */
  function FailureReply(n: nat): (es: seq<Element>)
    ensures |es| == n
    ensures forall j :: 0 <= j < n ==> es[j] == Element(Some(0), Some(FailReason))
  {
    seq(n, j => Element(Some(0), Some(FailReason)))
  }

  /** `analyze_batch`: one attempt; any exception, from the service or from
      `json.loads`, is caught and becomes the failure reply. */
  function AnalyzeBatch(n: nat, a: Retry.Attempt, parse: string -> Result<Parsed, string>): Parsed {
    match Retry.AttemptResult(a, parse)
    case Ok(p) => p
    case Err(_) => ParsedList(FailureReply(n))
  }

  /** The alignment loop (line 105-111): position `j` takes element `j` when
      the reply has one, with defaults for missing members, and the
      "AI 未能返回结果" result otherwise. A reply of length zero that is not
      an array aligns to defaults only; any other non-array reply raises. */
  function Align(n: nat, reply: Parsed): (r: Option<seq<Scored>>)
    ensures r.Some? <==> !reply.OtherValue?
    ensures r.Some? ==> |r.value| == n
    ensures r.Some? ==> forall j :: 0 <= j < n ==>
      (reply.ParsedList? && j < |reply.elements| ==>
         r.value[j] == Scored(reply.elements[j].score.GetOr(0), reply.elements[j].reason.GetOr(Scoring.NoReason)))
      && (!(reply.ParsedList? && j < |reply.elements|) ==> r.value[j] == Scored(0, MissingReason))
  {
    if reply.OtherValue? then None
    else
      Some(seq(n, j requires 0 <= j < n =>
        match Covered(reply, j)
        case Some(e) => Scored(e.score.GetOr(0), e.reason.GetOr(Scoring.NoReason))
        case None => Scored(0, MissingReason)))
  }

  /** Element `j` of an array reply, when there is one. */
  function Covered(reply: Parsed, j: nat): Option<Element> {
    match reply
    case ParsedList(es) => if j < |es| then Some(es[j]) else None
    case _ => None
  }

  /** The abstracts of a group, read in row order; the first read that
      raises ends the run. */
  function ReadGroup(dir: AbstractDir, group: seq<IndexRow>): (r: Result<seq<Item>, Failure>)
    ensures r.Ok? <==> forall k :: 0 <= k < |group| ==> AbstractContent(dir, group[k].link).Ok?
    ensures r.Ok? ==>
      && |r.value| == |group|
      && forall k :: 0 <= k < |group| ==>
           r.value[k] == Item(group[k].title, AbstractContent(dir, group[k].link).value)
    decreases |group|
  {
    if |group| == 0 then Ok([])
    else
      var n := |group| - 1;
      match ReadGroup(dir, group[..n])
      case Err(e) => Err(e)
      case Ok(items) =>
        match AbstractContent(dir, group[n].link)
        case Err(cause) => Err(ReadFailed(cause))
        case Ok(text) => Ok(items + [Item(group[n].title, text)])
  }

  /** One group: read its abstracts, send their prompt to the service once
      (`call(prompt)` is what that call yields), align the reply. */
  function GroupResult(dir: AbstractDir, group: seq<IndexRow>, call: string -> Retry.Attempt,
                       parse: string -> Result<Parsed, string>): (r: Result<seq<Scored>, Failure>)
    ensures ReadGroup(dir, group).Err? ==> r == Err(ReadGroup(dir, group).error)
    ensures r.Ok? ==> |r.value| == |group|
  {
    match ReadGroup(dir, group)
    case Err(e) => Err(e)
    case Ok(items) =>
      match Align(|group|, AnalyzeBatch(|group|, call(GroupPrompt(items)), parse))
      case None => Err(ReplyNotAList)
      case Some(s) => Ok(s)
  }

  /** The prompt `analyze_batch` builds for a group: the header, then one
      labelled entry per item in group order. */
  function GroupPrompt(items: seq<Item>): (p: string)
    ensures p == PromptHeader + Batching.Flatten(Entries(items))
  {
    PromptListsItemsInOrder(PromptHeader, items);
    PromptText(PromptHeader, items)
  }

  /** The prompt of a group names its rows in order: entry `k` is
      `[文献 k+1]` with row `k`'s title and the abstract read for it. */
  lemma GroupPromptListsRows(dir: AbstractDir, group: seq<IndexRow>, k: nat)
    requires ReadGroup(dir, group).Ok? && k < |group|
    ensures var items := ReadGroup(dir, group).value;
      GroupPrompt(items) == PromptHeader + Batching.Flatten(Entries(items))
      && Entries(items)[k] == Entry(k + 1, Item(group[k].title, AbstractContent(dir, group[k].link).value))
  {
  }

  /** The service sees the group only through its prompt: two calls that
      answer that prompt alike give the group the same result. */
  lemma GroupCallSeesOnlyItsPrompt(dir: AbstractDir, group: seq<IndexRow>, c1: string -> Retry.Attempt,
                                   c2: string -> Retry.Attempt, parse: string -> Result<Parsed, string>)
    requires ReadGroup(dir, group).Ok?
    requires c1(GroupPrompt(ReadGroup(dir, group).value)) == c2(GroupPrompt(ReadGroup(dir, group).value))
    ensures GroupResult(dir, group, c1, parse) == GroupResult(dir, group, c2, parse)
  {
  }

  /** Runs steps in order and stops at the first failure: the results of a
      sequence of steps, each yielding a list, concatenated. */
  function RunSteps<T, E>(rs: seq<Result<seq<T>, E>>): Result<seq<T>, E>
    decreases |rs|
  {
    if |rs| == 0 then Ok([])
    else
      var n := |rs| - 1;
      match RunSteps(rs[..n])
      case Err(e) => Err(e)
      case Ok(prev) =>
        match rs[n]
        case Err(e) => Err(e)
        case Ok(s) => Ok(prev + s)
  }

  predicate AllOk<T, E>(rs: seq<Result<seq<T>, E>>) {
    forall g :: 0 <= g < |rs| ==> rs[g].Ok?
  }

  function Values<T, E>(rs: seq<Result<seq<T>, E>>): (vs: seq<seq<T>>)
    requires AllOk(rs)
    ensures |vs| == |rs|
  {
    seq(|rs|, g requires 0 <= g < |rs| && AllOk(rs) => rs[g].value)
  }

  /** The run succeeds exactly when every step does, and then yields the
      steps' lists concatenated in order; otherwise it reports the first
      failing step's failure. */
  lemma {:induction false} RunStepsIsConcatenation<T, E>(rs: seq<Result<seq<T>, E>>)
    ensures RunSteps(rs).Ok? <==> AllOk(rs)
    ensures AllOk(rs) ==> RunSteps(rs).value == Batching.Flatten(Values(rs))
    ensures forall g :: (0 <= g < |rs| && rs[g].Err? && (forall h :: 0 <= h < g ==> rs[h].Ok?)) ==>
      RunSteps(rs) == Err(rs[g].error)
    decreases |rs|
  {
    if |rs| > 0 {
      var n := |rs| - 1;
      var front := rs[..n];
      RunStepsIsConcatenation(front);
      assert forall g :: 0 <= g < n ==> front[g] == rs[g];
      if AllOk(rs) {
        var vs := Values(rs);
        assert Values(front) == vs[..n];
        assert vs == vs[..n] + [vs[n]];
        Batching.FlattenSnoc(vs[..n], vs[n]);
      }
    }
  }

  /** The outcome of every group; `calls(g)` is how the service answers the
      prompt of group `g`. */
  function GroupResults(dir: AbstractDir, groups: seq<seq<IndexRow>>, calls: nat -> string -> Retry.Attempt,
                        parse: string -> Result<Parsed, string>): (rs: seq<Result<seq<Scored>, Failure>>)
    ensures |rs| == |groups|
    ensures forall g :: 0 <= g < |rs| && rs[g].Ok? ==> |rs[g].value| == |groups[g]|
  {
    var rs := seq(|groups|, g requires 0 <= g < |groups| => GroupResult(dir, groups[g], calls(g), parse));
    assert forall g :: 0 <= g < |groups| ==> rs[g] == GroupResult(dir, groups[g], calls(g), parse);
    rs
  }

  /** The loop over groups. */
  function ScoreGroups(dir: AbstractDir, groups: seq<seq<IndexRow>>, calls: nat -> string -> Retry.Attempt,
                       parse: string -> Result<Parsed, string>): (r: Result<seq<Scored>, Failure>)
    ensures r.Ok? ==> |r.value| == |Batching.Flatten(groups)|
  {
    var rs := GroupResults(dir, groups, calls, parse);
    StepsKeepLength(rs, groups);
    RunSteps(rs)
  }

  /** Steps whose lists match the groups' lengths give one entry per row. */
  lemma StepsKeepLength<T, E, U>(rs: seq<Result<seq<T>, E>>, groups: seq<seq<U>>)
    requires |rs| == |groups| && forall g :: 0 <= g < |rs| && rs[g].Ok? ==> |rs[g].value| == |groups[g]|
    ensures RunSteps(rs).Ok? ==> |RunSteps(rs).value| == |Batching.Flatten(groups)|
  {
    RunStepsIsConcatenation(rs);
    if AllOk(rs) {
      FlattenSameLengths(Values(rs), groups);
    }
  }

  /** Concatenations of parts of equal lengths have equal lengths. */
  lemma {:induction false} FlattenSameLengths<T, U>(a: seq<seq<T>>, b: seq<seq<U>>)
    requires |a| == |b| && forall g :: 0 <= g < |a| ==> |a[g]| == |b[g]|
    ensures |Batching.Flatten(a)| == |Batching.Flatten(b)|
    decreases |a|
  {
    if |a| > 0 {
      FlattenSameLengths(a[1..], b[1..]);
    }
  }

  /** A row of the analysis table. */
  datatype AnalysisRow = AnalysisRow(row: IndexRow, score: int, reason: string)

  function ScoreOf(r: AnalysisRow): int {
    r.score
  }

  /** `df['AI_Score'] = all_scores; df['AI_Reason'] = all_reasons` */
  function Attach(rows: seq<IndexRow>, scores: seq<Scored>): (t: seq<AnalysisRow>)
    requires |scores| == |rows|
    ensures |t| == |rows|
  {
    seq(|rows|, i requires 0 <= i < |rows| => AnalysisRow(rows[i], scores[i].score, scores[i].reason))
  }

  /** `range(0, len(df), 5)` with `df.iloc[i : i + 5]`: the groups, which
      put back together are the rows. */
  function GroupsOf(rows: seq<IndexRow>): (groups: seq<seq<IndexRow>>)
    ensures Batching.Flatten(groups) == rows
    ensures forall g :: 0 <= g < |groups| ==> 0 < |groups[g]| <= GroupSize
    ensures forall g :: 0 <= g < |groups| - 1 ==> |groups[g]| == GroupSize
  {
    Batching.ChunksPartition(rows, GroupSize);
    Batching.Chunks(rows, GroupSize)
  }

  /** `run_analysis`: the table sorted by descending score, or the failure
      that stopped the run. */
  function RunAnalysis(rows: seq<IndexRow>, dir: AbstractDir, calls: nat -> string -> Retry.Attempt,
                       parse: string -> Result<Parsed, string>): (r: Result<seq<AnalysisRow>, Failure>)
    ensures r.Ok? <==> ScoreGroups(dir, GroupsOf(rows), calls, parse).Ok?
    ensures r.Ok? ==>
      && |r.value| == |rows|
      && Sorting.NonIncreasing(r.value, ScoreOf)
      && multiset(r.value) == multiset(Attach(rows, ScoreGroups(dir, GroupsOf(rows), calls, parse).value))
  {
    var groups := GroupsOf(rows);
    match ScoreGroups(dir, groups, calls, parse)
    case Err(e) => Err(e)
    case Ok(scores) =>
      var t := Sorting.SortDescending(Attach(rows, scores), ScoreOf);
      assert |t| == |multiset(t)| == |rows|;
      Ok(t)
  }

  // ---------------------------------------------------------------------
  // Properties
  // ---------------------------------------------------------------------

  /** Indexing into a concatenation of equal-sized parts. */
  lemma {:induction false} FlattenAt<T>(parts: seq<seq<T>>, size: nat, g: nat, j: nat)
    requires g < |parts| && j < |parts[g]|
    requires forall h :: 0 <= h < g ==> |parts[h]| == size
    ensures Batching.Offset(g, size) + j < |Batching.Flatten(parts)|
    ensures Batching.Flatten(parts)[Batching.Offset(g, size) + j] == parts[g][j]
    decreases g
  {
    if g > 0 {
      FlattenAt(parts[1..], size, g - 1, j);
      OffsetShift(g, size);
    }
  }

  lemma {:induction false} OffsetShift(g: nat, size: nat)
    requires g > 0
    ensures Batching.Offset(g, size) == size + Batching.Offset(g - 1, size)
    decreases g
  {
    if g > 1 {
      OffsetShift(g - 1, size);
    }
  }

  /** Item `j` of step `g` sits at `Offset(g, size) + j` of the run's
      list when every earlier step yields `size` items. */
  lemma RunStepsAt<T, E, U>(rs: seq<Result<seq<T>, E>>, groups: seq<seq<U>>, size: nat, g: nat, j: nat)
    requires |rs| == |groups| && forall h :: 0 <= h < |rs| && rs[h].Ok? ==> |rs[h].value| == |groups[h]|
    requires g < |groups| && j < |groups[g]| && forall h :: 0 <= h < g ==> |groups[h]| == size
    requires RunSteps(rs).Ok?
    ensures rs[g].Ok?
    ensures Batching.Offset(g, size) + j < |RunSteps(rs).value|
    ensures RunSteps(rs).value[Batching.Offset(g, size) + j] == rs[g].value[j]
  {
    RunStepsIsConcatenation(rs);
    FlattenAt(Values(rs), size, g, j);
  }

  /** Row `5g + j` gets position `j` of group `g`'s aligned reply: the
      scores stay aligned with the rows they were asked about. */
  lemma RowTakesItsGroupsScore(rows: seq<IndexRow>, dir: AbstractDir, calls: nat -> string -> Retry.Attempt,
                               parse: string -> Result<Parsed, string>, g: nat, j: nat)
    requires g < |GroupsOf(rows)| && j < |GroupsOf(rows)[g]|
    requires ScoreGroups(dir, GroupsOf(rows), calls, parse).Ok?
    ensures var groups := GroupsOf(rows);
      var at := Batching.Offset(g, GroupSize) + j;
      && at < |rows|
      && rows[at] == groups[g][j]
      && GroupResult(dir, groups[g], calls(g), parse).Ok?
      && ScoreGroups(dir, groups, calls, parse).value[at]
         == GroupResult(dir, groups[g], calls(g), parse).value[j]
  {
    var groups := GroupsOf(rows);
    Batching.ChunkAtOffset(rows, GroupSize, g);
    var rs := GroupResults(dir, groups, calls, parse);
    RunStepsAt(rs, groups, GroupSize, g, j);
  }

  /** A failed call scores every row of its group 0 with "分析失败". */
  lemma FailedCallScoresZero(dir: AbstractDir, group: seq<IndexRow>, call: string -> Retry.Attempt,
                             parse: string -> Result<Parsed, string>)
    requires ReadGroup(dir, group).Ok?
    requires Retry.AttemptResult(call(GroupPrompt(ReadGroup(dir, group).value)), parse).Err?
    ensures GroupResult(dir, group, call, parse) == Ok(seq(|group|, j => Scored(0, FailReason)))
  {
    var a := Align(|group|, ParsedList(FailureReply(|group|)));
    assert a.value == seq(|group|, j => Scored(0, FailReason));
  }

  /** Where the reply covers a position, the sequential alignment and the
      batch scorer's agree; an uncovered position scores 0 in both, with
      each copy's own reason text. */
  lemma AlignmentsAgree(n: nat, es: seq<Element>, j: nat)
    requires j < n
    ensures var s := Align(n, ParsedList(es)).value[j];
      var b := Scoring.ResultAt(Some(ParsedList(es)), j);
      s.score == b.score
      && (j < |es| ==> s.reason == b.reason)
      && (j >= |es| ==> s.reason == MissingReason && b.reason == Scoring.ShortReply)
  {
  }
}

=== FILE: slug.dfy ===
/** `slugify`, which turns a title into a file name: drop every character
    that is not a word character, whitespace or `-`, strip, lower-case, and
    replace each run of `-` and whitespace by one `_` (paper_pipeline.py
    line 150-152; the copy in step4_fetch_pdfs_scihub.py line 25-29 adds a
    guard for values that are not strings). Characters are classified as
    ASCII: a word character is a letter, a digit or `_`. */
module Slug {
  import opened Common

  /** What `\w` matches on ASCII. */
  predicate IsWordChar(c: char) {
    ('a' <= c <= 'z') || ('A' <= c <= 'Z') || IsDigit(c) || c == '_'
  }

  /** The class `[-\s]`. */
  predicate IsSeparator(c: char) {
    c == '-' || IsSpace(c)
  }

  /** The characters `[^\w\s-]` leaves alone. */
  predicate Allowed(c: char) {
    IsWordChar(c) || IsSeparator(c)
  }

  /** The characters a slug is made of: lower-case letters, digits and `_`. */
  predicate SlugChar(c: char) {
    ('a' <= c <= 'z') || IsDigit(c) || c == '_'
  }

  predicate IsSlug(s: string) {
    forall i :: 0 <= i < |s| ==> SlugChar(s[i])
  }

  /** `re.sub(r"[^\w\s-]", "", s)` */
  function RemoveDisallowed(s: string): (r: string)
    ensures |r| <= |s|
    ensures forall i :: 0 <= i < |r| ==> Allowed(r[i]) && r[i] in s
    ensures (forall i :: 0 <= i < |s| ==> Allowed(s[i])) ==> r == s
    decreases |s|
  {
    if |s| == 0 then ""
    else
      var rest := RemoveDisallowed(s[1..]);
      if Allowed(s[0]) then [s[0]] + rest else rest
  }

  /** `s` without its leading run of separators. */
  function DropSeparators(s: string): (r: string)
    ensures |r| <= |s| && r == s[|s| - |r|..]
    ensures |r| > 0 ==> !IsSeparator(r[0])
    decreases |s|
  {
    if |s| > 0 && IsSeparator(s[0]) then DropSeparators(s[1..]) else s
  }

  /** `re.sub(r"[-\s]+", "_", s)`: each maximal run of separators becomes a
      single `_`; everything else is copied. */
  function Collapse(s: string): (r: string)
    ensures |r| <= |s|
    ensures forall i :: 0 <= i < |r| ==> !IsSeparator(r[i])
    ensures forall i :: 0 <= i < |r| ==> r[i] == '_' || r[i] in s
    ensures (forall i :: 0 <= i < |s| ==> !IsSeparator(s[i])) ==> r == s
    decreases |s|
  {
    if |s| == 0 then ""
    else if IsSeparator(s[0]) then "_" + Collapse(DropSeparators(s))
    else
      var rest := Collapse(s[1..]);
      assert forall i :: 0 <= i < |rest| && rest[i] in s[1..] ==> rest[i] in s;
      [s[0]] + rest
  }

  /** `slugify(value)` for a string value. */
  function Slugify(s: string): (r: string) {
    Collapse(Lower(Strip(RemoveDisallowed(s))))
  }

  /** Stripping only removes characters. */
  lemma StripKeepsCharacters(s: string)
    ensures forall i :: 0 <= i < |Strip(s)| ==> Strip(s)[i] in s
  {
    var l := TrimLeft(s);
    var r := TrimRight(l);
    forall i | 0 <= i < |r|
      ensures r[i] in s
    {
      assert r[i] == l[i];
      assert l[i] == s[|s| - |l| + i];
    }
  }

  /** Every character of a slug is a lower-case letter, a digit or `_`:
      no whitespace, no hyphen, no punctuation is left. */
  lemma SlugifyChars(s: string)
    ensures IsSlug(Slugify(s))
  {
    var a := RemoveDisallowed(s);
    var b := Strip(a);
    StripKeepsCharacters(a);
    forall i | 0 <= i < |b|
      ensures Allowed(b[i])
    {
      var j :| 0 <= j < |a| && a[j] == b[i];
    }
    LowerAllowed(b);
    CollapseSlug(Lower(b));
  }

  /** Lower-casing allowed characters leaves slug characters and
      separators. */
  lemma LowerAllowed(b: string)
    requires forall i :: 0 <= i < |b| ==> Allowed(b[i])
    ensures forall i :: 0 <= i < |Lower(b)| ==> SlugChar(Lower(b)[i]) || IsSeparator(Lower(b)[i])
  {
  }

  /** Collapsing separators out of slug characters and separators leaves a
      slug. */
  lemma CollapseSlug(c: string)
    requires forall i :: 0 <= i < |c| ==> SlugChar(c[i]) || IsSeparator(c[i])
    ensures IsSlug(Collapse(c))
  {
    var d := Collapse(c);
    forall i | 0 <= i < |d|
      ensures SlugChar(d[i])
    {
      if d[i] != '_' {
        var j :| 0 <= j < |c| && c[j] == d[i];
      }
    }
  }

  /** A slug is never longer than the title. */
  lemma SlugifyShortens(s: string)
    ensures |Slugify(s)| <= |s|
  {
  }

  /** `slugify` leaves a string alone exactly when it is already made of
      slug characters. */
  lemma SlugifyFixedPoints(t: string)
    ensures Slugify(t) == t <==> IsSlug(t)
  {
    if IsSlug(t) {
      SlugUnchanged(t);
    } else {
      SlugifyChars(t);
    }
  }

  lemma SlugUnchanged(t: string)
    requires IsSlug(t)
    ensures Slugify(t) == t
  {
    assert forall i :: 0 <= i < |t| ==> Allowed(t[i]);
    var a := RemoveDisallowed(t);
    assert a == t;
    StripUnchanged(t);
    var b := Strip(a);
    assert b == t;
    LowerOfSlug(t);
    var c := Lower(b);
    assert c == t;
    CollapseOfSlug(t);
  }

  /** A slug has no separators to collapse. */
  lemma CollapseOfSlug(t: string)
    requires IsSlug(t)
    ensures Collapse(t) == t
  {
    assert forall i :: 0 <= i < |t| ==> !IsSeparator(t[i]);
  }

  /** Lower-casing leaves a slug alone. */
  lemma LowerOfSlug(t: string)
    requires IsSlug(t)
    ensures Lower(t) == t
  {
    assert forall i :: 0 <= i < |t| ==> LowerChar(t[i]) == t[i];
  }

  /** Slugifying a slug changes nothing. */
  lemma SlugifyIdempotent(s: string)
    ensures Slugify(Slugify(s)) == Slugify(s)
  {
    SlugifyChars(s);
    SlugifyFixedPoints(Slugify(s));
  }

  /** A cell value handed to the step 4 copy: a string, or anything else
      (an empty spreadsheet cell reads as a float NaN). */
  datatype CellValue = Text(s: string) | NotText

  /** The step 4 `slugify`: "untitled" for a value that is not a string. */
  function SlugifyCell(v: CellValue): (r: string)
    ensures IsSlug(r)
    ensures v.NotText? ==> r == "untitled"
    ensures v.Text? ==> r == Slugify(v.s)
  {
    match v
    case NotText => "untitled"
    case Text(s) => SlugifyChars(s); Slugify(s)
  }
}

=== FILE: sorting.dfy ===
/** `df.sort_values(by="AI_Score", ascending=False)`: the table is reordered
    so that scores do not increase. pandas' default sort is not stable, so
    the model fixes one order (an insertion sort) and claims only what every
    such sort guarantees: the result is a permutation of the input and its
    keys never increase. */
module Sorting {

  /** Keys never increase along `s`. */
  predicate NonIncreasing<T>(s: seq<T>, key: T -> int) {
    forall i, j :: 0 <= i < j < |s| ==> key(s[i]) >= key(s[j])
  }

  /** Puts `x` in front of the first element whose key is smaller. */
  function Insert<T>(x: T, s: seq<T>, key: T -> int): (r: seq<T>)
    requires NonIncreasing(s, key)
    ensures NonIncreasing(r, key)
    ensures multiset(r) == multiset(s) + multiset{x}
    ensures forall i :: 0 <= i < |r| ==> r[i] == x || r[i] in s
    decreases |s|
  {
    if |s| == 0 then [x]
    else if key(x) >= key(s[0]) then [x] + s
    else
      var rest := Insert(x, s[1..], key);
      assert s == [s[0]] + s[1..];
      HeadBoundsRest(s[0], rest, key);
      [s[0]] + rest
  }

  /** A head whose key bounds every later key keeps the order. */
  lemma HeadBoundsRest<T>(h: T, rest: seq<T>, key: T -> int)
    requires NonIncreasing(rest, key)
    requires forall i :: 0 <= i < |rest| ==> key(h) >= key(rest[i])
    ensures NonIncreasing([h] + rest, key)
  {
    var r := [h] + rest;
    forall i, j | 0 <= i < j < |r|
      ensures key(r[i]) >= key(r[j])
    {
      if i > 0 {
        assert r[i] == rest[i - 1] && r[j] == rest[j - 1];
      } else {
        assert r[j] == rest[j - 1];
      }
    }
  }

  /** The table ordered by descending key. */
  function SortDescending<T>(s: seq<T>, key: T -> int): (r: seq<T>)
    ensures NonIncreasing(r, key)
    ensures multiset(r) == multiset(s)
    decreases |s|
  {
    if |s| == 0 then []
    else
      assert s == s[..|s| - 1] + [s[|s| - 1]];
      Insert(s[|s| - 1], SortDescending(s[..|s| - 1], key), key)
  }
}
